=== FILE: README.md ===
# Clinic intake and examination migration, in Dafny

This project models the decision logic of a clinical-data intake backend.
Clinicians submit examination forms to a clinic store. A migration copies each submitted examination into a long-term store. An automatic acceptance step then decides whether a migrated examination may skip manual review. Around these, small request handlers derive a clinician's role, lock and unlock forms, move selections between review states, and serve locale files.

The model is functional. Documents are JavaScript values (`JsValues.Value`). A property read on `undefined` or `null` is an explicit exception (`Eval.Throws`), as are calls of methods a value does not have. A document store is a map from the tuple of filter values to the stored document (`UpsertStore`). Bulk writes are returned as command lists, and `UpsertStore.Apply` / `ApplySets` give their effect on a store.

Modules, following the source files:

- `JsValues`: values, truthiness, property reads and `||` defaults, plus lodash `find`, `Array.filter` and `Array.map`, which stop at the first exception.
- `UpsertStore`: `replaceOne` with upsert, where the last write wins, and `updateOne` with `$set`.
- `AcceptanceRules`: the rule tables of `src/long-term/auto-accept.js` and one interpreter for them. This covers `checkRules`, `indicateRules`, `checkSapRules` and `checkAcceptanceCriteria`.
- `AutoAccept`: the body-spot filter, the quality gate and the accept decision of `autoAccept`.
- `SyncExamination`: the command builders of `src/utils/sync-one-examination.js` and the ordered bulk writes of its exported function.
- `ReviewUpdates`: `buildBasicPipeline`, the `getExams` pipeline with its `limit` default, `updateExaminations` and `updateClinicExaminations` of `src/routes/clinic-data-management.js`.
- `FormAccess`: from `src/routes/app.js`, the grants and role, the rules by prefix, the readonly flag, lock and unlock, the examinations still to be added, and the submit gate.
- `Locales`: the locale lookup with its `"default"` fallback in `src/routes/i18n.js`.

Where the source reads something from the outside world, the model takes it as a parameter:

- store queries: the first matching document, or none;
- Firestore look-ups: the actor hits and an organization function;
- `uuid()`: a stream of ids;
- `new Date()`: a `now` value;
- the listener count of the event hub.

Behaviours of the code worth noting, which the model keeps:

- The quality gate is false for an examination without selected records. In JavaScript, `0 / 0` is `NaN`, and `NaN < 0.1` is false.
- Automatic acceptance only sets `state`, `updatedAt` and `updatedBy` on the examination. It does not unlink patient identifiers or write any identity mapping.
- The examination command stamps `synchronizedAt` and tags the examination with the actor and organization. It builds no `forms` sub-document and no `submitedAt`.
- The actor query reads `patientId.substring(0,3)` once a submission is found. A patient id that is not a string therefore throws before any write (`SyncOneExamination`).
- The examination command reads `fbActor.userId` and `fbOrganization.id` unguarded. So a submission whose actor or organization is not found aborts the run after the actor and organization writes (`SyncOneExamination`).
- The submit gate tests the requester's own `user.grants.submit`, not the account found by e-mail. The found account is only forwarded in the emitted settings (`SubmitOneExamination`).

## Model

| member | source | states |
|---|---|---|
| JsValues.Find | src/routes/app.js:50 | the index found is the first element the test accepts; none is found exactly when the test rejects every element; it throws exactly when the first element the test does not reject throws |
| JsValues.Filter | src/routes/app.js:60 | it succeeds exactly when the test succeeds on every element; each value occurs in the result exactly as often as in the input when the test accepts it, and not at all otherwise |
| JsValues.FilterKeepsOrder | src/routes/app.js:60 | the kept elements appear in input order: the result is a subsequence of the input |
| JsValues.FindFirstMatch | src/routes/app.js:50 | when an element passes and every earlier one fails without throwing, `find` returns that element |
| JsValues.LooseEqualsWord | src/long-term/auto-accept.js:11 | `v == "Yes"` (a word literal) holds exactly for the string itself and for an array whose text is that string, such as `["Yes"]` |
| JsValues.OneElementArrayEquals | src/long-term/auto-accept.js:11 | `["Yes"] == "Yes"`, `[["Yes"]] == "Yes"` and `[35] == "35"` all hold |
| JsValues.LongerArrayUnequal | src/long-term/auto-accept.js:11 | `["Yes", "No"]` is not `"Yes"` but is `"Yes,No"` |
| JsValues.JoinTexts | src/long-term/auto-accept.js:11 | the text of an array is defined exactly when every element has a text |
| JsValues.IntegerText | src/long-term/auto-accept.js:51 | an integer below 10^21 in magnitude has a decimal text, with a minus sign when negative |
| JsValues.ParseInt | src/routes/clinic-data-management.js:111 | `Number.parseInt` cuts a number towards zero, keeps an integer, and reads any other value through its text |
| JsValues.ParseIntNumeral | src/routes/clinic-data-management.js:111 | a numeral after white space and an optional sign, followed by text that does not start with a digit, reads as its signed value |
| JsValues.ParseIntExamples | src/routes/clinic-data-management.js:111 | "abc" and `true` read as `NaN`; 25.5 reads as 25 and -2.5 as -2 |
| JsValues.NatText | src/long-term/auto-accept.js:51 | the decimal text of a natural number is a digit run without a leading zero whose value is the number |
| JsValues.Trim | src/long-term/auto-accept.js:51 | trimming leaves no JavaScript white space at either end and keeps a string without such space unchanged |
| JsValues.StringToNumber | src/long-term/auto-accept.js:51 | `Number(s)`: an empty or blank string is 0, a decimal numeral (sign, fraction, exponent) its value, anything else `NaN` |
| JsValues.NumeralToNumber | src/long-term/auto-accept.js:51 | the numeral of n, as a string, a one-element array of that string, or a number, converts to n |
| JsValues.NegativeNumeralToNumber | src/long-term/auto-accept.js:51 | a minus-signed numeral, padded with white space, converts to -n |
| JsValues.PlusNumeralToNumber | src/long-term/auto-accept.js:51 | a plus-signed numeral converts to n |
| JsValues.DigitsDecimal | src/long-term/auto-accept.js:51 | a run of digits reads as its value |
| JsValues.DecimalText | src/long-term/auto-accept.js:51 | `w.f` reads as w plus the fraction f |
| JsValues.ExponentText | src/long-term/auto-accept.js:51 | a mantissa with `e` and a signed exponent reads as the mantissa scaled by that power of ten |
| JsValues.ForeignTextIsNaN | src/long-term/auto-accept.js:51 | a string holding a character that no numeral contains converts to `NaN` |
| JsValues.FractionExample | src/long-term/auto-accept.js:51 | "4.5" converts to 4.5 |
| JsValues.LeadingPointExample | src/long-term/auto-accept.js:51 | ".5" converts to 0.5 |
| JsValues.ExponentExamples | src/long-term/auto-accept.js:51 | "1e2" converts to 100 and "5e-1" to 0.5 |
| JsValues.NotNumeralExamples | src/long-term/auto-accept.js:51 | "" converts to 0, "12px" to `NaN`, `[1, 2]` to `NaN` and `[]` to 0 |
| JsValues.Map | src/routes/app.js:471 | it succeeds exactly when every call does; one result per element, in order |
| UpsertStore.LastWrite | src/utils/sync-one-examination.js:129-138 | reference definition of a bulk upsert: a key has a last write exactly when some command names it |
| UpsertStore.ApplyIsLastWrite | src/utils/sync-one-examination.js:129-138 | after a bulk upsert a key is present exactly when it was before or a command names it, and it holds the replacement of the last command on it, else its old document |
| UpsertStore.ApplyKeys | src/utils/sync-one-examination.js:233-246 | the keys after a bulk upsert are the old keys plus the command keys |
| UpsertStore.ApplyLeavesOthers | src/utils/sync-one-examination.js:233-246 | a key no command names keeps its presence and its document |
| UpsertStore.ApplyIdempotent | src/utils/sync-one-examination.js:233-246 | applying the same upserts twice leaves the store as applying them once |
| UpsertStore.RerunWithSameKeys | src/utils/sync-one-examination.js:233-246 | a second run with commands on the same keys leaves the store as the second run alone would, with the key set of the first run |
| UpsertStore.ApplySet | src/routes/clinic-data-management.js:175-190 | a `$set` merges its fields into a matched object document and keeps that document's other fields; it inserts nothing and leaves every other document alone |
| AcceptanceRules.Intersection | src/long-term/auto-accept.js:178 | exactly the choices that the value, an array, lists |
| AcceptanceRules.Indicate | src/long-term/auto-accept.js:132 | one outcome per rule, in table order; it fails exactly when some rule throws |
| AcceptanceRules.Somes | src/long-term/auto-accept.js:132 | the fired messages, the non-`false` outcomes: empty exactly when no rule fired |
| AcceptanceRules.SomesAppend | src/long-term/auto-accept.js:132 | filtering the concatenated tables is the concatenation of the filtered tables |
| AcceptanceRules.ToVerdict | src/long-term/auto-accept.js:133 | `false` exactly for no messages, otherwise the messages themselves |
| AcceptanceRules.NoneFiredIff | src/long-term/auto-accept.js:132-133 | no message remains exactly when no rule of the table fires |
| AcceptanceRules.EvaluateTable | src/long-term/auto-accept.js:186-189 | a table is clean exactly when no rule fires; otherwise its messages are exactly the fired rules' violations |
| AcceptanceRules.FullProtocolTablesShape | src/long-term/auto-accept.js:8-126 | 6 patient rules and 10 echo rules, each reading one field |
| AcceptanceRules.ResolvePath | src/long-term/auto-accept.js:132 | a one-field path is a property read of the subject; a two-field path such as `data.patient.data` throws on a missing subject and otherwise reads the second field of the first |
| AcceptanceRules.SingleFieldRuleOk | src/long-term/auto-accept.js:10-13 | a single-field rule throws exactly when the form section is missing |
| AcceptanceRules.SingleFieldTableOk | src/long-term/auto-accept.js:132 | a table of single-field rules evaluates exactly when its section is present |
| AcceptanceRules.CheckTwoTables | src/long-term/auto-accept.js:130-136 | evaluates exactly when both sections are present; clean exactly when no patient and no echo rule fires; otherwise the patient messages, then the echo messages |
| AcceptanceRules.CheckRules | src/long-term/auto-accept.js:130-136 | `checkRules` is `false` exactly when no rule fires, otherwise all patient messages then all echo messages, each in table order; it throws exactly when a form section is missing |
| AcceptanceRules.Results | src/long-term/auto-accept.js:142-144 | the tagged results read back as the untagged outcomes, in order |
| AcceptanceRules.IndicateTwoTables | src/long-term/auto-accept.js:139-149 | one entry per rule, patient entries first, carrying each rule's outcome |
| AcceptanceRules.IndicateRules | src/long-term/auto-accept.js:139-149 | `indicateRules` has 16 entries, the first 6 patient and the last 10 echo, on every input whose sections are present |
| AcceptanceRules.TwoTablesAgree | src/long-term/auto-accept.js:130-149 | for any two single-field tables, the checked verdict is the non-`false` entries of the indicated list, and clean exactly when every entry is `false` |
| AcceptanceRules.CheckRulesAgreesWithIndicateRules | src/long-term/auto-accept.js:130-149 | `checkRules` is the non-`false` entries of `indicateRules` in order, and is `false` exactly when every entry is |
| AcceptanceRules.CheckAcceptanceCriteriaAsWritten | src/long-term/auto-accept.js:193 | a missing bundle throws; an absent protocol or "Complete Protocol" selects `checkRules`, any other protocol the SAP rules as written |
| AcceptanceRules.CheckAcceptanceCriteria | src/long-term/auto-accept.js:193 | the same dispatch onto the SAP rules with the rhythm rule as intended |
| AcceptanceRules.RuleTablesUsePlainLiterals | src/long-term/auto-accept.js:8-182 | every equality literal is a word (starts with a letter, no surrounding space) and every set literal is non-empty, so a truthiness guard never hides a match |
| AcceptanceRules.EqualityLiteralsAreWords | src/long-term/auto-accept.js:11-16 | "Yes" and "Present" are words |
| AcceptanceRules.SingleFieldRuleOnDocument | src/long-term/auto-accept.js:10-13 | on a present section a rule fires exactly when its test holds of its field, and its violation shows the rule's title and the field's value |
| AcceptanceRules.TableRuleSemantics | src/long-term/auto-accept.js:10-65 | an equality rule fires exactly when its field is the literal string or an array whose text is the literal; a membership rule exactly when the field is a string in the literal set; the threshold rule exactly when the field is truthy and converts to a number at most the bound |
| AcceptanceRules.FullProtocolRuleSemantics | src/long-term/auto-accept.js:8-126 | the same reading, equality, membership and threshold, for every rule of the actual patient and echo tables |
| AcceptanceRules.EfRuleExamples | src/long-term/auto-accept.js:50-53 | `ef` 0 and an absent `ef` do not fire; 35 fires with its value; 41 does not fire |
| AcceptanceRules.NumeralThreshold | src/long-term/auto-accept.js:51 | `ef` given as the numeral of n, as a one-element array of it, or as `[n]` fires exactly when n ≤ 40 |
| AcceptanceRules.EfTextExamples | src/long-term/auto-accept.js:51 | `ef: "35"` fires showing "35"; `ef: "41"` does not |
| AcceptanceRules.EfArrayExamples | src/long-term/auto-accept.js:51 | `ef: [35]` fires; `ef: "abc"` does not |
| AcceptanceRules.HeartFailureArrayFires | src/long-term/auto-accept.js:11 | `heart_failure_choice: ["Yes"]` fires showing the array |
| AcceptanceRules.NothingFiresOnEmptyForm | src/long-term/auto-accept.js:8-126 | no single-field rule fires on an empty form section |
| AcceptanceRules.FullProtocolExamples | src/long-term/auto-accept.js:130-136 | empty forms are clean; "heart failure: Yes" yields violations |
| AcceptanceRules.EmptyFormsClean | src/long-term/auto-accept.js:130-136 | empty patient and echo forms give `false` |
| AcceptanceRules.HeartFailureFires | src/long-term/auto-accept.js:130-136 | a patient form with heart failure "Yes" gives a violation list |
| AcceptanceRules.DispatchExamples | src/long-term/auto-accept.js:193 | no protocol or "Complete Protocol" gives the full check; "SAP" gives the SAP check |
| AcceptanceRules.SapRhythmRuleThrows | src/long-term/auto-accept.js:177-180 | with the patient and EKG sections present, the SAP check as written throws exactly when the EKG rhythm is truthy |
| AcceptanceRules.SapPatientRulesQuiet | src/long-term/auto-accept.js:157-175 | the four SAP patient rules do not fire on an empty patient section |
| AcceptanceRules.SapRhythmCounterexample | src/long-term/auto-accept.js:178 | an EKG with one "V extrasystole" makes the SAP check as written throw |
| AcceptanceRules.ExtrasystoleIntersection | src/long-term/auto-accept.js:178 | the intersection for that EKG is ["V extrasystole"] |
| AcceptanceRules.SapRhythmCounterexampleIntended | src/long-term/auto-accept.js:178 | as intended, that EKG yields exactly the violation "Rhythm: V extrasystole" |
| AcceptanceRules.EvaluateTableOn | src/long-term/auto-accept.js:186-189 | a table's verdict is determined by its rules' outcomes |
| AcceptanceRules.EvaluateTableLastFires | src/long-term/auto-accept.js:186-189 | a table whose last rule alone fires reports exactly that rule's violation |
| AcceptanceRules.ExtrasystoleRhythmReported | src/long-term/auto-accept.js:178 | as intended, the rhythm rule reports "V extrasystole" for that EKG |
| AcceptanceRules.SapRhythmRuleIntended | src/long-term/auto-accept.js:177-180 | the intended rhythm rule fires exactly when the rhythm array names one of the three extrasystole kinds |
| AcceptanceRules.IntersectsFires | src/long-term/auto-accept.js:178 | an intersection test fires exactly when the value is an array naming one of the choices |
| AcceptanceRules.IntersectionArray | src/long-term/auto-accept.js:178 | the array `_.intersection` returns holds the common choices, in order |
| AcceptanceRules.LodashBoundFiresOnTruthy | src/long-term/auto-accept.js:178 | with `_` bound and the condition as written, the rule fires exactly when the rhythm is truthy, because the returned array is truthy even when empty |
| AcceptanceRules.SinusRhythmNeedsNonEmptyIntersection | src/long-term/auto-accept.js:178 | a rhythm `["sinus"]` has no extrasystole, yet fires with `_` merely bound; the intended rule does not fire |
| AutoAccept.SelectRecords | src/long-term/auto-accept.js:269-274 | the gate sees exactly the records on an available body spot, as `{id, qty}` with `qty` from `aiSegmentation.quality` or undefined |
| AutoAccept.SelectRecordsAppend | src/long-term/auto-accept.js:269-274 | selection distributes over concatenation, so record order is kept |
| AutoAccept.CountBad | src/long-term/auto-accept.js:197 | the number of `qty == "bad"` entries; zero exactly when none is bad |
| AutoAccept.CountBadAppend | src/long-term/auto-accept.js:197 | the bad count of a concatenation is the sum of the counts |
| AutoAccept.CheckRecordsQuality | src/long-term/auto-accept.js:197 | the gate passes exactly when 10 × bad < total, and fails on an empty list |
| AutoAccept.RatioBelowTenth | src/long-term/auto-accept.js:197 | for a non-empty list, bad / total < 0.1 exactly when 10 × bad < total |
| AutoAccept.QualityBoundary | src/long-term/auto-accept.js:197 | 0 of 10 and 9 of 100 bad pass; 10 of 100 and the empty list fail |
| AutoAccept.OtherSpotsIgnored | src/long-term/auto-accept.js:233-241 | records on other body spots, before or after, do not change what the gate sees |
| AutoAccept.NoneSelected | src/long-term/auto-accept.js:270 | records on other spots only leave the gate nothing |
| AutoAccept.AvailableSpotsAreLabels | src/long-term/auto-accept.js:233-241 | every available body spot is a label the migration writes from some spot name |
| AutoAccept.AcceptExamination | src/long-term/auto-accept.js:201-220 | the update targets the examination's `id` and sets exactly `state` "accepted", `updatedAt` now and `updatedBy` "AUTO ACCEPT" |
| AutoAccept.AutoAcceptAsWritten | src/long-term/auto-accept.js:224-290 | as written: rejected exactly when `user.submit.schema` throws; not found, failed (rules throw, caught) or accepted exactly when the rules report violations and the gate passes |
| AutoAccept.AutoAccept | src/long-term/auto-accept.js:277 | as intended: accepted exactly when the forms pass every rule and the gate passes, with the accept update on the schema's examinations |
| AutoAccept.AcceptedUpdate | src/long-term/auto-accept.js:207-218 | accepting marks the stored examination accepted by "AUTO ACCEPT", keeps its other fields and leaves other examinations alone |
| AutoAccept.AcceptMarks | src/long-term/auto-accept.js:207-218 | the accept update of an examination marks it accepted by "AUTO ACCEPT", keeps its other fields and leaves other examinations alone |
| AutoAccept.AsWrittenSapRhythmFails | src/long-term/auto-accept.js:277-288 | as written, an SAP examination with a recorded rhythm always ends in the caught exception |
| AutoAccept.ExampleGatePasses | src/long-term/auto-accept.js:269-274 | one good Apex record passes the gate |
| AutoAccept.ExampleCriteria | src/long-term/auto-accept.js:193 | the example examination's forms go to the full check in both versions |
| AutoAccept.AsWrittenAcceptsViolations | src/long-term/auto-accept.js:277 | as written, the examination with heart failure is accepted and the clean one is not |
| AutoAccept.AsWrittenAcceptsHeartFailure | src/long-term/auto-accept.js:277 | as written, the examination with heart failure is accepted |
| AutoAccept.AsWrittenRejectsClean | src/long-term/auto-accept.js:277 | as written, the clean examination is not accepted |
| AutoAccept.IntendedAcceptsClean | src/long-term/auto-accept.js:277 | as intended, the clean examination is accepted with the accept update and the one with heart failure is not |
| SyncExamination.Extend | src/utils/sync-one-examination.js:266 | `extend` sets protocol, organization, user, actor and organization document and keeps the examination and the recordings |
| SyncExamination.ExtendKeeps | src/utils/sync-one-examination.js:266 | every field other than the five extended ones is unchanged |
| SyncExamination.FormCommand | src/utils/sync-one-examination.js:39-61 | a form record keyed by (patientId, type) carries its own key, a fresh id and the examination id; a present section goes unchanged into `en` and `uk`, a missing one becomes `{}` |
| SyncExamination.BuildFormCommands | src/utils/sync-one-examination.js:35-139 | exactly 4 upserts in the order patient, ekg, echo, attachements, each keyed (patientId, type); missing sections become `{en:{}, uk:{}}` and missing attachements `[]` |
| SyncExamination.BuildExaminationCommand | src/utils/sync-one-examination.js:141-159 | it throws exactly when the actor or the organization is missing; otherwise one upsert keyed by patientId with state "inReview", the protocol, org, time, actor id and organization id, other fields kept |
| SyncExamination.ActorCommands | src/utils/sync-one-examination.js:161-171 | one upsert of the actor on its `userId` exactly when the actor was found |
| SyncExamination.OrgCommandsAsWritten | src/utils/sync-one-examination.js:173-183 | as written: one upsert of the organization on its `userId`, exactly when it was found |
| SyncExamination.OrgCommands | src/utils/sync-one-examination.js:173-183 | as intended: one upsert of the organization on its `id`, exactly when it was found |
| SyncExamination.OrgKeyAsWrittenMisses | src/utils/sync-one-examination.js:177 | as written, the organization `{id: "o1"}` is filed under an undefined key, not its id |
| SyncExamination.OrgCommandsAsWrittenCollide | src/utils/sync-one-examination.js:177 | as written, two different organizations are filed under one undefined key; in the key-to-document store the second replaces the first |
| SyncExamination.OrgCommandMatchesExamination | src/utils/sync-one-examination.js:141-183 | as intended, the organization's key is the `organization` value the examination records |
| SyncExamination.CarriesSingleFilter | src/utils/sync-one-examination.js:161-183 | a one-field filter is carried exactly when the replacement holds the filter value in that field |
| SyncExamination.FormCarriesFilter | src/utils/sync-one-examination.js:39-61 | a form document carries its `patientId` and `type` filter values |
| SyncExamination.ExaminationCarriesFilter | src/utils/sync-one-examination.js:141-159 | the examination document carries its `patientId` filter value |
| SyncExamination.LookupsCarryFilters | src/utils/sync-one-examination.js:161-183 | the actor document carries its `id` filter value exactly when its `id` equals its `userId`; the intended organization always does |
| SyncExamination.OrgAsWrittenLosesFilter | src/utils/sync-one-examination.js:173-183 | as written, the organization carries its `id` filter value exactly when its `id` equals its `userId`, so `{id: "o1"}` does not |
| SyncExamination.LabelCommandsCarryFilters | src/utils/sync-one-examination.js:233-246 | every label document carries its four filter values |
| SyncExamination.SpotLabel | src/utils/sync-one-examination.js:216 | a spot name has a label exactly when it is one of the mapped names, and the label is the mapped one |
| SyncExamination.SpotMapSize | src/utils/sync-one-examination.js:185-200 | `spotMap` maps exactly 14 names |
| SyncExamination.SpotMapLabels | src/utils/sync-one-examination.js:185-200 | `mitral` maps to "Apex" and no two names share a label |
| SyncExamination.DocumentCarriesKey | src/utils/sync-one-examination.js:233-246 | a label document carries its own filter values, so a later upsert finds it |
| SyncExamination.BuildRecord | src/utils/sync-one-examination.js:205-231 | a label record is built exactly when the recording, its Source, the user's submit settings and the patient form exist; it is keyed by (patientId, position, mapped spot, device) with `path = Source.path` |
| SyncExamination.BuildRecords | src/utils/sync-one-examination.js:205 | one record per recording, in order, each with its own fresh id |
| SyncExamination.UpsertEach | src/utils/sync-one-examination.js:233-246 | each record becomes one upsert of its document on its filter |
| SyncExamination.BuildRecordCommands | src/utils/sync-one-examination.js:204-247 | one upsert per recording, in input order, keyed by (Examination ID, Body Position, Body Spot, model); it throws unless the recordings form an array of readable recordings |
| SyncExamination.RecordKeysIgnoreIdsAndTime | src/utils/sync-one-examination.js:233-246 | record keys do not depend on the fresh ids or the time |
| SyncExamination.RunRecordKeys | src/utils/sync-one-examination.js:322-332 | the label commands of two runs succeed together and use the same keys, in order |
| SyncExamination.RecordCommandsRerun | src/utils/sync-one-examination.js:233-246 | re-applying the record commands of a second run leaves the labels as that run alone would, with the same key set |
| SyncExamination.WriteIfAny | src/utils/sync-one-examination.js:274-280 | a bulk write happens exactly when there are commands |
| SyncExamination.LookupWrites | src/utils/sync-one-examination.js:258-293 | as written: the users collection is written exactly when the actor was found, organizations exactly when the organization was found; the actor is keyed on its `userId`, and so is the organization |
| SyncExamination.LookupWritesIntended | src/utils/sync-one-examination.js:258-293 | as intended: users written exactly when the actor was found, organizations exactly when the organization was found, the actor keyed on its `userId` and the organization on its `id` |
| SyncExamination.LookupWritesAgree | src/utils/sync-one-examination.js:258-293 | the intended look-up writes go to the same collections in the same order as the writes as written, and every write other than the organization's is identical |
| SyncExamination.StoreWrites | src/utils/sync-one-examination.js:295-332 | the examination is written exactly when its command does not throw; the run completes exactly when the record commands do not throw either, and then returns exactly the record replacements |
| SyncExamination.ActorQueryPrefix | src/utils/sync-one-examination.js:258 | `patientId.substring(0,3)` succeeds exactly on a string id and yields its first three characters, or all of a shorter id |
| SyncExamination.SyncOneExamination | src/utils/sync-one-examination.js:250-371 | as written: with nothing submitted nothing is written and nothing is returned; a submission with a patient id that is not a string aborts with no write; otherwise actor and organization are written exactly when found, the organization keyed on its `userId`; a missing actor or organization aborts before the examination write |
| SyncExamination.StoreSubmitted | src/utils/sync-one-examination.js:295-332 | the examination stage writes neither users nor organizations and ends aborted or synced; a missing actor or organization aborts it without an examination write |
| SyncExamination.SyncOneExaminationIntended | src/utils/sync-one-examination.js:250-371 | as intended: the same cases, with the organization keyed on its `id` |
| SyncExamination.IntendedAgreesWithAsWritten | src/utils/sync-one-examination.js:250-371 | the intended run has the outcome and the targets of the run as written, and every write other than the organization's is identical |
| SyncExamination.AsWrittenSplits | src/utils/sync-one-examination.js:258-332 | a submitted run as written with a string patient id is its look-up writes followed by the examination stage |
| SyncExamination.IntendedSplits | src/utils/sync-one-examination.js:258-332 | the same decomposition for the intended run |
| SyncExamination.SyncedReturnsRecords | src/utils/sync-one-examination.js:367-370 | a completed run had a string patient id and returns exactly the replacements of its record commands, one per recording, after writing the examination and the forms |
| SyncExamination.StoredRecords | src/utils/sync-one-examination.js:322-332 | a completed store step had an array of recordings and returns one record per recording |
| SyncExamination.SyncRerunSameKeys | src/utils/sync-one-examination.js:250-332 | two runs on the same submission write to the same collections on the same keys in the same order |
| SyncExamination.StoreWritesSameKeys | src/utils/sync-one-examination.js:295-332 | command lists on the same keys give bulk writes on the same targets and keys, and both complete or neither |
| SyncExamination.ExaminationKeys | src/utils/sync-one-examination.js:141-159 | the examination command of two runs succeeds together and uses the same key |
| SyncExamination.FormKeys | src/utils/sync-one-examination.js:35-139 | the form commands of two runs use the same keys |
| SyncExamination.SameKeyWritesAppend | src/utils/sync-one-examination.js:250-332 | same-key write lists stay so when joined |
| SyncExamination.StoreRerunSameKeys | src/utils/sync-one-examination.js:295-332 | the examination, form and label writes of two runs use the same keys |
| ReviewUpdates.BuildBasicPipeline | src/routes/clinic-data-management.js:10-44 | it throws exactly on missing options; the 4 fixed stages come first, followed by the `matchExamination` array's stages, that one value, or nothing when it is falsy |
| ReviewUpdates.BasicPipelineExtends | src/routes/clinic-data-management.js:10-44 | with stages S the pipeline is the fixed stages followed by S; without the option it is the fixed stages |
| ReviewUpdates.ExamsLimit | src/routes/clinic-data-management.js:101 | the limit is the given one when truthy and 100 otherwise |
| ReviewUpdates.GetExamsQuery | src/routes/clinic-data-management.js:96-119 | it throws exactly on missing options; the stages are the basic pipeline followed by the newest-first sort; the `$limit` is 100 when no truthy limit is given, else `Number.parseInt` of the limit given |
| ReviewUpdates.ExamsLimitStage | src/routes/clinic-data-management.js:101-111 | a limit given as a numeral, even one followed by a unit, caps the list at that number |
| ReviewUpdates.ExamsLimitZero | src/routes/clinic-data-management.js:101-111 | the number 0 falls back to a limit of 100, while the text "0" gives a limit of 0 |
| ReviewUpdates.FirstOccurrences | src/routes/clinic-data-management.js:170-172 | the schemas of the selection without repeats, covering exactly the schemas present |
| ReviewUpdates.Group | src/routes/clinic-data-management.js:170 | a group holds exactly the selected items of that schema |
| ReviewUpdates.GroupsPartition | src/routes/clinic-data-management.js:170-195 | over distinct schemas covering the selection, the groups hold as many items as the selection |
| ReviewUpdates.StatusOrDefault | src/routes/clinic-data-management.js:168 | the status is the given one when truthy, else "inReview" |
| ReviewUpdates.UpdatedBy | src/routes/clinic-data-management.js:185-188 | `{user, role}` from the grants, throwing exactly when the user or the grants are missing |
| ReviewUpdates.StatusUpdates | src/routes/clinic-data-management.js:173-193 | one update per item, in order, on the item's `uuid`, setting the status, time and author |
| ReviewUpdates.SchemaBatches | src/routes/clinic-data-management.js:172-195 | one batch per schema, each with the updates of that schema's group |
| ReviewUpdates.UpdateExaminations | src/routes/clinic-data-management.js:165-208 | an empty selection does nothing; otherwise it throws exactly on a missing item or missing grants, else one batch per distinct schema in order of first appearance, each with one `state` update per item of that schema |
| ReviewUpdates.UpdateExaminationsPartition | src/routes/clinic-data-management.js:170-195 | batches are for different schemas, every item's schema has a batch, and there are exactly as many updates as selected items |
| ReviewUpdates.UpdateClinicExaminations | src/routes/clinic-data-management.js:210-245 | an empty selection does nothing; otherwise one update per item, in order, on its `uuid`, setting `adeStatus` |
| ReviewUpdates.StatusApplied | src/routes/clinic-data-management.js:181-190 | after the bulk write every matched selected form holds the new status, and forms nobody selected are unchanged |
| FormAccess.Includes | src/routes/app.js:50 | substring on strings, element test on arrays, an exception on anything else |
| FormAccess.FindAccount | src/routes/app.js:50 | the account found is an object and the first whose e-mail contains the requester's; none is found exactly when no e-mail matches; it throws exactly when the first account whose test does not fail throws; with a non-empty account list, a missing requester throws |
| FormAccess.Role | src/routes/app.js:59-65 | "writer" exactly when the prefixes form an array, can all be compared and one starts the examination ID, else "reader" |
| FormAccess.RoleByPrefix | src/routes/app.js:59-65 | with string prefixes, "writer" exactly when some prefix starts the ID |
| FormAccess.GetGrants | src/routes/app.js:43-75 | access is denied, naming the e-mail, exactly when no account matches a present requester; the call fails exactly when the look-up throws, the requester is missing and nothing matched, or the role of the account found throws; whenever an account is found and its role evaluates (or there is no examination ID), the grants are returned: the account unchanged without an ID, with its role set otherwise |
| FormAccess.GrantsWithoutExamination | src/routes/app.js:50-57 | without an examination ID the account found is granted as the account list given to the call holds it |
| FormAccess.GrantsRoleByPrefix | src/routes/app.js:59-67 | with string prefixes, the account found is granted with role "writer" exactly when some prefix starts the examination ID, else "reader" |
| FormAccess.Prefix3 | src/routes/app.js:87 | the first three characters, or the whole ID when shorter |
| FormAccess.GetRules | src/routes/app.js:78-102 | the first rule set whose `patientPrefix` includes the ID's first three characters, or `{recordings: [], files: []}` when none does |
| FormAccess.RulesByPrefixOnly | src/routes/app.js:87-91 | two IDs with the same first three characters get the same rules |
| FormAccess.NotAvailableReply | src/routes/app.js:139-143 | the not-available reply names the ID and e-mail; a missing user makes it a failure |
| FormAccess.GetForms | src/routes/app.js:105-152 | `readonly` is false exactly when the examination state is "pending", true otherwise, with the other fields unchanged |
| FormAccess.Lock | src/routes/app.js:180-181 | lock adds "locked by" and "locked at" and leaves the other fields unchanged |
| FormAccess.Unlock | src/routes/app.js:238-239 | unlock removes both lock fields and leaves the other fields unchanged |
| FormAccess.UnlockUndoesLock | src/routes/app.js:180-239 | unlock after lock equals unlock alone, restores an unlocked form, and is idempotent |
| FormAccess.ReplaceForm | src/routes/app.js:183-190 | the form is written under its `examination.patientId`, throwing when the examination is missing |
| FormAccess.LockForms | src/routes/app.js:155-207 | the found form is written back locked by `grants.name`; without a form, the not-available reply |
| FormAccess.UnlockForms | src/routes/app.js:210-267 | the found form is written back without its lock; without a form, the not-available reply |
| FormAccess.UpdateForms | src/routes/app.js:269-296 | the edited form replaces the stored one without the lock fields |
| FormAccess.LockThenUnlock | src/routes/app.js:155-267 | unlocking a just-locked form writes it under the same key without the lock |
| FormAccess.Difference | src/routes/app.js:471 | the IDs of the first list that are not in the second |
| FormAccess.ToBeAdded | src/routes/app.js:471-475 | it throws exactly on a missing intake entry or a missing pending examination; otherwise exactly the intake entries whose ID is not pending |
| FormAccess.ToBeAddedMembers | src/routes/app.js:471-475 | an intake entry is kept exactly when its ID differs from every pending form's ID |
| FormAccess.ToBeAddedInOrder | src/routes/app.js:471-475 | the result keeps intake order and duplicates: it is the intake list with the pending IDs filtered out |
| FormAccess.SubmitOneExamination | src/routes/app.js:535-568 | the listener is registered exactly when none is; the settings are emitted exactly when the requester's `user.grants.submit` is truthy, carrying the found account and the request id |
| FormAccess.SubmitGateIgnoresAccounts | src/routes/app.js:542-556 | two account lists that both let the request through agree on the listener and on whether the settings are emitted; the emitted settings differ at most in `user` |
| FormAccess.SubmitForwardsSettings | src/routes/app.js:542-556 | the emitted settings are the request's settings with `user` and `requestId` set and every other field kept |
| Locales.FindLocale | src/routes/i18n.js:9 | the first entry with the requested name, or undefined |
| Locales.GetLocale | src/routes/i18n.js:9 | the requested entry when found, otherwise the "default" entry (or undefined) |
| Locales.GetLocaleMd5 | src/routes/i18n.js:26-35 | it replies exactly when the look-up succeeds and either the requested entry is found or a "default" entry exists; the reply is the requested locale with its entry's md5 when found, else "default" with the default's md5; it throws when neither exists |
| Locales.FirstNamed | src/routes/i18n.js:26 | lookup takes the first entry with the name, so later duplicates are ignored |
| Locales.FoundLocale | src/routes/i18n.js:26-35 | a present locale is served from its first entry, and the md5 is that entry's |
| Locales.FallbackLocale | src/routes/i18n.js:27-30 | an absent locale is served from the first "default" entry and reported as "default" |
| Locales.NoDefault | src/routes/i18n.js:32-35 | with neither the locale nor "default", `getLocale` sends undefined and `getLocaleMd5` fails |

## Left out

- Store, Firestore, event-hub and HTTP I/O. This covers `aggregate`, `bulkWrite`, `replaceOne`, `updateOne`, the Firestore batch at the end of the migration, the AMQP publisher, and `res.send`. Queries are parameters and writes are returned as commands.
- The collection configuration chosen from `organization`. Writes name their collection abstractly (`Target`, `SchemaBatch.schema`).
- `uuid()` and `new Date()`: parameters (`ids`, `uuids`, `requestId`, `now`).
- Floating point. Numbers are exact reals, so `NaN`, `Infinity` and double rounding are not modelled. The quality gate's `NaN` case on an empty list is derived as "false".
- JsValues.LooseEquals, JsValues.ToText: a number that is not an integer, or whose magnitude is 10^21 or more, has no modelled text, so an array holding one compares unequal to every literal.
- AcceptanceRules.TableRuleSemantics, AcceptanceRules.CheckRules: `Number(s)` reads only decimal numerals. Hexadecimal, octal and binary numerals and "Infinity" read as `NaN`, so `ef: "0x10"` and `ef: "-Infinity"` do not fire in the model although they do in JavaScript.
- SyncExamination.SyncRerunSameKeys: the key-to-document store matches a document by the key it was stored under. A document store matches by the fields of the stored document, and the two agree only for replacements that carry their filter values. Forms, the examination and the labels always do. The actor does when its `id` equals its `userId`. The organization as written does not (`OrgAsWrittenLosesFilter`).
- Property reads on primitives: `Get` on a string or array gives `undefined`. Inherited object keys such as `constructor` are not modelled as present.
- `String(x)` coercion of a `spotMap` key. `SpotLabel` maps only string spot names.
- FormAccess.Includes: a non-string needle on a string haystack is coerced to text in JavaScript. The model reads that call as throwing.
- FormAccess.Role: a non-string prefix is coerced by `startsWith` in JavaScript. The model reads that test as throwing.
- ReviewUpdates.UpdateExaminations: lodash `groupBy` keys are strings and list integer-like keys first. The model groups by the schema value itself, in order of first appearance, so `1` and `"1"` are two groups in the model.
- ReviewUpdates.UpdateExaminations: the selection is taken to be an array, as the request body sends it. A string selection is not modelled.
- FormAccess.SubmitOneExamination: the request id and the settings are returned. The log lines are not.
- AcceptanceRules.Violation: each message is rendered in the source as the text `title: <b>value</b>`. The model keeps the title and the value as a pair and does not build the HTML text.
- JsValues.ParseInt: only base 10 is read. A text starting with `0x` reads as 0 in the model, where JavaScript reads hexadecimal. A number below 10^-6 or at least 10^21 in magnitude is cut towards zero, where JavaScript reads its exponent text (`parseInt(1e21)` is 1). An array holding a non-integer number reads as `NaN`.
- FormAccess.GetGrants: the source sets `role` on the account object itself, and that object belongs to the shared request cache (src/routes/preloaded-cache.js:56-58). The role therefore persists in the cache across requests until it is reloaded: a later call without an examination ID returns the role an earlier call left, and `postSubmitOneExamination` forwards that account. The model is a pure function of the account list given to one call. It returns the account with its role set and does not write it back, so the list a later call receives is a parameter, not the one this call changed.
- AutoAccept.AcceptExamination, AutoAccept.AcceptMarks, AutoAccept.AcceptedUpdate: `docdb.updateOne` is not part of this model. Its `data: {state, updatedAt, updatedBy}` is read as a `$set` merge (`UpsertStore.ApplySet`), so "keeps its other fields" holds under that reading of the store call.
- Locales.NameIs, Locales.GetLocale, Locales.GetLocaleMd5: the `locale` query parameter is taken to be a single string or absent. A repeated parameter (`?locale=a&locale=b`) arrives as an array, and `d.name == locale` then compares the name with the text "a,b". This case is not modelled.
- FormAccess.GetGrants: the reply for a caught exception carries the request body. The model reduces it to `GrantsFailed`.
- `getExaminationList`, `syncAssets`, `initMigrateExamination`, the asset copying, the upload and cache routes, and the external workflow are outside this model.
- The `Number.parseInt`/`JSON.parse` handling of string request bodies in `unlockForms` is not modelled.
- The collection of a `lookup` in `autoAccept` is not modelled; its result is a parameter (`Joined`).

## Findings

| source | as written | input that shows it | evidently intended | confidence | as-written member | corrected member |
|---|---|---|---|---|---|---|
| src/long-term/auto-accept.js:277 | proceeds to `acceptExamination` when `checkAcceptanceCriteria` is truthy, that is when the rules report at least one violation | forms with `heart_failure_choice: "Yes"` and one good Apex record are accepted; the same examination with clean forms is not | accept when no rule fires (`checkAcceptanceCriteria` returns `false`) and the quality gate passes | high, not executed | AutoAccept.AsWrittenAcceptsViolations | AutoAccept.IntendedAcceptsClean |
| src/long-term/auto-accept.js:178 | the SAP rhythm rule calls `_.intersection`, but `_` is never bound in the file; and its condition tests the returned array, which is truthy even when empty | an SAP examination whose EKG rhythm is `["V extrasystole"]` makes the check throw, and the exception is caught and logged; with `_` bound, a rhythm `["sinus"]` would still fire | bind `_` to lodash and fire only when the intersection is non-empty, reporting the extrasystoles found | high, not executed | AcceptanceRules.SapRhythmCounterexample, AcceptanceRules.SinusRhythmNeedsNonEmptyIntersection | AcceptanceRules.SapRhythmCounterexampleIntended, AcceptanceRules.SapRhythmRuleIntended |
| src/utils/sync-one-examination.js:177 | the organization is upserted on `fbOrganization.userId` | organizations `{id: "o1"}` and `{id: "o2"}` are both filed under the filter `{id: undefined}`; in a document store that filter matches no stored organization, so every run inserts another copy; in the key-to-document store of this model the second replaces the first | upsert on `fbOrganization.id`, the value the examination records as its `organization` | medium, not executed | SyncExamination.OrgCommandsAsWrittenCollide, SyncExamination.OrgAsWrittenLosesFilter, SyncExamination.SyncOneExamination | SyncExamination.SyncOneExaminationIntended, SyncExamination.OrgCommandMatchesExamination |

=== FILE: acceptance_rules.dfy ===
/** The acceptance rule engine of the long-term migration: fixed, ordered
    tables of clinical predicates over the submitted forms, evaluated by one
    interpreter into a list of violations or "clean".

    A rule reads one field (through a path of property reads) and applies an
    equality, membership, threshold or intersection test to it. A rule that
    matches yields a violation carrying the rule's title and the value shown
    to the reviewer; the source renders it as `<title>: <b><value></b>`. */
module AcceptanceRules {
  import opened JsValues

  /** The test a rule applies to the value it reads. */
  datatype Test =
    | Equals(literal: string)                   // `v && v == literal`
    | OneOf(literals: seq<string>)              // `v && [literals].includes(v)`
    | AtMost(bound: real)                       // `v && v <= bound`
    | UnboundIntersection(choices: seq<string>) // `v && _.intersection(choices, v)` with `_` never bound
    | Intersects(choices: seq<string>)          // `_.intersection(choices, v)` is non-empty

  datatype Rule = Rule(path: seq<string>, test: Test, title: string)

  datatype Violation = Violation(title: string, value: Value)

  /** `false` (clean) or the non-empty list of violations. */
  datatype Verdict = Clean | Violations(messages: seq<Violation>) {
    /** JavaScript truthiness of the returned value: `false`, or an array. */
    predicate IsTruthy() {
      Violations?
    }
  }

  // ---------------------------------------------------------------------
  // Rule tables
  // ---------------------------------------------------------------------

  /** Rules over `forms.patient.data`, in table order. */
  const PatientRules: seq<Rule> := [
    Rule(["heart_failure_choice"], Equals("Yes"), "Heart Failure"),
    Rule(["atrial_fibrillation_definition"], Equals("Present"), "At the moment of heart sound recording Atrial fibrillation is"),
    Rule(["af_definition"], Equals("Present"), "At the moment of heart sound recording, AF is"),
    Rule(["pulmonary_hypertension"], Equals("Yes"), "Pulmonary hypertension"),
    Rule(["pulmonary_embolism"], OneOf(["acute", "chronic", "acute in the past"]), "Pulmonary Embolism"),
    Rule(["cardiomyopathy_type"], OneOf(["Hypertrophic Obstructive", "Hypertrophic Non-Obstructive"]), "Cardiomyopathy Type")
  ]

  const MitralRegurgitationStages: seq<string> := [
    "B Progressive",
    "C1 Asymptomatic severe (LVEF > 60% and LVESD < 40mm)",
    "C2 Asymptomatic severe (LVEF < 60% and LVESD > 40mm)",
    "D Symptomatic severe",
    "Undefined",
    "Acute"
  ]

  /** Rules over `forms.echo.data`, in table order. */
  const EchoRules: seq<Rule> := [
    Rule(["aortic_dissection"], OneOf(["DeBakey I", "DeBakey II", "DeBakey III"]), "Aortic dissection"),
    Rule(["ef"], AtMost(40.0), "EF (apical access, 4-chamber position, Simpson algorithm)"),
    Rule(["mitral_regurgitation_stage"], OneOf(MitralRegurgitationStages), "Mitral regurgitation stage"),
    Rule(["mitral_stenosis_stage"],
      OneOf(["B Progressive MS", "C Asymptomatic severe MS", "D Symptomatic severe MS"]),
      "Mitral stenosis stage"),
    Rule(["aortic_regurgitation_stage"],
      OneOf(["B Progressive Moderate AR",
             "C1 Asymptomatic severe AR, LVEF \U{2265} 50%, LVESD \U{2264} 50mm",
             "C2 Asymptomatic severe AR, LVEF < 50%, LVESD > 50mm",
             "D Symptomatic severe AR"]),
      "Aortic regurgitation stage"),
    Rule(["aortic_stenosis_stage"],
      OneOf(["B - Progressive moderate",
             "C1 - Asymptomatic severe with normal EF",
             "C2 - Asymptomatic severe with low EF",
             "D1 - Symptomatic severe High gradient",
             "D2 - Symptomatic severe LG reduced EF",
             "D3 - Symptomatic severe LG normal EF"]),
      "Aortic stenosis stage"),
    Rule(["tricuspid_regurgitation_stage"],
      OneOf(["B - Progressive TR Moderate", "C - Asymptomatic severe TR", "D - Symptomatic severe TR", "Undefined"]),
      "Tricuspid regurgitation stage"),
    Rule(["pulmonary_regurgitation_stage"], OneOf(["Moderate", "Severe"]), "Pulmonary regurgitation stage"),
    Rule(["pulmonary_stenosis"], Equals("Present"), "Pulmonary stenosis"),
    Rule(["congenital_heart_disease"], Equals("Yes"), "Congenital heart disease")
  ]

  const Extrasystoles: seq<string> := ["SV extrasystole", "V extrasystole", "undetermined extrasystole"]

  /** The abbreviated-protocol rules as written: over the whole form bundle,
      the last one calling lodash through `_`, which the module never binds. */
  const SapRulesAsWritten: seq<Rule> := [
    Rule(["patient", "atrial_fibrillation"], Equals("Yes"), "Atrial fibrillation"),
    Rule(["patient", "atrial_fibrillation_definition"], Equals("Present"), "At the moment of heart sound recording, AF is"),
    Rule(["patient", "atrial_flutter"], Equals("Yes"), "Atrial flutter"),
    Rule(["patient", "af_definition"], Equals("Present"), "At the time of heart sound recording, Atrial Flutter is"),
    Rule(["ekg", "rhythm"], UnboundIntersection(Extrasystoles), "Rhythm")
  ]

  /** The abbreviated-protocol rules as evidently intended: the rhythm rule
      fires when the recorded rhythm lists one of the extrasystole kinds. */
  const SapRules: seq<Rule> := SapRulesAsWritten[..4] + [Rule(["ekg", "rhythm"], Intersects(Extrasystoles), "Rhythm")]

  // ---------------------------------------------------------------------
  // The interpreter
  // ---------------------------------------------------------------------

  /** lodash `_.intersection(choices, v)`: the choices listed in the array `v`,
      in the order of `choices`; empty when `v` is not an array. */
  function Intersection(choices: seq<string>, v: Value): (r: seq<string>)
    ensures forall c :: c in r <==> c in choices && v.Arr? && Str(c) in v.items
  {
    if |choices| == 0 then []
    else
      var rest := Intersection(choices[1..], v);
      if v.Arr? && Str(choices[0]) in v.items then [choices[0]] + rest else rest
  }

  function Join(parts: seq<string>, separator: string): string {
    if |parts| == 0 then ""
    else if |parts| == 1 then parts[0]
    else parts[0] + separator + Join(parts[1..], separator)
  }

  /** Whether a test matches the value its rule read. */
  predicate Fires(test: Test, v: Value) {
    match test
    case Equals(literal) => Truthy(v) && LooseEquals(v, literal)
    case OneOf(literals) => Truthy(v) && v.Str? && v.s in literals
    case AtMost(bound) => Truthy(v) && ToNumber(v).Some? && ToNumber(v).value <= bound
    case UnboundIntersection(_) => false
    case Intersects(choices) => Truthy(v) && |Intersection(choices, v)| > 0
  }

  /** Whether evaluating the test throws: the unbound `_` is reached exactly
      when the value read is truthy. */
  predicate ThrowsOn(test: Test, v: Value) {
    test.UnboundIntersection? && Truthy(v)
  }

  /** The value a violation shows. */
  function Shown(test: Test, v: Value): Value {
    if test.Intersects? then Str(Join(Intersection(test.choices, v), ", ")) else v
  }

  /** Reads `subject.p0.p1...`, throwing at the first nullish step. */
  function Resolve(subject: Value, path: seq<string>): Eval<Value>
    decreases |path|
  {
    if |path| == 0 then Ok(subject)
    else
      var next :- Prop(subject, path[0]);
      Resolve(next, path[1..])
  }

  /** One rule applied to its subject: a violation, `false` (None), or a throw. */
  function ApplyRule(rule: Rule, subject: Value): Eval<Option<Violation>> {
    var v :- Resolve(subject, rule.path);
    if ThrowsOn(rule.test, v) then Throws
    else if Fires(rule.test, v) then Ok(Some(Violation(rule.title, Shown(rule.test, v))))
    else Ok(None)
  }

  /** `rules.map(r => r(subject))`: entry i is rule i's outcome; the whole map
      throws as soon as one rule throws. */
  function Indicate(rules: seq<Rule>, subject: Value): (r: Eval<seq<Option<Violation>>>)
    ensures r.Ok? <==> forall i :: 0 <= i < |rules| ==> ApplyRule(rules[i], subject).Ok?
    ensures r.Ok? ==> |r.value| == |rules|
    ensures r.Ok? ==> forall i :: 0 <= i < |rules| ==> r.value[i] == ApplyRule(rules[i], subject).value
  {
    if |rules| == 0 then Ok([])
    else
      var head :- ApplyRule(rules[0], subject);
      var tail :- Indicate(rules[1..], subject);
      Ok([head] + tail)
  }

  /** `.filter(r => r != false)`: the violations, in order. */
  function Somes(xs: seq<Option<Violation>>): (r: seq<Violation>)
    ensures |r| <= |xs|
    ensures forall x :: x in r <==> Some(x) in xs
    ensures |r| == 0 <==> forall i :: 0 <= i < |xs| ==> xs[i].None?
  {
    if |xs| == 0 then []
    else
      var rest := Somes(xs[1..]);
      assert forall x :: Some(x) in xs <==> xs[0] == Some(x) || Some(x) in xs[1..];
      if xs[0].Some? then [xs[0].value] + rest else rest
  }

  lemma {:induction false} SomesAppend(xs: seq<Option<Violation>>, ys: seq<Option<Violation>>)
    ensures Somes(xs + ys) == Somes(xs) + Somes(ys)
    decreases |xs|
  {
    if |xs| == 0 {
      assert xs + ys == ys;
    } else {
      assert (xs + ys)[1..] == xs[1..] + ys;
      SomesAppend(xs[1..], ys);
    }
  }

  /** `(result.length == 0) ? false : result` */
  function ToVerdict(fired: seq<Violation>): (r: Verdict)
    ensures r.Clean? <==> |fired| == 0
    ensures r.Violations? ==> r.messages == fired
  {
    if |fired| == 0 then Clean else Violations(fired)
  }

  /** Some rule of the table matches the value it reads from `subject`. */
  predicate AnyFires(rules: seq<Rule>, subject: Value) {
    exists i :: 0 <= i < |rules| && ApplyRule(rules[i], subject).Ok? && ApplyRule(rules[i], subject).value.Some?
  }

  /** No violation is collected exactly when no rule of the table fires. */
  lemma NoneFiredIff(rules: seq<Rule>, subject: Value)
    requires Indicate(rules, subject).Ok?
    ensures |Somes(Indicate(rules, subject).value)| == 0 <==> !AnyFires(rules, subject)
  {
  }

  /** The per-rule outcomes of a table on a subject it can read. */
  function Outcomes(rules: seq<Rule>, subject: Value): seq<Option<Violation>> {
    match Indicate(rules, subject)
    case Ok(results) => results
    case Throws => []
  }

  /** The violations a table collects from a subject it can read, in table order. */
  function Fired(rules: seq<Rule>, subject: Value): seq<Violation> {
    Somes(Outcomes(rules, subject))
  }

  /** A table evaluated against one subject (`checkSapRules`' shape). */
  function EvaluateTable(rules: seq<Rule>, subject: Value): (r: Eval<Verdict>)
    ensures r.Ok? <==> forall i :: 0 <= i < |rules| ==> ApplyRule(rules[i], subject).Ok?
    ensures r.Ok? ==> (r.value.Clean? <==> !AnyFires(rules, subject))
    ensures r.Ok? && r.value.Violations? ==>
      forall m :: m in r.value.messages <==> exists i :: 0 <= i < |rules| && ApplyRule(rules[i], subject) == Ok(Some(m))
  {
    var results :- Indicate(rules, subject);
    Ok(ToVerdict(Somes(results)))
  }

  // ---------------------------------------------------------------------
  // checkRules, indicateRules, checkSapRules, checkAcceptanceCriteria
  // ---------------------------------------------------------------------

  /** `data.patient.data`, read where it cannot throw. */
  function PatientSubject(data: Value): Value {
    Get(Get(data, "patient"), "data")
  }

  /** `data.echo.data`, read where it cannot throw. */
  function EchoSubject(data: Value): Value {
    Get(Get(data, "echo"), "data")
  }

  /** The full-protocol tables can be evaluated on `data`: both
      `data.patient.data` and `data.echo.data` are present. */
  predicate FullProtocolReadable(data: Value) {
    && !Nullish(data)
    && !Nullish(Get(data, "patient")) && !Nullish(PatientSubject(data))
    && !Nullish(Get(data, "echo")) && !Nullish(EchoSubject(data))
  }

  /** Every rule reads one field of its subject and none can throw. */
  predicate SingleFieldTable(rules: seq<Rule>) {
    forall i :: 0 <= i < |rules| ==> |rules[i].path| == 1 && !rules[i].test.UnboundIntersection?
  }

  lemma FullProtocolTablesShape()
    ensures SingleFieldTable(PatientRules) && |PatientRules| == 6
    ensures SingleFieldTable(EchoRules) && |EchoRules| == 10
  {
  }

  /** Reading `subject.a.b`. */
  lemma ResolvePath(subject: Value, path: seq<string>)
    requires |path| <= 2
    ensures |path| == 1 ==> Resolve(subject, path) == Prop(subject, path[0])
    ensures |path| == 2 ==>
      Resolve(subject, path) == if Nullish(subject) then Throws else Prop(Get(subject, path[0]), path[1])
  {
    if |path| > 0 && !Nullish(subject) {
      var next := Get(subject, path[0]);
      assert Resolve(subject, path) == Resolve(next, path[1..]);
      if |path| == 2 && !Nullish(next) {
        assert Resolve(next, path[1..]) == Resolve(Get(next, path[1]), path[2..]);
      }
    }
  }

  /** `data.patient.data` and `data.echo.data` are read when `data` and
      its section are present. */
  lemma SubjectPaths(data: Value)
    ensures Resolve(data, ["patient", "data"]) ==
      if Nullish(data) || Nullish(Get(data, "patient")) then Throws else Ok(PatientSubject(data))
    ensures Resolve(data, ["echo", "data"]) ==
      if Nullish(data) || Nullish(Get(data, "echo")) then Throws else Ok(EchoSubject(data))
  {
    ResolvePath(data, ["patient", "data"]);
    ResolvePath(data, ["echo", "data"]);
  }

  lemma SingleFieldRuleOk(rule: Rule, subject: Value)
    requires |rule.path| == 1 && !rule.test.UnboundIntersection?
    ensures ApplyRule(rule, subject).Ok? <==> !Nullish(subject)
  {
    ResolvePath(subject, rule.path);
  }

  /** A single-field table throws exactly when its subject is nullish. */
  lemma SingleFieldTableOk(rules: seq<Rule>, subject: Value)
    requires SingleFieldTable(rules) && |rules| > 0
    ensures Indicate(rules, subject).Ok? <==> !Nullish(subject)
  {
    forall i | 0 <= i < |rules|
      ensures ApplyRule(rules[i], subject).Ok? <==> !Nullish(subject)
    {
      SingleFieldRuleOk(rules[i], subject);
    }
  }

  /** Two single-field tables over `data.patient.data` and `data.echo.data`,
      the first table's violations first (`checkRules`' shape). */
  function CheckTwoTables(patientRules: seq<Rule>, echoRules: seq<Rule>, data: Value): (r: Eval<Verdict>)
    requires SingleFieldTable(patientRules) && |patientRules| > 0
    requires SingleFieldTable(echoRules) && |echoRules| > 0
    ensures r.Ok? <==> FullProtocolReadable(data)
    ensures r.Ok? ==>
      (r.value.Clean? <==> !AnyFires(patientRules, PatientSubject(data)) && !AnyFires(echoRules, EchoSubject(data)))
    ensures r.Ok? && r.value.Violations? ==>
      r.value.messages == Fired(patientRules, PatientSubject(data)) + Fired(echoRules, EchoSubject(data))
  {
    SubjectPaths(data);
    SingleFieldTableOk(patientRules, PatientSubject(data));
    SingleFieldTableOk(echoRules, EchoSubject(data));
    var patient :- Resolve(data, ["patient", "data"]);
    var patientResults :- Indicate(patientRules, patient);
    var echo :- Resolve(data, ["echo", "data"]);
    var echoResults :- Indicate(echoRules, echo);
    SomesAppend(patientResults, echoResults);
    NoneFiredIff(patientRules, patient);
    NoneFiredIff(echoRules, echo);
    Ok(ToVerdict(Somes(patientResults + echoResults)))
  }

  /** `checkRules`: the full-protocol tables over `{patient, echo}`. It throws
      unless `data.patient.data` and `data.echo.data` are present; it is clean
      exactly when no rule fires; otherwise it lists the violations, the
      patient ones first, each group in table order. */
  function CheckRules(data: Value): (r: Eval<Verdict>)
    ensures r.Ok? <==> FullProtocolReadable(data)
    ensures r.Ok? ==>
      (r.value.Clean? <==> !AnyFires(PatientRules, PatientSubject(data)) && !AnyFires(EchoRules, EchoSubject(data)))
    ensures r.Ok? && r.value.Violations? ==>
      r.value.messages == Fired(PatientRules, PatientSubject(data)) + Fired(EchoRules, EchoSubject(data))
  {
    FullProtocolTablesShape();
    CheckTwoTables(PatientRules, EchoRules, data)
  }

  /** One entry of `indicateRules`: `{p: ...}` for a patient rule, `{e: ...}`
      for an echo rule, each holding the violation or `false` (None). */
  datatype Indication = PatientResult(p: Option<Violation>) | EchoResult(e: Option<Violation>) {
    function Result(): Option<Violation> {
      match this
      case PatientResult(x) => x
      case EchoResult(x) => x
    }
  }

  /** The results an indication list carries, in order. */
  function Results(xs: seq<Indication>): (r: seq<Option<Violation>>)
    ensures |r| == |xs| && forall i :: 0 <= i < |xs| ==> r[i] == xs[i].Result()
  {
    seq(|xs|, i requires 0 <= i < |xs| => xs[i].Result())
  }

  /** Two single-field tables over `data.patient.data` and `data.echo.data`,
      one tagged entry per rule (`indicateRules`' shape). */
  function IndicateTwoTables(patientRules: seq<Rule>, echoRules: seq<Rule>, data: Value): (r: Eval<seq<Indication>>)
    requires SingleFieldTable(patientRules) && |patientRules| > 0
    requires SingleFieldTable(echoRules) && |echoRules| > 0
    ensures r.Ok? <==> FullProtocolReadable(data)
    ensures r.Ok? ==> |r.value| == |patientRules| + |echoRules|
    ensures r.Ok? ==> forall i :: 0 <= i < |r.value| ==> (r.value[i].PatientResult? <==> i < |patientRules|)
    ensures r.Ok? ==>
      Results(r.value) == Outcomes(patientRules, PatientSubject(data)) + Outcomes(echoRules, EchoSubject(data))
  {
    SubjectPaths(data);
    SingleFieldTableOk(patientRules, PatientSubject(data));
    SingleFieldTableOk(echoRules, EchoSubject(data));
    var patient :- Resolve(data, ["patient", "data"]);
    var patientResults :- Indicate(patientRules, patient);
    var echo :- Resolve(data, ["echo", "data"]);
    var echoResults :- Indicate(echoRules, echo);
    Ok(Tag(patientResults, echoResults))
  }

  /** The patient outcomes tagged `p`, then the echo outcomes tagged `e`. */
  function Tag(patientResults: seq<Option<Violation>>, echoResults: seq<Option<Violation>>): (r: seq<Indication>)
    ensures |r| == |patientResults| + |echoResults|
    ensures forall i :: 0 <= i < |r| ==> (r[i].PatientResult? <==> i < |patientResults|)
    ensures Results(r) == patientResults + echoResults
  {
    var tagged :=
      seq(|patientResults|, i requires 0 <= i < |patientResults| => PatientResult(patientResults[i]))
      + seq(|echoResults|, i requires 0 <= i < |echoResults| => EchoResult(echoResults[i]));
    assert Results(tagged) == patientResults + echoResults;
    tagged
  }

  /** `indicateRules`: one entry per rule, whatever the input, once
      `data.patient.data` and `data.echo.data` can be read: the 6 patient
      results, then the 10 echo results. */
  function IndicateRules(data: Value): (r: Eval<seq<Indication>>)
    ensures r.Ok? <==> FullProtocolReadable(data)
    ensures r.Ok? ==> |r.value| == 16
    ensures r.Ok? ==> forall i :: 0 <= i < |r.value| ==> (r.value[i].PatientResult? <==> i < 6)
  {
    FullProtocolTablesShape();
    IndicateTwoTables(PatientRules, EchoRules, data)
  }

  /** `checkRules` returns exactly the non-`false` entries of
      `indicateRules`, in order, and is clean exactly when they are all `false`. */
  lemma CheckRulesAgreesWithIndicateRules(data: Value)
    ensures CheckRules(data).Ok? <==> IndicateRules(data).Ok?
    ensures CheckRules(data).Ok? ==>
      (CheckRules(data).value.Clean? <==> forall i :: 0 <= i < 16 ==> IndicateRules(data).value[i].Result().None?)
    ensures CheckRules(data).Ok? && CheckRules(data).value.Violations? ==>
      CheckRules(data).value.messages == Somes(Results(IndicateRules(data).value))
  {
    FullProtocolTablesShape();
    TwoTablesAgree(PatientRules, EchoRules, data);
  }

  /** `CheckRulesAgreesWithIndicateRules` for any two single-field tables. */
  lemma TwoTablesAgree(patientRules: seq<Rule>, echoRules: seq<Rule>, data: Value)
    requires SingleFieldTable(patientRules) && |patientRules| > 0
    requires SingleFieldTable(echoRules) && |echoRules| > 0
    ensures CheckTwoTables(patientRules, echoRules, data).Ok? <==> IndicateTwoTables(patientRules, echoRules, data).Ok?
    ensures CheckTwoTables(patientRules, echoRules, data).Ok? ==>
      var ind := IndicateTwoTables(patientRules, echoRules, data).value;
      (CheckTwoTables(patientRules, echoRules, data).value.Clean? <==> forall i :: 0 <= i < |ind| ==> ind[i].Result().None?)
    ensures CheckTwoTables(patientRules, echoRules, data).Ok? && CheckTwoTables(patientRules, echoRules, data).value.Violations? ==>
      CheckTwoTables(patientRules, echoRules, data).value.messages
        == Somes(Results(IndicateTwoTables(patientRules, echoRules, data).value))
  {
    var verdict := CheckTwoTables(patientRules, echoRules, data);
    if verdict.Ok? {
      var ind := IndicateTwoTables(patientRules, echoRules, data).value;
      var ps := Outcomes(patientRules, PatientSubject(data));
      var es := Outcomes(echoRules, EchoSubject(data));
      assert Results(ind) == ps + es;
      SomesAppend(ps, es);
      var fired := Fired(patientRules, PatientSubject(data)) + Fired(echoRules, EchoSubject(data));
      assert Somes(Results(ind)) == fired;
      if verdict.value.Clean? {
        assert |fired| == 0;
      } else {
        assert |fired| > 0;
      }
    }
  }

  /** The abbreviated-protocol check as written, over the whole bundle. */
  function CheckSapRulesAsWritten(data: Value): Eval<Verdict> {
    EvaluateTable(SapRulesAsWritten, data)
  }

  /** The abbreviated-protocol check with the rhythm rule evidently intended. */
  function CheckSapRules(data: Value): Eval<Verdict> {
    EvaluateTable(SapRules, data)
  }

  /** The protocol check applies the full-protocol rules when `protocol` is
      falsy (absent) or is "Complete Protocol", else the SAP rules. */
  predicate UsesFullProtocol(protocol: Value) {
    LooseEquals(protocol, "Complete Protocol") || !Truthy(protocol)
  }

  /** `checkAcceptanceCriteria` as written (with the unbound `_`). */
  function CheckAcceptanceCriteriaAsWritten(forms: Value): (r: Eval<Verdict>)
    ensures Nullish(forms) ==> r.Throws?
    ensures !Nullish(forms) && UsesFullProtocol(Get(forms, "protocol")) ==> r == CheckRules(forms)
    ensures !Nullish(forms) && !UsesFullProtocol(Get(forms, "protocol")) ==> r == CheckSapRulesAsWritten(forms)
  {
    var protocol :- Prop(forms, "protocol");
    if UsesFullProtocol(protocol) then CheckRules(forms) else CheckSapRulesAsWritten(forms)
  }

  /** `checkAcceptanceCriteria` with the intended abbreviated-protocol rules. */
  function CheckAcceptanceCriteria(forms: Value): (r: Eval<Verdict>)
    ensures Nullish(forms) ==> r.Throws?
    ensures !Nullish(forms) && UsesFullProtocol(Get(forms, "protocol")) ==> r == CheckRules(forms)
    ensures !Nullish(forms) && !UsesFullProtocol(Get(forms, "protocol")) ==> r == CheckSapRules(forms)
  {
    var protocol :- Prop(forms, "protocol");
    if UsesFullProtocol(protocol) then CheckRules(forms) else CheckSapRules(forms)
  }

  // ---------------------------------------------------------------------
  // What each kind of rule means
  // ---------------------------------------------------------------------

  /** Every literal a table compares against is non-empty (hence truthy),
      and every equality literal is a word, never a numeral. */
  predicate PlainLiterals(rules: seq<Rule>) {
    forall i :: 0 <= i < |rules| ==>
      && (rules[i].test.Equals? ==> Word(rules[i].test.literal))
      && (rules[i].test.OneOf? ==> forall k :: 0 <= k < |rules[i].test.literals| ==> |rules[i].test.literals[k]| > 0)
  }

  /** The equality literals of the tables are words. */
  lemma EqualityLiteralsAreWords()
    ensures Word("Yes") && Word("Present")
  {
    assert !IsJsSpace('Y') && !IsJsSpace('s') && !IsJsSpace('P') && !IsJsSpace('t');
  }

  lemma PatientLiteralsPlain()
    ensures PlainLiterals(PatientRules)
  {
    EqualityLiteralsAreWords();
  }

  lemma EchoLiteralsPlain()
    ensures PlainLiterals(EchoRules)
  {
    EqualityLiteralsAreWords();
  }

  lemma SapLiteralsPlain()
    ensures PlainLiterals(SapRules)
  {
    EqualityLiteralsAreWords();
  }

  lemma RuleTablesUsePlainLiterals()
    ensures PlainLiterals(PatientRules) && PlainLiterals(EchoRules) && PlainLiterals(SapRules)
  {
    PatientLiteralsPlain();
    EchoLiteralsPlain();
    SapLiteralsPlain();
  }

  /** A single-field rule applied to a document: it reads the field (missing
      fields read as `undefined`) and fires as its test says. */
  lemma {:induction false} SingleFieldRuleOnDocument(rule: Rule, d: map<string, Value>)
    requires |rule.path| == 1 && !rule.test.UnboundIntersection?
    ensures ApplyRule(rule, Obj(d)).Ok?
    ensures ApplyRule(rule, Obj(d)).value.Some? <==> Fires(rule.test, Lookup(d, rule.path[0]))
    ensures ApplyRule(rule, Obj(d)).value.Some? ==>
      ApplyRule(rule, Obj(d)).value.value == Violation(rule.title, Shown(rule.test, Lookup(d, rule.path[0])))
  {
    ResolvePath(Obj(d), rule.path);
  }

  /** `v` holds the word: as a string, or as an array whose text it is
      (`["Yes"] == "Yes"` in JavaScript). */
  predicate HoldsWord(v: Value, word: string) {
    v == Str(word) || (v.Arr? && ToText(v) == Some(word))
  }

  /** What each single-field rule of a table checks in document `d`: an
      equality rule that its field holds the word, a membership rule that its
      field is a string among the choices, a threshold rule that its field is
      truthy and, as a number, at most the bound. */
  predicate ReadsAsCriteria(rules: seq<Rule>, d: map<string, Value>)
    requires SingleFieldTable(rules)
  {
    && (forall i :: 0 <= i < |rules| && rules[i].test.Equals? ==>
         (ApplyRule(rules[i], Obj(d)) != Ok(None) <==>
           rules[i].path[0] in d && HoldsWord(d[rules[i].path[0]], rules[i].test.literal)))
    && (forall i :: 0 <= i < |rules| && rules[i].test.OneOf? ==>
         (ApplyRule(rules[i], Obj(d)) != Ok(None) <==>
           rules[i].path[0] in d && d[rules[i].path[0]].Str? && d[rules[i].path[0]].s in rules[i].test.literals))
    && (forall i :: 0 <= i < |rules| && rules[i].test.AtMost? ==>
         (ApplyRule(rules[i], Obj(d)) != Ok(None) <==>
           var v := Lookup(d, rules[i].path[0]);
           Truthy(v) && ToNumber(v).Some? && ToNumber(v).value <= rules[i].test.bound))
  }

  /** Every equality, membership and threshold rule of a single-field table
      with plain literals checks exactly its criterion. */
  lemma {:induction false} TableRuleSemantics(rules: seq<Rule>, d: map<string, Value>)
    requires SingleFieldTable(rules) && PlainLiterals(rules)
    ensures ReadsAsCriteria(rules, d)
  {
    forall i | 0 <= i < |rules|
      ensures ApplyRule(rules[i], Obj(d)).Ok?
      ensures ApplyRule(rules[i], Obj(d)) != Ok(None) <==> Fires(rules[i].test, Lookup(d, rules[i].path[0]))
    {
      SingleFieldRuleOnDocument(rules[i], d);
    }
    forall i | 0 <= i < |rules| && rules[i].test.Equals?
      ensures Fires(rules[i].test, Lookup(d, rules[i].path[0])) <==>
        rules[i].path[0] in d && HoldsWord(d[rules[i].path[0]], rules[i].test.literal)
    {
      LooseEqualsWord(Lookup(d, rules[i].path[0]), rules[i].test.literal);
    }
    forall i | 0 <= i < |rules| && rules[i].test.OneOf?
      ensures Fires(rules[i].test, Lookup(d, rules[i].path[0])) <==>
        rules[i].path[0] in d && d[rules[i].path[0]].Str? && d[rules[i].path[0]].s in rules[i].test.literals
    {
      var v := Lookup(d, rules[i].path[0]);
      if v.Str? && v.s in rules[i].test.literals {
        var k :| 0 <= k < |rules[i].test.literals| && rules[i].test.literals[k] == v.s;
        assert |v.s| > 0;
      }
    }
  }

  /** Both full-protocol tables read as the clinical criteria they encode:
      every equality, membership and threshold rule of the patient and the
      echocardiography tables. */
  lemma FullProtocolRuleSemantics(d: map<string, Value>)
    ensures SingleFieldTable(PatientRules) && SingleFieldTable(EchoRules)
    ensures ReadsAsCriteria(PatientRules, d)
    ensures ReadsAsCriteria(EchoRules, d)
  {
    FullProtocolTablesShape();
    RuleTablesUsePlainLiterals();
    TableRuleSemantics(PatientRules, d);
    TableRuleSemantics(EchoRules, d);
  }

  /** The EF rule uses truthiness: an `ef` of 0 does not fire, 35 does, 41 does not. */
  lemma EfRuleExamples()
    ensures ApplyRule(EchoRules[1], Obj(map["ef" := Num(0.0)])) == Ok(None)
    ensures ApplyRule(EchoRules[1], Obj(map["ef" := Num(35.0)])) ==
      Ok(Some(Violation("EF (apical access, 4-chamber position, Simpson algorithm)", Num(35.0))))
    ensures ApplyRule(EchoRules[1], Obj(map["ef" := Num(41.0)])) == Ok(None)
    ensures ApplyRule(EchoRules[1], Obj(map[])) == Ok(None)
  {
    var rule := EchoRules[1];
    assert rule == Rule(["ef"], AtMost(40.0), "EF (apical access, 4-chamber position, Simpson algorithm)");
    SingleFieldRuleOnDocument(rule, map["ef" := Num(0.0)]);
    SingleFieldRuleOnDocument(rule, map["ef" := Num(35.0)]);
    SingleFieldRuleOnDocument(rule, map["ef" := Num(41.0)]);
    SingleFieldRuleOnDocument(rule, map[]);
  }

  /** A threshold read from a numeral text, or from a one-element array of
      a numeral text or a number, compares the number it spells: "0" is
      truthy where 0 is not. */
  lemma {:induction false} NumeralThreshold(bound: real, n: nat)
    ensures Fires(AtMost(bound), Str(NatText(n))) <==> n as real <= bound
    ensures Fires(AtMost(bound), Arr([Str(NatText(n))])) <==> n as real <= bound
    ensures Fires(AtMost(bound), Arr([Num(n as real)])) <==> n as real <= bound
  {
    NumeralToNumber(n);
  }

  /** The EF rule converts a numeral text: "35" fires, "41" does not. */
  lemma EfTextExamples()
    ensures ApplyRule(EchoRules[1], Obj(map["ef" := Str("35")])) ==
      Ok(Some(Violation("EF (apical access, 4-chamber position, Simpson algorithm)", Str("35"))))
    ensures ApplyRule(EchoRules[1], Obj(map["ef" := Str("41")])) == Ok(None)
  {
    var rule := EchoRules[1];
    assert rule == Rule(["ef"], AtMost(40.0), "EF (apical access, 4-chamber position, Simpson algorithm)");
    assert NatText(35) == "35" by {
      assert NatText(3) == "3";
    }
    assert NatText(41) == "41" by {
      assert NatText(4) == "4";
    }
    NumeralThreshold(40.0, 35);
    NumeralThreshold(40.0, 41);
    SingleFieldRuleOnDocument(rule, map["ef" := Str("35")]);
    SingleFieldRuleOnDocument(rule, map["ef" := Str("41")]);
  }

  /** The EF rule converts a one-element array: [35] fires; text that is no
      numeral never does. */
  lemma EfArrayExamples()
    ensures ApplyRule(EchoRules[1], Obj(map["ef" := Arr([Num(35.0)])])) ==
      Ok(Some(Violation("EF (apical access, 4-chamber position, Simpson algorithm)", Arr([Num(35.0)]))))
    ensures ApplyRule(EchoRules[1], Obj(map["ef" := Str("abc")])) == Ok(None)
  {
    EfArrayFires();
    EfWordQuiet();
  }

  /** `ef: [35]` fires the EF rule. */
  lemma EfArrayFires()
    ensures ApplyRule(EchoRules[1], Obj(map["ef" := Arr([Num(35.0)])])) ==
      Ok(Some(Violation("EF (apical access, 4-chamber position, Simpson algorithm)", Arr([Num(35.0)]))))
  {
    var rule := EchoRules[1];
    assert rule == Rule(["ef"], AtMost(40.0), "EF (apical access, 4-chamber position, Simpson algorithm)");
    NumeralThreshold(40.0, 35);
    SingleFieldRuleOnDocument(rule, map["ef" := Arr([Num(35.0)])]);
  }

  /** `ef: "abc"` is `NaN` and never fires the EF rule. */
  lemma EfWordQuiet()
    ensures ApplyRule(EchoRules[1], Obj(map["ef" := Str("abc")])) == Ok(None)
  {
    assert Trim("abc") == "abc";
    ForeignTextIsNaN("abc", 0);
    EfQuietOnNaN("abc");
  }

  /** Text that is `NaN` never fires the EF rule. */
  lemma EfQuietOnNaN(s: string)
    requires StringToNumber(s).None?
    ensures ApplyRule(EchoRules[1], Obj(map["ef" := Str(s)])) == Ok(None)
  {
    var rule := EchoRules[1];
    assert rule == Rule(["ef"], AtMost(40.0), "EF (apical access, 4-chamber position, Simpson algorithm)");
    SingleFieldRuleOnDocument(rule, map["ef" := Str(s)]);
  }

  /** No rule of a single-field table fires on an empty form. */
  lemma NothingFiresOnEmptyForm(rules: seq<Rule>)
    requires SingleFieldTable(rules)
    ensures !AnyFires(rules, Obj(map[]))
  {
    forall i | 0 <= i < |rules|
      ensures ApplyRule(rules[i], Obj(map[])) == Ok(None)
    {
      SingleFieldRuleOnDocument(rules[i], map[]);
    }
  }

  /** A form bundle with the given patient and echo form data. */
  function FullProtocolForms(patient: map<string, Value>, echo: map<string, Value>): Value {
    Obj(map["patient" := Obj(map["data" := Obj(patient)]), "echo" := Obj(map["data" := Obj(echo)])])
  }

  /** Empty patient and echo forms pass the full-protocol check; a reported
      heart failure is a violation. */
  lemma FullProtocolExamples()
    ensures CheckRules(FullProtocolForms(map[], map[])) == Ok(Clean)
    ensures CheckRules(FullProtocolForms(map["heart_failure_choice" := Str("Yes")], map[])).Ok?
    ensures CheckRules(FullProtocolForms(map["heart_failure_choice" := Str("Yes")], map[])).value.Violations?
  {
    EmptyFormsClean();
    HeartFailureFires();
  }

  lemma EmptyFormsClean()
    ensures CheckRules(FullProtocolForms(map[], map[])) == Ok(Clean)
  {
    var forms := FullProtocolForms(map[], map[]);
    assert PatientSubject(forms) == Obj(map[]) && EchoSubject(forms) == Obj(map[]);
    assert FullProtocolReadable(forms);
    FullProtocolTablesShape();
    NothingFiresOnEmptyForm(PatientRules);
    NothingFiresOnEmptyForm(EchoRules);
    assert !AnyFires(PatientRules, PatientSubject(forms));
    assert !AnyFires(EchoRules, EchoSubject(forms));
  }

  lemma HeartFailureFires()
    ensures CheckRules(FullProtocolForms(map["heart_failure_choice" := Str("Yes")], map[])).Ok?
    ensures CheckRules(FullProtocolForms(map["heart_failure_choice" := Str("Yes")], map[])).value.Violations?
  {
    var heartFailure := map["heart_failure_choice" := Str("Yes")];
    var forms := FullProtocolForms(heartFailure, map[]);
    assert PatientSubject(forms) == Obj(heartFailure) && EchoSubject(forms) == Obj(map[]);
    assert FullProtocolReadable(forms);
    FullProtocolTablesShape();
    assert PatientRules[0] == Rule(["heart_failure_choice"], Equals("Yes"), "Heart Failure");
    SingleFieldRuleOnDocument(PatientRules[0], heartFailure);
    assert ApplyRule(PatientRules[0], PatientSubject(forms)).value.Some?;
    assert AnyFires(PatientRules, PatientSubject(forms));
  }

  /** An equality rule compares loosely: `["Yes"]` is heart failure too. */
  lemma HeartFailureArrayFires()
    ensures ApplyRule(PatientRules[0], Obj(map["heart_failure_choice" := Arr([Str("Yes")])])) ==
      Ok(Some(Violation("Heart Failure", Arr([Str("Yes")]))))
  {
    assert PatientRules[0] == Rule(["heart_failure_choice"], Equals("Yes"), "Heart Failure");
    OneElementArrayEquals();
    SingleFieldRuleOnDocument(PatientRules[0], map["heart_failure_choice" := Arr([Str("Yes")])]);
  }

  /** Dispatch: no protocol and "Complete Protocol" take the full rules, any
      other protocol the SAP rules. */
  lemma DispatchExamples(patient: Value, echo: Value, ekg: Value)
    ensures CheckAcceptanceCriteria(Obj(map["patient" := patient, "echo" := echo])) ==
      CheckRules(Obj(map["patient" := patient, "echo" := echo]))
    ensures CheckAcceptanceCriteria(Obj(map["protocol" := Str("Complete Protocol"), "patient" := patient, "echo" := echo])) ==
      CheckRules(Obj(map["protocol" := Str("Complete Protocol"), "patient" := patient, "echo" := echo]))
    ensures CheckAcceptanceCriteria(Obj(map["protocol" := Str("SAP"), "patient" := patient, "ekg" := ekg])) ==
      CheckSapRules(Obj(map["protocol" := Str("SAP"), "patient" := patient, "ekg" := ekg]))
  {
    DispatchWithoutProtocol(patient, echo);
    DispatchCompleteProtocol(patient, echo);
    DispatchSap(patient, ekg);
  }

  /** Forms without a protocol take the full rules. */
  lemma DispatchWithoutProtocol(patient: Value, echo: Value)
    ensures CheckAcceptanceCriteria(Obj(map["patient" := patient, "echo" := echo])) ==
      CheckRules(Obj(map["patient" := patient, "echo" := echo]))
  {
    var plain := Obj(map["patient" := patient, "echo" := echo]);
    assert UsesFullProtocol(Get(plain, "protocol"));
  }

  /** "Complete Protocol" takes the full rules. */
  lemma DispatchCompleteProtocol(patient: Value, echo: Value)
    ensures CheckAcceptanceCriteria(Obj(map["protocol" := Str("Complete Protocol"), "patient" := patient, "echo" := echo])) ==
      CheckRules(Obj(map["protocol" := Str("Complete Protocol"), "patient" := patient, "echo" := echo]))
  {
    var complete := Obj(map["protocol" := Str("Complete Protocol"), "patient" := patient, "echo" := echo]);
    assert UsesFullProtocol(Get(complete, "protocol"));
  }

  /** "SAP" takes the abbreviated-protocol rules. */
  lemma DispatchSap(patient: Value, ekg: Value)
    ensures CheckAcceptanceCriteria(Obj(map["protocol" := Str("SAP"), "patient" := patient, "ekg" := ekg])) ==
      CheckSapRules(Obj(map["protocol" := Str("SAP"), "patient" := patient, "ekg" := ekg]))
  {
    var sap := Obj(map["protocol" := Str("SAP"), "patient" := patient, "ekg" := ekg]);
    assert !UsesFullProtocol(Get(sap, "protocol"));
  }

  /** As written, the SAP check throws whenever the rhythm is recorded
      (truthy) and the patient section is present: the rhythm rule never
      yields a violation, it raises a ReferenceError. */
  lemma SapRhythmRuleThrows(data: Value)
    requires !Nullish(data) && !Nullish(Get(data, "patient")) && !Nullish(Get(data, "ekg"))
    ensures CheckSapRulesAsWritten(data).Throws? <==> Truthy(Get(Get(data, "ekg"), "rhythm"))
  {
    var rhythm := SapRulesAsWritten[4];
    ResolvePath(data, rhythm.path);
    forall i | 0 <= i < 4
      ensures ApplyRule(SapRulesAsWritten[i], data).Ok?
    {
      ResolvePath(data, SapRulesAsWritten[i].path);
    }
  }

  /** The patient fields of the SAP table do not fire on an empty patient form. */
  lemma SapPatientRulesQuiet(data: Value)
    requires !Nullish(data) && Get(data, "patient") == Obj(map[])
    ensures forall i :: 0 <= i < 4 ==> ApplyRule(SapRules[i], data) == Ok(None)
  {
    forall i | 0 <= i < 4
      ensures ApplyRule(SapRules[i], data) == Ok(None)
    {
      ResolvePath(data, SapRules[i].path);
    }
  }

  /** The EKG document of the counterexample: one ventricular extrasystole. */
  const ExtrasystoleExam: Value :=
    Obj(map["patient" := Obj(map[]), "ekg" := Obj(map["rhythm" := Arr([Str("V extrasystole")])])])

  /** The counterexample, as written: the check throws. */
  lemma SapRhythmCounterexample()
    ensures CheckSapRulesAsWritten(ExtrasystoleExam).Throws?
  {
    SapRhythmRuleThrows(ExtrasystoleExam);
  }

  lemma ExtrasystoleIntersection()
    ensures Intersection(Extrasystoles, Arr([Str("V extrasystole")])) == ["V extrasystole"]
  {
    var v := Arr([Str("V extrasystole")]);
    assert Intersection(Extrasystoles[2..], v) == [];
    assert Intersection(Extrasystoles[1..], v) == ["V extrasystole"];
  }

  /** The counterexample, as intended: the check reports the rhythm. */
  lemma SapRhythmCounterexampleIntended()
    ensures CheckSapRules(ExtrasystoleExam) == Ok(Violations([Violation("Rhythm", Str("V extrasystole"))]))
  {
    SapPatientRulesQuiet(ExtrasystoleExam);
    ExtrasystoleRhythmReported();
    EvaluateTableLastFires(SapRules, ExtrasystoleExam, Violation("Rhythm", Str("V extrasystole")));
  }

  /** A table whose last rule alone fires reports that rule's violation. */
  lemma EvaluateTableLastFires(rules: seq<Rule>, subject: Value, last: Violation)
    requires |rules| > 0
    requires forall i :: 0 <= i < |rules| - 1 ==> ApplyRule(rules[i], subject) == Ok(None)
    requires ApplyRule(rules[|rules| - 1], subject) == Ok(Some(last))
    ensures EvaluateTable(rules, subject) == Ok(Violations([last]))
  {
    var expected := seq(|rules|, i requires 0 <= i < |rules| => if i == |rules| - 1 then Some(last) else None);
    EvaluateTableOn(rules, subject, expected);
    SomesOfLast(expected);
  }

  /** Only the last outcome is a violation: it is the only one kept. */
  lemma {:induction false} SomesOfLast(xs: seq<Option<Violation>>)
    requires |xs| > 0 && xs[|xs| - 1].Some?
    requires forall i :: 0 <= i < |xs| - 1 ==> xs[i].None?
    ensures Somes(xs) == [xs[|xs| - 1].value]
    decreases |xs|
  {
    if |xs| > 1 {
      SomesOfLast(xs[1..]);
    }
  }

  lemma ExtrasystoleRhythmReported()
    ensures ApplyRule(SapRules[4], ExtrasystoleExam) == Ok(Some(Violation("Rhythm", Str("V extrasystole"))))
  {
    ExtrasystoleIntersection();
    assert SapRules[4] == Rule(["ekg", "rhythm"], Intersects(Extrasystoles), "Rhythm");
    ResolvePath(ExtrasystoleExam, SapRules[4].path);
  }

  /** `_.intersection(choices, v)` as the array lodash returns. */
  function IntersectionArray(choices: seq<string>, v: Value): (r: Value)
    ensures r.Arr? && |r.items| == |Intersection(choices, v)|
    ensures forall i :: 0 <= i < |r.items| ==> r.items[i] == Str(Intersection(choices, v)[i])
  {
    var common := Intersection(choices, v);
    Arr(seq(|common|, i requires 0 <= i < |common| => Str(common[i])))
  }

  /** The rhythm test of the abbreviated protocol with lodash bound to `_`
      but the condition left as written: `v && _.intersection(choices, v)`. */
  predicate FiresWithLodashBound(choices: seq<string>, v: Value) {
    Truthy(v) && Truthy(IntersectionArray(choices, v))
  }

  /** Binding `_` alone does not repair the rule: the array lodash returns is
      truthy even when empty, so the condition reduces to `v` being truthy. */
  lemma LodashBoundFiresOnTruthy(choices: seq<string>, v: Value)
    ensures FiresWithLodashBound(choices, v) <==> Truthy(v)
  {
  }

  /** A sinus rhythm names no extrasystole: with `_` merely bound the rule
      still fires, with an empty list; as intended it stays quiet. */
  lemma SinusRhythmNeedsNonEmptyIntersection()
    ensures Intersection(Extrasystoles, Arr([Str("sinus")])) == []
    ensures FiresWithLodashBound(Extrasystoles, Arr([Str("sinus")]))
    ensures !Fires(Intersects(Extrasystoles), Arr([Str("sinus")]))
  {
    var v := Arr([Str("sinus")]);
    assert Intersection(Extrasystoles[2..], v) == [];
    assert Intersection(Extrasystoles[1..], v) == [];
  }

  /** A table evaluates to the verdict of its rules' outcomes once every
      rule's outcome is known. */
  lemma EvaluateTableOn(rules: seq<Rule>, subject: Value, expected: seq<Option<Violation>>)
    requires |expected| == |rules|
    requires forall i :: 0 <= i < |rules| ==> ApplyRule(rules[i], subject) == Ok(expected[i])
    ensures EvaluateTable(rules, subject) == Ok(ToVerdict(Somes(expected)))
  {
    assert Indicate(rules, subject).value == expected;
  }

  /** As intended, the rhythm rule fires exactly when the EKG rhythm list
      names one of the three extrasystole kinds. */
  lemma SapRhythmRuleIntended(data: Value)
    requires !Nullish(data) && !Nullish(Get(data, "ekg"))
    ensures ApplyRule(SapRules[4], data).Ok?
    ensures ApplyRule(SapRules[4], data) != Ok(None) <==>
      var rhythm := Get(Get(data, "ekg"), "rhythm");
      rhythm.Arr? && exists c :: c in Extrasystoles && Str(c) in rhythm.items
  {
    var rule := Rule(["ekg", "rhythm"], Intersects(Extrasystoles), "Rhythm");
    assert SapRules[4] == rule;
    ResolvePath(data, rule.path);
    var rhythm := Get(Get(data, "ekg"), "rhythm");
    assert Resolve(data, rule.path) == Ok(rhythm);
    assert !ThrowsOn(rule.test, rhythm);
    IntersectsFires(Extrasystoles, rhythm);
  }

  /** An intersection test fires exactly when the value is an array naming
      one of the choices. */
  lemma IntersectsFires(choices: seq<string>, v: Value)
    ensures Fires(Intersects(choices), v) <==> v.Arr? && exists c :: c in choices && Str(c) in v.items
  {
    if v.Arr? && exists c :: c in choices && Str(c) in v.items {
      var c :| c in choices && Str(c) in v.items;
      assert c in Intersection(choices, v);
    }
    if |Intersection(choices, v)| > 0 {
      assert Intersection(choices, v)[0] in Intersection(choices, v);
    }
  }
}

=== FILE: auto_accept.dfy ===
/** The automatic acceptance of a migrated examination
    (`src/long-term/auto-accept.js`): the body-spot filter on its label
    records, the quality gate, and the decision to mark it "accepted".

    The examination joined with its label records (the store's aggregate)
    and the current time are parameters; the write is returned as a `$set`
    update instead of being performed. */
module AutoAccept {
  import opened JsValues
  import opened UpsertStore
  import opened AcceptanceRules
  import SyncExamination

  // ---------------------------------------------------------------------
  // Records and the quality gate
  // ---------------------------------------------------------------------

  /** The body spots whose recordings count for acceptance. */
  const AvailableBodySpots: seq<string> :=
    ["Apex", "Tricuspid", "Pulmonic", "Aortic", "Right Carotid", "Erb's", "Erb's Right"]

  /** A label record reduced to what the gate reads: `{ id, qty }`. */
  datatype QualityEntry = QualityEntry(id: Value, qty: Value)

  /** `availableBodySpots.includes(r["Body Spot"])` */
  predicate OnAvailableSpot(record: map<string, Value>) {
    var spot := Lookup(record, "Body Spot");
    spot.Str? && spot.s in AvailableBodySpots
  }

  /** `{ id: r.id, qty: r.aiSegmentation ? r.aiSegmentation.quality : undefined }` */
  function QualityOf(record: map<string, Value>): QualityEntry {
    var segmentation := Lookup(record, "aiSegmentation");
    QualityEntry(Lookup(record, "id"), if Truthy(segmentation) then Get(segmentation, "quality") else Undefined)
  }

  /** The records on an available body spot, in order, reduced to their quality. */
  function SelectRecords(records: seq<map<string, Value>>): (r: seq<QualityEntry>)
    ensures |r| <= |records|
    ensures forall e :: e in r <==> exists i :: 0 <= i < |records| && OnAvailableSpot(records[i]) && e == QualityOf(records[i])
    decreases |records|
  {
    if |records| == 0 then []
    else
      var rest := SelectRecords(records[1..]);
      assert forall i :: 1 <= i < |records| ==> records[i] == records[1..][i - 1];
      if OnAvailableSpot(records[0]) then [QualityOf(records[0])] + rest else rest
  }

  /** Selection distributes over concatenation, so it keeps record order. */
  lemma {:induction false} SelectRecordsAppend(a: seq<map<string, Value>>, b: seq<map<string, Value>>)
    ensures SelectRecords(a + b) == SelectRecords(a) + SelectRecords(b)
    decreases |a|
  {
    if |a| > 0 {
      assert (a + b)[1..] == a[1..] + b;
      SelectRecordsAppend(a[1..], b);
    } else {
      assert a + b == b;
    }
  }

  /** `r.qty == "bad"` */
  predicate IsBad(e: QualityEntry) {
    LooseEquals(e.qty, "bad")
  }

  /** `records.filter(r => r.qty == "bad").length` */
  function CountBad(entries: seq<QualityEntry>): (n: nat)
    ensures n <= |entries|
    ensures n == 0 <==> forall i :: 0 <= i < |entries| ==> !IsBad(entries[i])
    decreases |entries|
  {
    if |entries| == 0 then 0
    else
      var rest := CountBad(entries[1..]);
      assert forall i :: 1 <= i < |entries| ==> entries[i] == entries[1..][i - 1];
      (if IsBad(entries[0]) then 1 else 0) + rest
  }

  lemma {:induction false} CountBadAppend(a: seq<QualityEntry>, b: seq<QualityEntry>)
    ensures CountBad(a + b) == CountBad(a) + CountBad(b)
    decreases |a|
  {
    if |a| > 0 {
      assert (a + b)[1..] == a[1..] + b;
      CountBadAppend(a[1..], b);
    } else {
      assert a + b == b;
    }
  }

  /** `checkRecordsQuality`: the share of bad records, `bad / total`, is below
      0.1. For no records the share is `0 / 0`, NaN, which is not below 0.1. */
  function CheckRecordsQuality(entries: seq<QualityEntry>): (ok: bool)
    ensures ok <==> 10 * CountBad(entries) < |entries|
    ensures |entries| == 0 ==> !ok
  {
    if |entries| == 0 then false
    else
      RatioBelowTenth(CountBad(entries), |entries|);
      (CountBad(entries) as real) / (|entries| as real) < 0.1
  }

  /** For a positive total, `bad / total < 0.1` exactly when `10 * bad < total`. */
  lemma RatioBelowTenth(bad: nat, total: nat)
    requires total > 0
    ensures (bad as real) / (total as real) < 0.1 <==> 10 * bad < total
  {
    var b := bad as real;
    var t := total as real;
    QuotientBelow(b, t, 0.1);
    assert (10 * bad) as real == 10.0 * b;
    TenthScaled(b, t);
  }

  /** For a positive divisor, `b / t < c` exactly when `b < c * t`. */
  lemma QuotientBelow(b: real, t: real, c: real)
    requires t > 0.0
    ensures b / t < c <==> b < c * t
  {
    var q := b / t;
    assert q * t == b;
    if q < c {
      ScaleStrict(q, c, t);
    } else {
      ScaleWeak(c, q, t);
    }
  }

  lemma TenthScaled(b: real, t: real)
    ensures b < 0.1 * t <==> 10.0 * b < t
  {
  }

  lemma ScaleStrict(x: real, y: real, t: real)
    requires x < y && t > 0.0
    ensures x * t < y * t
  {
  }

  lemma ScaleWeak(x: real, y: real, t: real)
    requires x <= y && t > 0.0
    ensures x * t <= y * t
  {
  }

  /** `bad` bad entries followed by `good` good ones. */
  function Batch(bad: nat, good: nat): (r: seq<QualityEntry>)
    ensures |r| == bad + good
    decreases bad + good
  {
    if bad > 0 then [QualityEntry(Undefined, Str("bad"))] + Batch(bad - 1, good)
    else if good > 0 then [QualityEntry(Undefined, Str("good"))] + Batch(0, good - 1)
    else []
  }

  lemma {:induction false} BatchCount(bad: nat, good: nat)
    ensures CountBad(Batch(bad, good)) == bad
    decreases bad + good
  {
    if bad > 0 {
      BatchCount(bad - 1, good);
      assert Batch(bad, good)[1..] == Batch(bad - 1, good);
    } else if good > 0 {
      BatchCount(0, good - 1);
      assert Batch(0, good)[1..] == Batch(0, good - 1);
    }
  }

  /** The gate's boundary: 0 of 10 and 9 of 100 bad pass, 10 of 100 does not,
      and neither does an empty list. */
  lemma QualityBoundary()
    ensures CheckRecordsQuality(Batch(0, 10))
    ensures CheckRecordsQuality(Batch(9, 91))
    ensures !CheckRecordsQuality(Batch(10, 90))
    ensures !CheckRecordsQuality([])
  {
    BatchCount(0, 10);
    BatchCount(9, 91);
    BatchCount(10, 90);
  }

  /** Adding records on other body spots changes nothing the gate sees. */
  lemma OtherSpotsIgnored(records: seq<map<string, Value>>, others: seq<map<string, Value>>)
    requires forall i :: 0 <= i < |others| ==> !OnAvailableSpot(others[i])
    ensures SelectRecords(records + others) == SelectRecords(records)
    ensures SelectRecords(others + records) == SelectRecords(records)
  {
    SelectRecordsAppend(records, others);
    SelectRecordsAppend(others, records);
    NoneSelected(others);
  }

  lemma {:induction false} NoneSelected(others: seq<map<string, Value>>)
    requires forall i :: 0 <= i < |others| ==> !OnAvailableSpot(others[i])
    ensures SelectRecords(others) == []
    decreases |others|
  {
    if |others| > 0 {
      assert !OnAvailableSpot(others[0]);
      NoneSelected(others[1..]);
    }
  }

  /** Every allowed body spot is the label of a recording spot name. */
  lemma AvailableSpotsAreLabels()
    ensures forall s :: s in AvailableBodySpots ==> exists k :: k in SyncExamination.SpotMap && SyncExamination.SpotMap[k] == s
  {
    var m := SyncExamination.SpotMap;
    assert m["mitral"] == "Apex" && m["tricuspid"] == "Tricuspid" && m["pulmonic"] == "Pulmonic";
    assert m["aortic"] == "Aortic" && m["rightCarotid"] == "Right Carotid";
    assert m["erbs"] == "Erb's" && m["erbsRight"] == "Erb's Right";
  }

  // ---------------------------------------------------------------------
  // The decision
  // ---------------------------------------------------------------------

  /** The examination document found by id, joined with its label records. */
  datatype Joined = Joined(examination: map<string, Value>, records: seq<map<string, Value>>)

  /** How `autoAccept` ends: reading `user.submit.schema` throws before the
      `try` (the returned promise rejects), the examination is not found, the
      rules throw inside the `try` (caught and logged), the examination is
      not accepted, or it is accepted with this update of
      `<schema>.examinations`. */
  datatype AcceptOutcome =
    | Rejected
    | NotFound
    | Failed
    | NotAccepted
    | Accepted(schema: Value, update: SetUpdate)

  /** `acceptExamination`: set `state`, `updatedAt` and `updatedBy` on the
      examination with this `id`. */
  function AcceptExamination(examination: map<string, Value>, now: Value): (u: SetUpdate)
    ensures u.key == [Lookup(examination, "id")]
    ensures u.fields.Keys == {"state", "updatedAt", "updatedBy"}
    ensures u.fields["state"] == Str("accepted") && u.fields["updatedBy"] == Str("AUTO ACCEPT")
    ensures u.fields["updatedAt"] == now
  {
    SetUpdate([Lookup(examination, "id")],
      map["state" := Str("accepted"), "updatedAt" := now, "updatedBy" := Str("AUTO ACCEPT")])
  }

  /** `user.submit.schema`, read outside the `try`. */
  function Schema(user: Value): Eval<Value> {
    var submit :- Prop(user, "submit");
    Prop(submit, "schema")
  }

  /** The records the gate sees. */
  function GateEntries(j: Joined): seq<QualityEntry> {
    SelectRecords(j.records)
  }

  /** `autoAccept` as written: it proceeds when `checkAcceptanceCriteria` is
      truthy, that is when some rule reported a violation. */
  function AutoAcceptAsWritten(user: Value, found: Option<Joined>, now: Value): (r: AcceptOutcome)
    ensures Schema(user).Throws? <==> r.Rejected?
    ensures r.NotFound? <==> Schema(user).Ok? && found.None?
    ensures r.Failed? <==>
      Schema(user).Ok? && found.Some? && CheckAcceptanceCriteriaAsWritten(Lookup(found.value.examination, "forms")).Throws?
    ensures r.Accepted? <==>
      && Schema(user).Ok? && found.Some?
      && CheckAcceptanceCriteriaAsWritten(Lookup(found.value.examination, "forms")).Ok?
      && CheckAcceptanceCriteriaAsWritten(Lookup(found.value.examination, "forms")).value.Violations?
      && 10 * CountBad(GateEntries(found.value)) < |GateEntries(found.value)|
    ensures r.Accepted? ==> r.schema == Schema(user).value && r.update == AcceptExamination(found.value.examination, now)
  {
    match Schema(user)
    case Throws => Rejected
    case Ok(schema) =>
      match found
      case None => NotFound
      case Some(j) =>
        match CheckAcceptanceCriteriaAsWritten(Lookup(j.examination, "forms"))
        case Throws => Failed
        case Ok(verdict) =>
          if verdict.IsTruthy() && CheckRecordsQuality(GateEntries(j)) then
            Accepted(schema, AcceptExamination(j.examination, now))
          else NotAccepted
  }

  /** `autoAccept` as evidently intended: accept an examination whose forms
      pass every rule (no violation) and whose records pass the quality gate,
      with the abbreviated-protocol rhythm rule working. */
  function AutoAccept(user: Value, found: Option<Joined>, now: Value): (r: AcceptOutcome)
    ensures Schema(user).Throws? <==> r.Rejected?
    ensures r.NotFound? <==> Schema(user).Ok? && found.None?
    ensures r.Failed? <==>
      Schema(user).Ok? && found.Some? && CheckAcceptanceCriteria(Lookup(found.value.examination, "forms")).Throws?
    ensures r.Accepted? <==>
      && Schema(user).Ok? && found.Some?
      && CheckAcceptanceCriteria(Lookup(found.value.examination, "forms")) == Ok(Clean)
      && 10 * CountBad(GateEntries(found.value)) < |GateEntries(found.value)|
    ensures r.Accepted? ==> r.schema == Schema(user).value && r.update == AcceptExamination(found.value.examination, now)
  {
    match Schema(user)
    case Throws => Rejected
    case Ok(schema) =>
      match found
      case None => NotFound
      case Some(j) =>
        match CheckAcceptanceCriteria(Lookup(j.examination, "forms"))
        case Throws => Failed
        case Ok(verdict) =>
          if verdict.Clean? && CheckRecordsQuality(GateEntries(j)) then
            Accepted(schema, AcceptExamination(j.examination, now))
          else NotAccepted
  }

  /** Accepting marks the stored examination "accepted" by "AUTO ACCEPT" and
      leaves its other fields and every other examination alone. */
  lemma AcceptedUpdate(store: Store, user: Value, found: Option<Joined>, now: Value)
    requires AutoAccept(user, found, now).Accepted?
    ensures var u := AutoAccept(user, found, now).update;
      var after := ApplySet(store, u);
      && after.Keys == store.Keys
      && (forall k :: k in store && k != u.key ==> after[k] == store[k])
      && (u.key in store && store[u.key].Obj? ==>
            && Lookup(after[u.key].fields, "state") == Str("accepted")
            && Lookup(after[u.key].fields, "updatedBy") == Str("AUTO ACCEPT")
            && (forall f :: f in store[u.key].fields && f !in {"state", "updatedAt", "updatedBy"} ==>
                  after[u.key].fields[f] == store[u.key].fields[f]))
  {
    AcceptMarks(store, found.value.examination, now);
  }

  /** `AcceptedUpdate` for the update of a given examination. */
  lemma AcceptMarks(store: Store, examination: map<string, Value>, now: Value)
    ensures var u := AcceptExamination(examination, now);
      var after := ApplySet(store, u);
      && after.Keys == store.Keys
      && (forall k :: k in store && k != u.key ==> after[k] == store[k])
      && (u.key in store && store[u.key].Obj? ==>
            && Lookup(after[u.key].fields, "state") == Str("accepted")
            && Lookup(after[u.key].fields, "updatedBy") == Str("AUTO ACCEPT")
            && (forall f :: f in store[u.key].fields && f !in {"state", "updatedAt", "updatedBy"} ==>
                  after[u.key].fields[f] == store[u.key].fields[f]))
  {
  }

  /** As written, an abbreviated-protocol examination whose EKG records a
      rhythm never gets past the rules: the rhythm rule throws and the
      exception is caught and logged. */
  lemma AsWrittenSapRhythmFails(user: Value, j: Joined, now: Value)
    requires Schema(user).Ok?
    requires var forms := Lookup(j.examination, "forms");
      && !Nullish(forms) && !UsesFullProtocol(Get(forms, "protocol"))
      && !Nullish(Get(forms, "patient")) && !Nullish(Get(forms, "ekg"))
      && Truthy(Get(Get(forms, "ekg"), "rhythm"))
    ensures AutoAcceptAsWritten(user, Some(j), now) == Failed
  {
    SapRhythmRuleThrows(Lookup(j.examination, "forms"));
  }

  // ---------------------------------------------------------------------
  // The inverted decision, on an example
  // ---------------------------------------------------------------------

  /** A user whose submit settings name the schema "ADE". */
  const Submitter: Value := Obj(map["submit" := Obj(map["schema" := Str("ADE")])])

  lemma SubmitterSchema()
    ensures Schema(Submitter) == Ok(Str("ADE"))
  {
    assert Get(Submitter, "submit") == Obj(map["schema" := Str("ADE")]);
  }

  /** One good recording at the apex. */
  const GoodApexRecord: map<string, Value> :=
    map["Body Spot" := Str("Apex"), "aiSegmentation" := Obj(map["quality" := Str("good")])]

  /** An examination with the given patient form, an empty echo form and one
      good apex recording. */
  function ExampleExamination(patient: map<string, Value>): Joined {
    Joined(map["id" := Str("e1"), "forms" := FullProtocolForms(patient, map[])], [GoodApexRecord])
  }

  lemma ExampleGatePasses(patient: map<string, Value>)
    ensures GateEntries(ExampleExamination(patient)) == [QualityEntry(Undefined, Str("good"))]
    ensures CheckRecordsQuality(GateEntries(ExampleExamination(patient)))
  {
    assert OnAvailableSpot(GoodApexRecord);
    assert SelectRecords([GoodApexRecord]) == [QualityOf(GoodApexRecord)] + SelectRecords([]);
  }

  /** The example's forms hold no protocol, so both versions apply the
      full-protocol rules. */
  lemma ExampleCriteria(patient: map<string, Value>)
    ensures CheckAcceptanceCriteria(Lookup(ExampleExamination(patient).examination, "forms")) ==
      CheckRules(FullProtocolForms(patient, map[]))
    ensures CheckAcceptanceCriteriaAsWritten(Lookup(ExampleExamination(patient).examination, "forms")) ==
      CheckRules(FullProtocolForms(patient, map[]))
  {
    var forms := FullProtocolForms(patient, map[]);
    assert Lookup(ExampleExamination(patient).examination, "forms") == forms;
    assert Get(forms, "protocol") == Undefined;
  }

  /** As written, an examination reporting heart failure is accepted and a
      clean one is not. */
  lemma AsWrittenAcceptsViolations(now: Value)
    ensures AutoAcceptAsWritten(Submitter, Some(ExampleExamination(map["heart_failure_choice" := Str("Yes")])), now).Accepted?
    ensures AutoAcceptAsWritten(Submitter, Some(ExampleExamination(map[])), now) == NotAccepted
  {
    AsWrittenAcceptsHeartFailure(now);
    AsWrittenRejectsClean(now);
  }

  lemma AsWrittenAcceptsHeartFailure(now: Value)
    ensures AutoAcceptAsWritten(Submitter, Some(ExampleExamination(map["heart_failure_choice" := Str("Yes")])), now).Accepted?
  {
    SubmitterSchema();
    FullProtocolExamples();
    ExampleCriteria(map["heart_failure_choice" := Str("Yes")]);
    ExampleGatePasses(map["heart_failure_choice" := Str("Yes")]);
  }

  lemma AsWrittenRejectsClean(now: Value)
    ensures AutoAcceptAsWritten(Submitter, Some(ExampleExamination(map[])), now) == NotAccepted
  {
    SubmitterSchema();
    FullProtocolExamples();
    ExampleCriteria(map[]);
    ExampleGatePasses(map[]);
  }

  /** As intended, the clean examination is accepted and the one reporting
      heart failure is left for review. */
  lemma IntendedAcceptsClean(now: Value)
    ensures AutoAccept(Submitter, Some(ExampleExamination(map[])), now) ==
      Accepted(Str("ADE"), AcceptExamination(ExampleExamination(map[]).examination, now))
    ensures AutoAccept(Submitter, Some(ExampleExamination(map["heart_failure_choice" := Str("Yes")])), now) == NotAccepted
  {
    SubmitterSchema();
    FullProtocolExamples();
    ExampleCriteria(map["heart_failure_choice" := Str("Yes")]);
    ExampleCriteria(map[]);
    ExampleGatePasses(map["heart_failure_choice" := Str("Yes")]);
    ExampleGatePasses(map[]);
  }
}

=== FILE: form_access.dfy ===
/** The request-handler logic of `src/routes/app.js` that decides who may do
    what with a clinic form: the grants lookup and role, the recording rules
    by patient-ID prefix, the readonly flag, locking and unlocking a form,
    the pending examinations still to be added, and the gate on submitting
    an examination. The store reads are parameters (the first matching form,
    or none), the store writes are returned as commands, and an exception
    caught by a handler is a failure reply. */
module FormAccess {
  import opened JsValues
  import opened UpsertStore

  /** `hay.includes(needle)`: a substring test on a string, an element test
      on an array; on `undefined`/`null` and on values without an `includes`
      method the call throws. A non-string needle on a string is coerced to
      text in JavaScript; the model treats that call as throwing. */
  function Includes(hay: Value, needle: Value): (r: Eval<bool>)
    ensures r.Ok? <==> hay.Arr? || (hay.Str? && needle.Str?)
    ensures hay.Arr? ==> r == Ok(needle in hay.items)
    ensures hay.Str? && needle.Str? ==> r == Ok(IsSubstring(needle.s, hay.s))
  {
    match hay
    case Str(s) => if needle.Str? then Ok(IsSubstring(needle.s, s)) else Throws
    case Arr(items) => Ok(needle in items)
    case _ => Throws
  }

  /** `obj[key] = x`: sets the field on an object; on any other value it has
      no effect. */
  function SetField(v: Value, key: string, x: Value): (r: Value)
    ensures v.Obj? ==> r.Obj? && r.fields.Keys == v.fields.Keys + {key} && r.fields[key] == x
    ensures v.Obj? ==> forall f :: f in v.fields && f != key ==> r.fields[f] == v.fields[f]
    ensures !v.Obj? ==> r == v
  {
    if v.Obj? then Obj(v.fields[key := x]) else v
  }

  // ---------------------------------------------------------------------
  // getGrants
  // ---------------------------------------------------------------------

  /** `u.email.includes(user.email)`: does account `u` belong to the requester? */
  function EmailMatches(user: Value): Value -> Eval<bool> {
    (u: Value) => if Nullish(u) || Nullish(user) then Throws else Includes(Get(u, "email"), Get(user, "email"))
  }

  /** `find(users, u => u.email.includes(user.email))` */
  function FindAccount(users: seq<Value>, user: Value): (r: Eval<Option<nat>>)
    ensures r.Ok? && r.value.Some? ==>
      && r.value.value < |users|
      && users[r.value.value].Obj?
      && Includes(Get(users[r.value.value], "email"), Get(user, "email")) == Ok(true)
      && forall j :: 0 <= j < r.value.value ==> EmailMatches(user)(users[j]) == Ok(false)
    ensures r == Ok(None) <==> forall j :: 0 <= j < |users| ==> EmailMatches(user)(users[j]) == Ok(false)
    ensures r.Throws? <==>
      exists i :: 0 <= i < |users| && EmailMatches(user)(users[i]).Throws? &&
        forall j :: 0 <= j < i ==> EmailMatches(user)(users[j]) == Ok(false)
    ensures |users| > 0 && Nullish(user) ==> r.Throws?
  {
    var r := Find(users, EmailMatches(user));
    assert |users| > 0 && Nullish(user) ==> EmailMatches(user)(users[0]).Throws?;
    r
  }

  /** The reply of `getGrants`: the requester's account, an access-denied
      error naming the e-mail, or the error reply of a caught exception. */
  datatype GrantsReply = Granted(grants: Value) | Denied(email: Value) | GrantsFailed

  /** `examinationID.startsWith(d)` for one entry `d` of `patientPrefix`. */
  function PrefixOf(examinationID: Value): Value -> Eval<bool> {
    (d: Value) => if examinationID.Str? && d.Str? then Ok(StartsWith(examinationID.s, d.s)) else Throws
  }

  /** The role for an examination: "writer" when one of the account's
      prefixes starts the examination ID, "reader" otherwise. */
  function Role(grants: Value, examinationID: Value): (r: Eval<string>)
    ensures r.Ok? ==> r.value == "reader" || r.value == "writer"
    ensures r == Ok("writer") <==>
      && !Nullish(grants)
      && Get(grants, "patientPrefix").Arr?
      && (forall k :: 0 <= k < |Get(grants, "patientPrefix").items| ==> PrefixOf(examinationID)(Get(grants, "patientPrefix").items[k]).Ok?)
      && exists k :: 0 <= k < |Get(grants, "patientPrefix").items| &&
           PrefixOf(examinationID)(Get(grants, "patientPrefix").items[k]) == Ok(true)
    ensures Get(grants, "patientPrefix") == Arr([]) ==> r == Ok("reader")
  {
    var prefixes :- Prop(grants, "patientPrefix");
    if !prefixes.Arr? then Throws
    else
      var hits :- Filter(prefixes.items, PrefixOf(examinationID));
      if |hits| == 0 then Ok("reader")
      else
        assert hits[0] in hits;
        Ok("writer")
  }

  /** When every prefix can be tested, the role is "reader" or "writer". */
  lemma RoleOfTests(grants: Value, examinationID: Value)
    requires !Nullish(grants) && Get(grants, "patientPrefix").Arr?
    requires forall k :: 0 <= k < |Get(grants, "patientPrefix").items| ==> PrefixOf(examinationID)(Get(grants, "patientPrefix").items[k]).Ok?
    ensures Role(grants, examinationID).Ok?
  {
  }

  /** With string prefixes and a string examination ID, the role is "writer"
      exactly when some prefix starts the ID. */
  lemma RoleByPrefix(grants: map<string, Value>, prefixes: seq<string>, examinationID: string)
    requires Lookup(grants, "patientPrefix") == Arr(seq(|prefixes|, i requires 0 <= i < |prefixes| => Str(prefixes[i])))
    ensures Role(Obj(grants), Str(examinationID)) ==
      Ok(if exists k :: 0 <= k < |prefixes| && StartsWith(examinationID, prefixes[k]) then "writer" else "reader")
  {
    var items := Get(Obj(grants), "patientPrefix").items;
    var test := PrefixOf(Str(examinationID));
    forall k | 0 <= k < |items|
      ensures test(items[k]) == Ok(StartsWith(examinationID, prefixes[k]))
    {
      assert items[k] == Str(prefixes[k]);
    }
    RoleOfTests(Obj(grants), Str(examinationID));
  }

  /** `getGrants`: the first account whose e-mail contains the requester's;
      without one, access is denied. With an examination ID the account's
      role is set from its prefixes; without one it is returned untouched. */
  function GetGrants(user: Value, users: seq<Value>, examinationID: Value): (r: GrantsReply)
    ensures r.Denied? <==> !Nullish(user) && forall j :: 0 <= j < |users| ==> EmailMatches(user)(users[j]) == Ok(false)
    ensures r.Denied? ==> r.email == Get(user, "email")
    ensures r.Granted? ==> FindAccount(users, user).Ok? && FindAccount(users, user).value.Some?
    ensures r.Granted? && examinationID == Undefined ==> r.grants == users[FindAccount(users, user).value.value]
    ensures r.Granted? && examinationID != Undefined ==>
      var account := users[FindAccount(users, user).value.value];
      && Role(account, examinationID).Ok?
      && r.grants == SetField(account, "role", Str(Role(account, examinationID).value))
    ensures FindAccount(users, user).Throws? ==> r.GrantsFailed?
    ensures r.GrantsFailed? <==>
      || FindAccount(users, user).Throws?
      || (Nullish(user) && FindAccount(users, user) == Ok(None))
      || (&& FindAccount(users, user).Ok? && FindAccount(users, user).value.Some?
          && examinationID != Undefined
          && Role(users[FindAccount(users, user).value.value], examinationID).Throws?)
    ensures (&& FindAccount(users, user).Ok? && FindAccount(users, user).value.Some?
             && (examinationID == Undefined || Role(users[FindAccount(users, user).value.value], examinationID).Ok?))
      ==> r.Granted?
  {
    match FindAccount(users, user)
    case Throws => GrantsFailed
    case Ok(None) => if Nullish(user) then GrantsFailed else Denied(Get(user, "email"))
    case Ok(Some(i)) =>
      var account := users[i];
      if examinationID == Undefined then Granted(account)
      else
        match Role(account, examinationID)
        case Throws => GrantsFailed
        case Ok(role) => Granted(SetField(account, "role", Str(role)))
  }

  /** Without an examination ID the found account is returned untouched. */
  lemma GrantsWithoutExamination(user: Value, users: seq<Value>, i: nat)
    requires FindAccount(users, user) == Ok(Some(i))
    ensures GetGrants(user, users, Undefined) == Granted(users[i])
  {
  }

  /** With an examination ID and string prefixes, the found account is
      returned with its role: "writer" exactly when one of its prefixes
      starts the ID, "reader" otherwise. */
  lemma GrantsRoleByPrefix(user: Value, users: seq<Value>, i: nat, prefixes: seq<string>, examinationID: string)
    requires FindAccount(users, user) == Ok(Some(i))
    requires users[i].Obj?
    requires Lookup(users[i].fields, "patientPrefix") == Arr(seq(|prefixes|, k requires 0 <= k < |prefixes| => Str(prefixes[k])))
    ensures GetGrants(user, users, Str(examinationID)) ==
      Granted(SetField(users[i], "role",
        Str(if exists k :: 0 <= k < |prefixes| && StartsWith(examinationID, prefixes[k]) then "writer" else "reader")))
  {
    RoleByPrefix(users[i].fields, prefixes, examinationID);
    assert users[i] == Obj(users[i].fields);
  }

  // ---------------------------------------------------------------------
  // getRules
  // ---------------------------------------------------------------------

  /** `s.substr(0, 3)` */
  function Prefix3(s: string): (r: string)
    ensures |s| >= 3 ==> |r| == 3 && r == s[..3]
    ensures |s| < 3 ==> r == s
  {
    if |s| >= 3 then s[..3] else s
  }

  /** `{ recordings: [], files: [] }` */
  const NoRules := Obj(map["recordings" := Arr([]), "files" := Arr([])])

  /** `r.patientPrefix.includes(prefix)` */
  function RuleMatches(prefix: string): Value -> Eval<bool> {
    (r: Value) => if Nullish(r) then Throws else Includes(Get(r, "patientPrefix"), Str(prefix))
  }

  /** `getRules`: the first rule set whose `patientPrefix` includes the
      first three characters of the examination ID, or no rules at all. */
  function GetRules(options: Value, rules: seq<Value>): (r: Eval<Value>)
    ensures r.Ok? ==> Get(options, "examinationID").Str?
    ensures r.Ok? ==>
      var prefix := Prefix3(Get(options, "examinationID").s);
      || (r.value == NoRules && forall j :: 0 <= j < |rules| ==> RuleMatches(prefix)(rules[j]) == Ok(false))
      || exists i :: 0 <= i < |rules| && r.value == rules[i] && RuleMatches(prefix)(rules[i]) == Ok(true) &&
           forall j :: 0 <= j < i ==> RuleMatches(prefix)(rules[j]) == Ok(false)
    ensures (!Nullish(options) && Get(options, "examinationID").Str? &&
      forall j :: 0 <= j < |rules| ==> RuleMatches(Prefix3(Get(options, "examinationID").s))(rules[j]).Ok?) ==> r.Ok?
  {
    var id :- Prop(options, "examinationID");
    if !id.Str? then Throws
    else
      var found :- Find(rules, RuleMatches(Prefix3(id.s)));
      match found
      case None => Ok(NoRules)
      case Some(i) => Ok(rules[i])
  }

  /** Only the first three characters of the examination ID matter. */
  lemma RulesByPrefixOnly(options1: Value, options2: Value, rules: seq<Value>)
    requires options1.Obj? && options2.Obj?
    requires Get(options1, "examinationID").Str? && Get(options2, "examinationID").Str?
    requires Prefix3(Get(options1, "examinationID").s) == Prefix3(Get(options2, "examinationID").s)
    ensures GetRules(options1, rules) == GetRules(options2, rules)
  {
  }

  // ---------------------------------------------------------------------
  // getForms, lockForms, unlockForms, updateForms
  // ---------------------------------------------------------------------

  /** A reply carrying a form, a not-available error, or a caught exception. */
  datatype FormsReply = Form(doc: map<string, Value>) | NotAvailable(examinationID: Value, email: Value) | FormsFailed

  /** The reply when no form matches: the message reads `user.email`. */
  function NotAvailableReply(user: Value, examinationID: Value): (r: FormsReply)
    ensures r.NotAvailable? <==> !Nullish(user)
    ensures r.NotAvailable? ==> r.examinationID == examinationID && r.email == Get(user, "email")
    ensures !r.NotAvailable? ==> r.FormsFailed?
  {
    if Nullish(user) then FormsFailed else NotAvailable(examinationID, Get(user, "email"))
  }

  /** `getForms`: the first matching form, marked readonly unless its
      examination is still pending. */
  function GetForms(user: Value, examinationID: Value, data: Option<map<string, Value>>): (r: FormsReply)
    ensures data.None? ==> r == NotAvailableReply(user, examinationID)
    ensures data.Some? ==> (r.Form? <==> !Nullish(Lookup(data.value, "examination")))
    ensures data.Some? && r.Form? ==>
      && r.doc.Keys == data.value.Keys + {"readonly"}
      && (r.doc["readonly"] == Bool(false) <==> LooseEquals(Get(Lookup(data.value, "examination"), "state"), "pending"))
      && r.doc["readonly"].Bool?
      && forall f :: f in data.value && f != "readonly" ==> r.doc[f] == data.value[f]
    ensures !r.Form? ==> !r.NotAvailable? || data.None?
  {
    match data
    case None => NotAvailableReply(user, examinationID)
    case Some(doc) =>
      var examination := Lookup(doc, "examination");
      if Nullish(examination) then FormsFailed
      else Form(doc["readonly" := Bool(!LooseEquals(Get(examination, "state"), "pending"))])
  }

  /** The two fields a lock holds. */
  const LockFields: set<string> := {"locked by", "locked at"}

  /** `data["locked by"] = name; data["locked at"] = now` */
  function Lock(doc: map<string, Value>, lockedBy: Value, now: Value): (r: map<string, Value>)
    ensures r.Keys == doc.Keys + LockFields
    ensures r["locked by"] == lockedBy && r["locked at"] == now
    ensures forall f :: f in doc && f !in LockFields ==> r[f] == doc[f]
  {
    doc["locked by" := lockedBy]["locked at" := now]
  }

  /** `delete data["locked by"]; delete data["locked at"]` */
  function Unlock(doc: map<string, Value>): (r: map<string, Value>)
    ensures r.Keys == doc.Keys - LockFields
    ensures forall f :: f in r ==> r[f] == doc[f]
  {
    doc - LockFields
  }

  /** Unlocking forgets any lock, and a form that was not locked before a
      lock and an unlock is back as it was. */
  lemma UnlockUndoesLock(doc: map<string, Value>, lockedBy: Value, now: Value)
    ensures Unlock(Lock(doc, lockedBy, now)) == Unlock(doc)
    ensures doc.Keys !! LockFields ==> Unlock(Lock(doc, lockedBy, now)) == doc
    ensures Unlock(Unlock(doc)) == Unlock(doc)
  {
  }

  /** The store write of a form: replace the form of its patient. */
  function ReplaceForm(doc: map<string, Value>): (r: Eval<Upsert>)
    ensures r.Ok? <==> !Nullish(Lookup(doc, "examination"))
    ensures r.Ok? ==> r.value.key == [Get(Lookup(doc, "examination"), "patientId")] && r.value.replacement == Obj(doc)
  {
    var examination := Lookup(doc, "examination");
    if Nullish(examination) then Throws
    else Ok(Upsert([Get(examination, "patientId")], Obj(doc)))
  }

  /** The reply of a handler that writes a form. */
  datatype WriteReply = Written(command: Upsert) | Unavailable(reply: FormsReply) | WriteFailed

  /** `lockForms`: the first matching form, locked by `grants.name` at `now`. */
  function LockForms(grants: Value, user: Value, examinationID: Value, data: Option<map<string, Value>>, now: Value): (r: WriteReply)
    ensures data.None? ==> r == Unavailable(NotAvailableReply(user, examinationID))
    ensures data.Some? ==> (r.Written? <==> !Nullish(grants) && !Nullish(Lookup(data.value, "examination")))
    ensures r.Written? ==>
      && r.command.key == [Get(Lookup(data.value, "examination"), "patientId")]
      && r.command.replacement == Obj(Lock(data.value, Get(grants, "name"), now))
  {
    match data
    case None => Unavailable(NotAvailableReply(user, examinationID))
    case Some(doc) =>
      if Nullish(grants) then WriteFailed
      else
        match ReplaceForm(Lock(doc, Get(grants, "name"), now))
        case Throws => WriteFailed
        case Ok(command) => Written(command)
  }

  /** `unlockForms`: the first matching form, with its lock removed. */
  function UnlockForms(user: Value, examinationID: Value, data: Option<map<string, Value>>): (r: WriteReply)
    ensures data.None? ==> r == Unavailable(NotAvailableReply(user, examinationID))
    ensures data.Some? ==> (r.Written? <==> !Nullish(Lookup(data.value, "examination")))
    ensures r.Written? ==>
      && r.command.key == [Get(Lookup(data.value, "examination"), "patientId")]
      && r.command.replacement == Obj(Unlock(data.value))
  {
    match data
    case None => Unavailable(NotAvailableReply(user, examinationID))
    case Some(doc) =>
      match ReplaceForm(Unlock(doc))
      case Throws => WriteFailed
      case Ok(command) => Written(command)
  }

  /** `updateForms`: the edited form replaces the stored one, without a lock. */
  function UpdateForms(form: Value): (r: WriteReply)
    ensures r.Written? <==> form.Obj? && !Nullish(Lookup(form.fields, "examination"))
    ensures r.Written? ==>
      && r.command.key == [Get(Lookup(form.fields, "examination"), "patientId")]
      && r.command.replacement == Obj(Unlock(form.fields))
    ensures !r.Written? ==> r.WriteFailed?
  {
    if !form.Obj? then WriteFailed
    else
      match ReplaceForm(Unlock(form.fields))
      case Throws => WriteFailed
      case Ok(command) => Written(command)
  }

  /** A lock followed by an unlock of the same form writes the form back
      under the same key, without the lock fields. */
  lemma LockThenUnlock(grants: Value, user: Value, examinationID: Value, doc: map<string, Value>, now: Value)
    requires LockForms(grants, user, examinationID, Some(doc), now).Written?
    ensures var locked := LockForms(grants, user, examinationID, Some(doc), now).command;
      && locked.replacement.Obj?
      && UnlockForms(user, examinationID, Some(locked.replacement.fields)) == Written(Upsert(locked.key, Obj(Unlock(doc))))
  {
    var locked := Lock(doc, Get(grants, "name"), now);
    assert Lookup(Unlock(locked), "examination") == Lookup(doc, "examination");
    UnlockUndoesLock(doc, Get(grants, "name"), now);
  }

  // ---------------------------------------------------------------------
  // syncExaminations: the examinations still to be added
  // ---------------------------------------------------------------------

  /** `difference(a, b)` (lodash): the elements of `a` not in `b`, in order. */
  function Difference(a: seq<Value>, b: seq<Value>): (r: seq<Value>)
    ensures forall x :: x in r <==> x in a && x !in b
    ensures |r| <= |a|
    decreases |a|
  {
    if |a| == 0 then []
    else
      var init := Difference(a[..|a| - 1], b);
      assert forall x :: x in a <==> x in a[..|a| - 1] || x == a[|a| - 1];
      if a[|a| - 1] in b then init else init + [a[|a| - 1]]
  }

  /** `d.patientId` of an intake examination. */
  function IntakeId(d: Value): Eval<Value> {
    Prop(d, "patientId")
  }

  /** `d.examination.patientId` of a stored clinic form. */
  function FormId(d: Value): Eval<Value> {
    if Nullish(d) || Nullish(Get(d, "examination")) then Throws else Ok(Get(Get(d, "examination"), "patientId"))
  }

  /** `toBeAdded.includes(e.patientId)` */
  function IdIn(ids: seq<Value>): Value -> Eval<bool> {
    (e: Value) => if Nullish(e) then Throws else Ok(Get(e, "patientId") in ids)
  }

  /** The intake examinations whose patient ID is not among the pending
      clinic forms: the list difference of the IDs, then the intake entries
      whose ID is in it. */
  function ToBeAdded(intake: seq<Value>, pending: seq<Value>): (r: Eval<seq<Value>>)
    ensures r.Ok? <==>
      (forall i :: 0 <= i < |intake| ==> !Nullish(intake[i])) && (forall i :: 0 <= i < |pending| ==> FormId(pending[i]).Ok?)
    ensures r.Ok? ==> forall e :: e in r.value <==>
      e in intake && forall i :: 0 <= i < |pending| ==> FormId(pending[i]).value != Get(e, "patientId")
  {
    var intakeIds :- Map(intake, IntakeId);
    var pendingIds :- Map(pending, FormId);
    var missing := Difference(intakeIds, pendingIds);
    ToBeAddedMembers(intake, pending, intakeIds, pendingIds, missing);
    Filter(intake, IdIn(missing))
  }

  /** Membership in the filtered intake list: an entry stays exactly when
      its ID differs from every pending form's ID. */
  lemma ToBeAddedMembers(intake: seq<Value>, pending: seq<Value>, intakeIds: seq<Value>, pendingIds: seq<Value>, missing: seq<Value>)
    requires Map(intake, IntakeId) == Ok(intakeIds) && Map(pending, FormId) == Ok(pendingIds)
    requires missing == Difference(intakeIds, pendingIds)
    ensures Filter(intake, IdIn(missing)).Ok?
    ensures forall e :: e in Filter(intake, IdIn(missing)).value <==>
      e in intake && forall i :: 0 <= i < |pending| ==> FormId(pending[i]).value != Get(e, "patientId")
  {
    assert forall i :: 0 <= i < |intake| ==> !Nullish(intake[i]) by {
      forall i | 0 <= i < |intake| ensures !Nullish(intake[i]) {
        assert IntakeId(intake[i]).Ok?;
      }
    }
    var kept := Filter(intake, IdIn(missing)).value;
    forall e
      ensures e in kept <==> e in intake && forall i :: 0 <= i < |pending| ==> FormId(pending[i]).value != Get(e, "patientId")
    {
      if e in intake {
        var id := Get(e, "patientId");
        var k :| 0 <= k < |intake| && intake[k] == e;
        assert intakeIds[k] == id;
        assert IdIn(missing)(e) == Ok(id in missing);
        if id in pendingIds {
          var j :| 0 <= j < |pendingIds| && pendingIds[j] == id;
          assert FormId(pending[j]).value == id;
        } else {
          forall i | 0 <= i < |pending|
            ensures FormId(pending[i]).value != id
          {
            assert pendingIds[i] == FormId(pending[i]).value;
          }
        }
      }
    }
  }

  /** Reference definition: the intake entries, in order, whose ID is not in `ids`. */
  function NotIn(intake: seq<Value>, ids: seq<Value>): seq<Value>
    decreases |intake|
  {
    if |intake| == 0 then []
    else
      var init := NotIn(intake[..|intake| - 1], ids);
      if Get(intake[|intake| - 1], "patientId") in ids then init else init + [intake[|intake| - 1]]
  }

  /** `toBeAdded` keeps the intake order: it is exactly the intake entries
      whose patient ID is not pending, in intake order (duplicates kept). */
  lemma {:induction false} ToBeAddedInOrder(intake: seq<Value>, pending: seq<Value>, pendingIds: seq<Value>)
    requires ToBeAdded(intake, pending).Ok?
    requires Map(pending, FormId) == Ok(pendingIds)
    ensures ToBeAdded(intake, pending).value == NotIn(intake, pendingIds)
  {
    var intakeIds := Map(intake, IntakeId).value;
    var missing := Difference(intakeIds, pendingIds);
    FilterIsNotIn(intake, intakeIds, pendingIds, missing);
  }

  lemma {:induction false} FilterIsNotIn(intake: seq<Value>, intakeIds: seq<Value>, pendingIds: seq<Value>, missing: seq<Value>)
    requires forall i :: 0 <= i < |intake| ==> !Nullish(intake[i])
    requires forall e :: e in intake ==> Get(e, "patientId") in intakeIds
    requires forall x :: x in missing <==> x in intakeIds && x !in pendingIds
    ensures Filter(intake, IdIn(missing)) == Ok(NotIn(intake, pendingIds))
    decreases |intake|
  {
    if |intake| > 0 {
      var init := intake[..|intake| - 1];
      assert forall e :: e in init ==> e in intake;
      FilterIsNotIn(init, intakeIds, pendingIds, missing);
      assert intake[|intake| - 1] in intake;
    }
  }

  // ---------------------------------------------------------------------
  // postSubmitOneExamination
  // ---------------------------------------------------------------------

  /** What `postSubmitOneExamination` does: whether it registers the
      migration listener, and the settings it emits to it, if any.
      `SubmitFailed` is the 500 reply; a listener registered before the failure stays. */
  datatype SubmitReply =
    | Submitted(listenerAdded: bool, emitted: Option<Value>, requestId: string)
    | SubmitFailed(listenerAdded: bool)

  /** `postSubmitOneExamination`: the account is looked up by e-mail and
      replaces `settings.user`; the listener is registered only when none
      is; the settings are emitted only when the requester's own
      `user.grants.submit` holds. */
  function SubmitOneExamination(settings: Value, users: seq<Value>, listenerCount: nat, requestId: string): (r: SubmitReply)
    ensures Nullish(settings) ==> r == SubmitFailed(false)
    ensures !Nullish(settings) && FindAccount(users, Get(settings, "user")).Throws? ==> r == SubmitFailed(false)
    ensures r.listenerAdded <==>
      !Nullish(settings) && FindAccount(users, Get(settings, "user")).Ok? && listenerCount == 0
    ensures r.Submitted? <==>
      !Nullish(settings) && FindAccount(users, Get(settings, "user")).Ok? && !Nullish(Get(settings, "user"))
    ensures r.Submitted? ==>
      var user := Get(settings, "user");
      (r.emitted.Some? <==> Truthy(Get(user, "grants")) && Truthy(Get(Get(user, "grants"), "submit")))
    ensures r.Submitted? && r.emitted.Some? ==>
      var found := FindAccount(users, Get(settings, "user")).value;
      && r.emitted.value.Obj?
      && "user" in r.emitted.value.fields && "requestId" in r.emitted.value.fields
      && r.emitted.value.fields["user"] == (if found.Some? then users[found.value] else Undefined)
      && r.emitted.value.fields["requestId"] == Str(requestId)
  {
    if Nullish(settings) then SubmitFailed(false)
    else
      var user := Get(settings, "user");
      match FindAccount(users, user)
      case Throws => SubmitFailed(false)
      case Ok(found) =>
        var grants := if found.Some? then users[found.value] else Undefined;
        var listenerAdded := listenerCount == 0;
        var forwarded := SetField(SetField(settings, "user", grants), "requestId", Str(requestId));
        if Nullish(user) then SubmitFailed(listenerAdded)
        else if Truthy(Get(user, "grants")) && Truthy(Get(Get(user, "grants"), "submit")) then
          Submitted(listenerAdded, Some(forwarded), requestId)
        else Submitted(listenerAdded, None, requestId)
  }
  /** The submit gate looks only at the requester's own `user.grants`: two
      account lists that both let the submission through agree on whether
      the settings are forwarded and on the listener, and the forwarded
      settings differ at most in the `user` they carry. */
  lemma SubmitGateIgnoresAccounts(settings: Value, users1: seq<Value>, users2: seq<Value>,
                                  listenerCount: nat, requestId: string)
    requires SubmitOneExamination(settings, users1, listenerCount, requestId).Submitted?
    requires SubmitOneExamination(settings, users2, listenerCount, requestId).Submitted?
    ensures var r1 := SubmitOneExamination(settings, users1, listenerCount, requestId);
      var r2 := SubmitOneExamination(settings, users2, listenerCount, requestId);
      && r1.listenerAdded == r2.listenerAdded
      && (r1.emitted.Some? <==> r2.emitted.Some?)
      && (r1.emitted.Some? ==>
            r1.emitted.value.fields.Keys == r2.emitted.value.fields.Keys
            && forall f :: f in r1.emitted.value.fields && f != "user" ==>
                 r1.emitted.value.fields[f] == r2.emitted.value.fields[f])
  {
    var r1 := SubmitOneExamination(settings, users1, listenerCount, requestId);
    if r1.emitted.Some? {
      SubmitForwardsSettings(settings, users1, listenerCount, requestId);
      SubmitForwardsSettings(settings, users2, listenerCount, requestId);
    }
  }

  /** The forwarded settings are the request's settings with `user` and
      `requestId` set and every other field kept. */
  lemma SubmitForwardsSettings(settings: Value, users: seq<Value>, listenerCount: nat, requestId: string)
    requires SubmitOneExamination(settings, users, listenerCount, requestId).Submitted?
    requires SubmitOneExamination(settings, users, listenerCount, requestId).emitted.Some?
    ensures settings.Obj?
    ensures var sent := SubmitOneExamination(settings, users, listenerCount, requestId).emitted.value;
      && sent.Obj?
      && sent.fields.Keys == settings.fields.Keys + {"user", "requestId"}
      && forall f :: f in settings.fields && f != "user" && f != "requestId" ==> sent.fields[f] == settings.fields[f]
  {
    var user := Get(settings, "user");
    assert !Nullish(user);
    var found := FindAccount(users, user).value;
    var grants := if found.Some? then users[found.value] else Undefined;
    var withUser := SetField(settings, "user", grants);
    assert SubmitOneExamination(settings, users, listenerCount, requestId).emitted.value
      == SetField(withUser, "requestId", Str(requestId));
  }
}

=== FILE: js_values.dfy ===
/** JavaScript values as the request handlers and the migration job see them:
    documents read from the stores, request bodies and form sections.

    Only the parts of JavaScript semantics the handlers rely on are modelled:
    truthiness, property reads (which throw on `undefined` and `null`),
    `a || b` defaults and `==` against a string literal. */
module JsValues {

  datatype Option<+T> = None | Some(value: T)

  /** The outcome of evaluating a JavaScript expression: a value, or a thrown
      exception (a property read on `undefined`/`null`, a call through an
      unbound name). Usable with `:-`. */
  datatype Eval<+T> = Ok(value: T) | Throws {

    predicate IsFailure() {
      Throws?
    }

    function PropagateFailure<U>(): Eval<U>
      requires Throws?
    {
      Throws
    }

    function Extract(): T
      requires Ok?
    {
      value
    }
  }

  /** A JSON-like JavaScript value. Numbers are exact reals (`NaN` and the
      rounding of doubles are not modelled). */
  datatype Value =
    | Undefined
    | Null
    | Bool(b: bool)
    | Num(n: real)
    | Str(s: string)
    | Arr(items: seq<Value>)
    | Obj(fields: map<string, Value>)

  predicate Nullish(v: Value) {
    v.Undefined? || v.Null?
  }

  /** JavaScript truthiness: `undefined`, `null`, `false`, `0` and `""` are falsy. */
  predicate Truthy(v: Value) {
    match v
    case Undefined => false
    case Null => false
    case Bool(b) => b
    case Num(n) => n != 0.0
    case Str(s) => |s| > 0
    case Arr(_) => true
    case Obj(_) => true
  }

  /** `doc[key]` on a document: the field, or `undefined` when it is absent. */
  function Lookup(doc: map<string, Value>, key: string): Value {
    if key in doc then doc[key] else Undefined
  }

  /** `v[key]` on a value that is not nullish: an own field of an object, and
      `undefined` for every other value (the field names the handlers read
      are never built-in properties of primitives or arrays). */
  function Get(v: Value, key: string): Value {
    if v.Obj? then Lookup(v.fields, key) else Undefined
  }

  /** `v.key`: throws a TypeError when `v` is `undefined` or `null`. */
  function Prop(v: Value, key: string): Eval<Value> {
    if Nullish(v) then Throws else Ok(Get(v, key))
  }

  /** `v || fallback` */
  function Or(v: Value, fallback: Value): Value {
    if Truthy(v) then v else fallback
  }

  /** `v == literal` against a string: strings compare by content; numbers
      and booleans compare with the number the literal converts to;
      `undefined` and `null` equal no string; arrays and objects compare
      through their text. */
  predicate LooseEquals(v: Value, literal: string) {
    match v
    case Undefined => false
    case Null => false
    case Bool(b) => StringToNumber(literal) == Some(if b then 1.0 else 0.0)
    case Num(n) => StringToNumber(literal) == Some(n)
    case Str(s) => s == literal
    case Arr(_) => ToText(v) == Some(literal)
    case Obj(_) => literal == "[object Object]"
  }

  /** `String(v)`, for every value except a number that is not an integer
      below 10^21 in magnitude (`None`). An array's text is its elements'
      texts joined with commas, with `undefined` and `null` elements written
      as "". */
  function ToText(v: Value): Option<string>
    decreases v
  {
    match v
    case Undefined => Some("undefined")
    case Null => Some("null")
    case Bool(b) => Some(if b then "true" else "false")
    case Num(n) => IntegerText(n)
    case Str(s) => Some(s)
    case Arr(items) =>
      JoinTexts(seq(|items|, i requires 0 <= i < |items| => if Nullish(items[i]) then Some("") else ToText(items[i])))
    case Obj(_) => Some("[object Object]")
  }

  /** The decimal text of an integer below 10^21 in magnitude. */
  function IntegerText(n: real): (r: Option<string>)
    ensures r.Some? ==> |r.value| > 0
  {
    if n.Floor as real != n || n <= -1.0e21 || 1.0e21 <= n then None
    else if n >= 0.0 then Some(NatText(n.Floor))
    else Some("-" + NatText(-n.Floor))
  }

  /** `parts.join(",")`, or `None` when a part has no text. */
  function JoinTexts(parts: seq<Option<string>>): (r: Option<string>)
    ensures r.Some? <==> forall i :: 0 <= i < |parts| ==> parts[i].Some?
  {
    if |parts| == 0 then Some("")
    else if parts[0].None? then None
    else
      var rest := JoinTexts(parts[1..]);
      if rest.None? then None
      else if |parts| == 1 then parts[0]
      else Some(parts[0].value + "," + rest.value)
  }

  /** A literal that is no numeral: it starts with a character outside
      white space, digits, `.`, `e`, `E` and the signs, and it is not an
      object's text. */
  predicate Word(literal: string) {
    && |literal| > 0
    && Foreign(literal[0]) && !IsJsSpace(literal[0])
    && !IsJsSpace(literal[|literal| - 1])
    && literal != "[object Object]"
  }

  /** Against a word, `==` holds for that string and for an array whose text
      it is, and for nothing else. */
  lemma LooseEqualsWord(v: Value, literal: string)
    requires Word(literal)
    ensures LooseEquals(v, literal) <==> v == Str(literal) || (v.Arr? && ToText(v) == Some(literal))
  {
    assert Trim(literal) == literal;
    ForeignTextIsNaN(literal, 0);
  }

  /** A one-element array equals its element's text. */
  lemma OneElementArrayEquals()
    ensures LooseEquals(Arr([Str("Yes")]), "Yes")
    ensures LooseEquals(Arr([Arr([Str("Yes")])]), "Yes")
    ensures LooseEquals(Arr([Num(35.0)]), "35")
  {
    assert JoinTexts([Some("Yes")]) == Some("Yes");
    assert ToText(Arr([Str("Yes")])) == Some("Yes");
    assert NatText(35) == "35" by {
      assert NatText(3) == "3";
    }
    assert IntegerText(35.0) == Some("35");
  }

  /** A longer array's text holds a comma, so it is not the word alone. */
  lemma LongerArrayUnequal()
    ensures !LooseEquals(Arr([Str("Yes"), Str("No")]), "Yes")
    ensures LooseEquals(Arr([Str("Yes"), Str("No")]), "Yes,No")
  {
    var two := [Some("Yes"), Some("No")];
    assert two[1..] == [Some("No")];
    assert JoinTexts(two) == Some("Yes" + "," + "No");
    assert "Yes" + "," + "No" == "Yes,No";
    var items := [Str("Yes"), Str("No")];
    assert seq(|items|, i requires 0 <= i < |items| => if Nullish(items[i]) then Some("") else ToText(items[i])) == two;
  }

  /** `s.startsWith(prefix)` */
  predicate StartsWith(s: string, prefix: string) {
    |prefix| <= |s| && s[..|prefix|] == prefix
  }

  /** `haystack.includes(needle)` on strings: `needle` starts at some position. */
  predicate IsSubstring(needle: string, haystack: string)
    decreases |haystack|
  {
    StartsWith(haystack, needle) || (|haystack| > 0 && IsSubstring(needle, haystack[1..]))
  }

  /** `coll.find(test)` (lodash `find`): the index of the first element the
      test accepts, or `None`. The test runs left to right and an exception
      in it ends the search. */
  function Find(xs: seq<Value>, test: Value -> Eval<bool>): (r: Eval<Option<nat>>)
    ensures r.Ok? && r.value.Some? ==>
      && r.value.value < |xs|
      && test(xs[r.value.value]) == Ok(true)
      && forall j :: 0 <= j < r.value.value ==> test(xs[j]) == Ok(false)
    ensures r == Ok(None) <==> forall j :: 0 <= j < |xs| ==> test(xs[j]) == Ok(false)
    ensures r.Throws? <==>
      exists i :: 0 <= i < |xs| && test(xs[i]).Throws? && forall j :: 0 <= j < i ==> test(xs[j]) == Ok(false)
  {
    FindFrom(xs, test, 0)
  }

  /** `find` returns the first element that passes when every earlier one
      fails without throwing. */
  lemma FindFirstMatch(xs: seq<Value>, test: Value -> Eval<bool>, i: nat)
    requires i < |xs| && test(xs[i]) == Ok(true)
    requires forall j :: 0 <= j < i ==> test(xs[j]) == Ok(false)
    ensures Find(xs, test) == Ok(Some(i))
  {
  }

  function FindFrom(xs: seq<Value>, test: Value -> Eval<bool>, k: nat): (r: Eval<Option<nat>>)
    requires k <= |xs|
    ensures r.Ok? && r.value.Some? ==>
      && k <= r.value.value < |xs|
      && test(xs[r.value.value]) == Ok(true)
      && forall j :: k <= j < r.value.value ==> test(xs[j]) == Ok(false)
    ensures r == Ok(None) <==> forall j :: k <= j < |xs| ==> test(xs[j]) == Ok(false)
    ensures r.Throws? <==>
      exists i :: k <= i < |xs| && test(xs[i]).Throws? && forall j :: k <= j < i ==> test(xs[j]) == Ok(false)
    decreases |xs| - k
  {
    if k == |xs| then Ok(None)
    else match test(xs[k])
      case Throws => Throws
      case Ok(hit) => if hit then Ok(Some(k)) else FindFrom(xs, test, k + 1)
  }

  /** `a` is `b` with some elements left out: `a`'s elements appear in `b`
      in the same order. */
  predicate Subsequence(a: seq<Value>, b: seq<Value>)
    decreases |b|
  {
    if |a| == 0 then true
    else if |b| == 0 then false
    else
      (a[|a| - 1] == b[|b| - 1] && Subsequence(a[..|a| - 1], b[..|b| - 1]))
      || Subsequence(a, b[..|b| - 1])
  }

  /** `xs.filter(test)`: the elements the test accepts, in order; an
      exception in any test call throws. */
  function Filter(xs: seq<Value>, test: Value -> Eval<bool>): (r: Eval<seq<Value>>)
    ensures r.Ok? <==> forall i :: 0 <= i < |xs| ==> test(xs[i]).Ok?
    ensures r.Ok? ==> |r.value| <= |xs|
    ensures r.Ok? ==> forall x :: x in r.value <==> x in xs && test(x) == Ok(true)
    ensures r.Ok? ==> forall x :: multiset(r.value)[x] == if test(x) == Ok(true) then multiset(xs)[x] else 0
    decreases |xs|
  {
    if |xs| == 0 then Ok([])
    else
      var front, last := xs[..|xs| - 1], xs[|xs| - 1];
      assert xs == front + [last];
      var init :- Filter(front, test);
      var keep :- test(last);
      FilterStep(front, last, init, test, keep);
      Ok(if keep then init + [last] else init)
  }

  /** One step of `Filter`: the last element is kept exactly when the test
      accepts it. */
  lemma FilterStep(front: seq<Value>, last: Value, init: seq<Value>, test: Value -> Eval<bool>, keep: bool)
    requires test(last) == Ok(keep)
    requires |init| <= |front|
    requires forall x :: multiset(init)[x] == if test(x) == Ok(true) then multiset(front)[x] else 0
    ensures var r := if keep then init + [last] else init;
      && |r| <= |front + [last]|
      && (forall x :: multiset(r)[x] == if test(x) == Ok(true) then multiset(front + [last])[x] else 0)
      && (forall x :: x in r <==> x in front + [last] && test(x) == Ok(true))
  {
    var r := if keep then init + [last] else init;
    assert multiset(front + [last]) == multiset(front) + multiset{last};
    if keep {
      assert multiset(r) == multiset(init) + multiset{last};
    }
    forall x
      ensures x in r <==> x in front + [last] && test(x) == Ok(true)
    {
      assert x in r <==> multiset(r)[x] > 0;
      assert x in front + [last] <==> multiset(front + [last])[x] > 0;
    }
  }

  /** `xs.filter(test)` keeps the elements it accepts in their original order. */
  lemma {:induction false} FilterKeepsOrder(xs: seq<Value>, test: Value -> Eval<bool>)
    requires Filter(xs, test).Ok?
    ensures Subsequence(Filter(xs, test).value, xs)
    decreases |xs|
  {
    if |xs| > 0 {
      var front, last := xs[..|xs| - 1], xs[|xs| - 1];
      FilterKeepsOrder(front, test);
      var init := Filter(front, test).value;
      if test(last) == Ok(true) {
        var r := init + [last];
        assert r[..|r| - 1] == init && r[|r| - 1] == last;
        assert Filter(xs, test).value == r;
      } else {
        assert Filter(xs, test).value == init;
      }
    }
  }

  /** `xs.map(f)`: one result per element, in order; an exception in any
      call throws. */
  function Map(xs: seq<Value>, f: Value -> Eval<Value>): (r: Eval<seq<Value>>)
    ensures r.Ok? <==> forall i :: 0 <= i < |xs| ==> f(xs[i]).Ok?
    ensures r.Ok? ==> |r.value| == |xs| && forall i :: 0 <= i < |xs| ==> r.value[i] == f(xs[i]).value
    decreases |xs|
  {
    if |xs| == 0 then Ok([])
    else
      var init :- Map(xs[..|xs| - 1], f);
      var last :- f(xs[|xs| - 1]);
      Ok(init + [last])
  }

  // ---------------------------------------------------------------------
  // `Number(v)`: the conversion `v <= 40` applies to a non-number
  // ---------------------------------------------------------------------

  /** The white space and line terminators `Number(s)` trims
      (sections 12.2 and 12.3 of ECMA-262). */
  predicate IsJsSpace(c: char) {
    || c in {' ', '\t', '\n', '\r', '\U{B}', '\U{C}', '\U{A0}', '\U{1680}', '\U{2028}', '\U{2029}', '\U{202F}', '\U{205F}', '\U{3000}', '\U{FEFF}'}
    || ('\U{2000}' <= c <= '\U{200A}')
  }

  /** `s` without its leading and trailing white space. */
  function Trim(s: string): (r: string)
    ensures |r| <= |s|
    ensures |r| > 0 ==> !IsJsSpace(r[0]) && !IsJsSpace(r[|r| - 1])
    ensures (|s| == 0 || (!IsJsSpace(s[0]) && !IsJsSpace(s[|s| - 1]))) ==> r == s
    decreases |s|
  {
    if |s| == 0 then s
    else if IsJsSpace(s[0]) then Trim(s[1..])
    else if IsJsSpace(s[|s| - 1]) then Trim(s[..|s| - 1])
    else s
  }

  predicate IsDigit(c: char) {
    '0' <= c <= '9'
  }

  predicate AllDigits(s: string) {
    forall i :: 0 <= i < |s| ==> IsDigit(s[i])
  }

  /** The value of a string of decimal digits. */
  function DigitsValue(s: string): nat
    requires AllDigits(s)
    decreases |s|
  {
    if |s| == 0 then 0 else DigitsValue(s[..|s| - 1]) * 10 + (s[|s| - 1] as int - '0' as int)
  }

  function Pow10(n: nat): (r: nat)
    ensures r > 0
  {
    if n == 0 then 1 else 10 * Pow10(n - 1)
  }

  /** The position of the first character of `s` in `chars`, or `|s|`. */
  function FirstOf(s: string, chars: set<char>): (r: nat)
    ensures r <= |s|
    ensures r < |s| ==> s[r] in chars
    ensures forall i :: 0 <= i < r ==> s[i] !in chars
    decreases |s|
  {
    if |s| == 0 || s[0] in chars then 0 else 1 + FirstOf(s[1..], chars)
  }

  /** A decimal mantissa: digits with an optional fraction, at least one
      digit in all. */
  function Mantissa(s: string): (r: Option<real>)
    ensures r.Some? ==> r.value >= 0.0
  {
    var dot := FirstOf(s, {'.'});
    var whole := s[..dot];
    var fraction := if dot < |s| then s[dot + 1..] else "";
    if !AllDigits(whole) || !AllDigits(fraction) || |whole| + |fraction| == 0 then None
    else Some(DigitsValue(whole) as real + FractionValue(fraction))
  }

  /** The value of the digits after the decimal point. */
  function FractionValue(f: string): (r: real)
    requires AllDigits(f)
    ensures r >= 0.0
  {
    (DigitsValue(f) as real) / (Pow10(|f|) as real)
  }

  /** A mantissa multiplied, or divided when the exponent is negative, by a
      power of ten. */
  function Scaled(m: real, negative: bool, power: nat): (r: real)
    requires m >= 0.0 && power > 0
    ensures r >= 0.0
  {
    if negative then m / power as real else m * power as real
  }

  /** The exponent after `e`: an optional sign and at least one digit. The
      result is the power of ten to multiply by and whether to divide instead. */
  function Exponent(s: string): (r: Option<(bool, nat)>)
    ensures r.Some? ==> r.value.1 > 0
  {
    var negative := |s| > 0 && s[0] == '-';
    var digits := if |s| > 0 && s[0] in {'+', '-'} then s[1..] else s;
    if |digits| == 0 || !AllDigits(digits) then None
    else Some((negative, Pow10(DigitsValue(digits))))
  }

  /** An unsigned decimal numeral: a mantissa with an optional exponent;
      `None` for anything else (`NaN`). */
  function UnsignedDecimal(s: string): (r: Option<real>)
    ensures r.Some? ==> r.value >= 0.0
  {
    var e := FirstOf(s, {'e', 'E'});
    var m := Mantissa(s[..e]);
    if m.None? then None
    else if e == |s| then m
    else
      var x := Exponent(s[e + 1..]);
      if x.None? then None
      else
        Some(Scaled(m.value, x.value.0, x.value.1))
  }

  /** A plain run of digits is its own value. */
  lemma {:induction false} DigitsDecimal(s: string)
    requires |s| > 0 && AllDigits(s)
    ensures UnsignedDecimal(s) == Some(DigitsValue(s) as real)
  {
    assert FirstOf(s, {'e', 'E'}) == |s|;
    assert s[..|s|] == s;
    assert FirstOf(s, {'.'}) == |s|;
    assert AllDigits("");
  }

  /** `Number(s)` for a string: white space trimmed, empty is 0, an optional
      sign before a decimal numeral, `None` (`NaN`) otherwise. */
  function StringToNumber(s: string): (r: Option<real>)
    ensures Trim(s) == "" ==> r == Some(0.0)
    ensures r.Some? && |Trim(s)| > 0 && Trim(s)[0] != '-' ==> r.value >= 0.0
  {
    var t := Trim(s);
    if |t| == 0 then Some(0.0)
    else if t[0] == '-' then
      var u := UnsignedDecimal(t[1..]);
      if u.Some? then Some(-u.value) else None
    else if t[0] == '+' then UnsignedDecimal(t[1..])
    else UnsignedDecimal(t)
  }

  /** `Number(v)`, with `None` for `NaN`. An array converts through its
      text, the comma-joined text of its elements: `[]` and `[null]` read
      as "" (0), `[x]` as the text of `x`, and two or more elements as a
      text with a comma, which is never a numeral. An object's text is
      "[object Object]". */
  function ToNumber(v: Value): Option<real> {
    match v
    case Undefined => None
    case Null => Some(0.0)
    case Bool(b) => Some(if b then 1.0 else 0.0)
    case Num(n) => Some(n)
    case Str(s) => StringToNumber(s)
    case Arr(items) =>
      if |items| == 0 then Some(0.0)
      else if |items| > 1 then None
      else if Nullish(items[0]) then Some(0.0)
      else if items[0].Bool? then None
      else ToNumber(items[0])
    case Obj(_) => None
  }

  /** `String(n)` for a natural number: its decimal digits, without leading zeros. */
  function NatText(n: nat): (r: string)
    ensures |r| > 0 && AllDigits(r) && DigitsValue(r) == n
    ensures r[0] == '0' ==> n == 0
  {
    if n < 10 then ['0' + n as char]
    else
      var init := NatText(n / 10);
      var r := init + ['0' + (n % 10) as char];
      assert r[..|r| - 1] == init;
      r
  }

  /** A natural number, its text and a one-element array of either all
      convert to the same number. */
  lemma {:induction false} NumeralToNumber(n: nat)
    ensures StringToNumber(NatText(n)) == Some(n as real)
    ensures ToNumber(Str(NatText(n))) == ToNumber(Num(n as real))
    ensures ToNumber(Arr([Str(NatText(n))])) == Some(n as real)
    ensures ToNumber(Arr([Num(n as real)])) == Some(n as real)
  {
    var t := NatText(n);
    assert IsDigit(t[0]) && IsDigit(t[|t| - 1]);
    assert Trim(t) == t;
    DigitsDecimal(t);
  }

  /** A negative numeral surrounded by white space converts to its value. */
  lemma {:induction false} NegativeNumeralToNumber(n: nat)
    ensures StringToNumber(" -" + NatText(n) + "\n") == Some(-(n as real))
  {
    var t := NatText(n);
    DigitNotSpace(t[|t| - 1]);
    TrimSign(t, " -" + t + "\n");
    DigitsDecimal(t);
    NegatedText(" -" + t + "\n", t, n as real);
  }

  /** Digits are not white space. */
  lemma DigitNotSpace(c: char)
    requires IsDigit(c)
    ensures !IsJsSpace(c)
  {
  }

  /** Text that trims to `-t` is the negated value of `t`. */
  lemma NegatedText(s: string, t: string, x: real)
    requires Trim(s) == "-" + t && UnsignedDecimal(t) == Some(x)
    ensures StringToNumber(s) == Some(-x)
  {
    assert ("-" + t)[1..] == t;
  }

  /** A sign between a leading space and a trailing newline is kept. */
  lemma TrimSign(t: string, padded: string)
    requires |t| > 0 && !IsJsSpace(t[|t| - 1])
    requires padded == " -" + t + "\n"
    ensures Trim(padded) == "-" + t
  {
    var signed := "-" + t;
    assert signed[|signed| - 1] == t[|t| - 1];
    assert padded == " " + signed + "\n";
    TrimSpaces(signed);
  }

  /** A leading space and a trailing newline are trimmed away. */
  lemma TrimSpaces(s: string)
    requires |s| > 0 && !IsJsSpace(s[0]) && !IsJsSpace(s[|s| - 1])
    ensures Trim(" " + s + "\n") == s
  {
    var padded := " " + s + "\n";
    assert padded[1..] == s + "\n";
    assert (s + "\n")[..|s|] == s;
  }

  /** A numeral with a plus sign converts to its value. */
  lemma {:induction false} PlusNumeralToNumber(n: nat)
    ensures StringToNumber("+" + NatText(n)) == Some(n as real)
  {
    var t := NatText(n);
    assert IsDigit(t[|t| - 1]);
    DigitsDecimal(t);
    var signed := "+" + t;
    assert signed[|signed| - 1] == t[|t| - 1] && signed[1..] == t;
    assert Trim(signed) == signed;
  }

  /** `FirstOf` is the first position holding one of the characters. */
  lemma FirstOfAt(s: string, chars: set<char>, k: nat)
    requires k <= |s|
    requires k < |s| ==> s[k] in chars
    requires forall i :: 0 <= i < k ==> s[i] !in chars
    ensures FirstOf(s, chars) == k
  {
  }

  /** A run of digits is a mantissa with no fraction. */
  lemma MantissaDigits(s: string)
    requires |s| > 0 && AllDigits(s)
    ensures Mantissa(s) == Some(DigitsValue(s) as real)
  {
    var dot := FirstOf(s, {'.'});
    assert dot == |s|;
    assert s[..dot] == s;
    assert AllDigits("");
    assert FractionValue("") == 0.0;
  }

  /** The mantissa `w.f`. */
  lemma MantissaFraction(w: string, f: string)
    requires AllDigits(w) && AllDigits(f) && |f| > 0
    ensures Mantissa(w + "." + f) == Some(DigitsValue(w) as real + FractionValue(f))
  {
    var t := w + "." + f;
    forall i | 0 <= i < |w|
      ensures t[i] !in {'.'}
    {
      assert t[i] == w[i] && IsDigit(w[i]);
    }
    assert t[|w|] == '.';
    FirstOfAt(t, {'.'}, |w|);
    assert t[..|w|] == w;
    assert t[|w| + 1..] == f;
    MantissaAt(t, w, f);
  }

  /** A text whose first `.` follows the digits `w` and precedes the digits `f`. */
  lemma MantissaAt(t: string, w: string, f: string)
    requires AllDigits(w) && AllDigits(f) && |f| > 0
    requires FirstOf(t, {'.'}) == |w| < |t|
    requires t[..|w|] == w && t[|w| + 1..] == f
    ensures Mantissa(t) == Some(DigitsValue(w) as real + FractionValue(f))
  {
  }

  /** `Number(w + "." + f)`: the whole part plus the fraction scaled down
      by its length. */
  lemma DecimalText(w: string, f: string)
    requires AllDigits(w) && AllDigits(f) && |f| > 0
    ensures StringToNumber(w + "." + f) == Some(DigitsValue(w) as real + FractionValue(f))
  {
    var t := w + "." + f;
    assert t[|t| - 1] == f[|f| - 1];
    assert IsDigit(t[|t| - 1]);
    assert t[0] == '.' || IsDigit(t[0]);
    assert Trim(t) == t;
    forall i | 0 <= i < |t|
      ensures t[i] !in {'e', 'E'}
    {
      assert i < |w| ==> t[i] == w[i];
      assert i > |w| ==> t[i] == f[i - |w| - 1];
    }
    FirstOfAt(t, {'e', 'E'}, |t|);
    MantissaFraction(w, f);
    UnsignedWithoutExponent(t);
  }

  /** Text with no `e` or `E` is a bare mantissa. */
  lemma UnsignedWithoutExponent(t: string)
    requires FirstOf(t, {'e', 'E'}) == |t|
    requires Trim(t) == t && |t| > 0 && t[0] != '-' && t[0] != '+'
    ensures StringToNumber(t) == Mantissa(t)
  {
    assert t[..|t|] == t;
  }

  /** A numeral with an exponent splits at its `e` into the digits before
      and the signed exponent after. */
  lemma {:induction false} UnsignedExponent(m: string, exponent: string, k: string, negative: bool)
    requires |m| > 0 && AllDigits(m) && |k| > 0 && AllDigits(k)
    requires exponent == (if negative then "-" else "") + k
    ensures UnsignedDecimal(m + "e" + exponent)
         == Some(Scaled(DigitsValue(m) as real, negative, Pow10(DigitsValue(k))))
  {
    var t := m + "e" + exponent;
    forall i | 0 <= i < |m|
      ensures t[i] !in {'e', 'E'}
    {
      assert t[i] == m[i] && IsDigit(m[i]);
    }
    assert t[|m|] == 'e';
    FirstOfAt(t, {'e', 'E'}, |m|);
    assert t[..|m|] == m;
    assert t[|m| + 1..] == exponent;
    MantissaDigits(m);
    SignedExponent(k, negative);
    UnsignedAt(t, m, exponent);
  }

  /** The exponent text `k` or `-k`. */
  lemma SignedExponent(k: string, negative: bool)
    requires |k| > 0 && AllDigits(k)
    ensures Exponent((if negative then "-" else "") + k) == Some((negative, Pow10(DigitsValue(k))))
  {
    var exponent := (if negative then "-" else "") + k;
    if negative {
      assert exponent[0] == '-' && exponent[1..] == k;
    } else {
      assert exponent == k && IsDigit(k[0]);
    }
  }

  /** A text whose first `e` follows a mantissa and precedes an exponent. */
  lemma UnsignedAt(t: string, m: string, exponent: string)
    requires FirstOf(t, {'e', 'E'}) == |m| < |t|
    requires t[..|m|] == m && t[|m| + 1..] == exponent
    requires Mantissa(m).Some? && Exponent(exponent).Some?
    ensures UnsignedDecimal(t)
         == Some(Scaled(Mantissa(m).value, Exponent(exponent).value.0, Exponent(exponent).value.1))
  {
  }

  /** `Number(m + "e" + k)` and `Number(m + "e-" + k)`: the digits scaled by
      a power of ten. */
  lemma {:induction false} ExponentText(m: string, k: string, negative: bool)
    requires |m| > 0 && AllDigits(m) && |k| > 0 && AllDigits(k)
    ensures StringToNumber(m + (if negative then "e-" else "e") + k)
         == Some(Scaled(DigitsValue(m) as real, negative, Pow10(DigitsValue(k))))
  {
    var exponent := (if negative then "-" else "") + k;
    var t := m + "e" + exponent;
    assert t == m + (if negative then "e-" else "e") + k;
    assert t[0] == m[0] && IsDigit(t[0]);
    assert t[|t| - 1] == k[|k| - 1] && IsDigit(t[|t| - 1]);
    assert Trim(t) == t;
    UnsignedExponent(m, exponent, k, negative);
  }

  /** A character outside digits, `.`, `e`, `E` and the signs makes the
      text `NaN`. */
  predicate Foreign(c: char) {
    !IsDigit(c) && c !in {'.', 'e', 'E', '+', '-'}
  }

  lemma UnsignedDecimalRejects(u: string, j: nat)
    requires j < |u| && Foreign(u[j])
    ensures UnsignedDecimal(u) == None
  {
    var e := FirstOf(u, {'e', 'E'});
    var mantissa := u[..e];
    if j < e {
      assert mantissa[j] == u[j];
      var dot := FirstOf(mantissa, {'.'});
      if j < dot {
        assert mantissa[..dot][j] == u[j];
      } else {
        assert j != dot;
        assert mantissa[dot + 1..][j - dot - 1] == u[j];
      }
    } else if Mantissa(mantissa).Some? {
      assert j != e;
      var exponent := u[e + 1..];
      assert exponent[j - e - 1] == u[j];
      if exponent[0] in {'+', '-'} {
        assert j - e - 1 >= 1;
        assert exponent[1..][j - e - 2] == u[j];
      }
    }
  }

  /** Text holding a foreign character after trimming is `NaN`. */
  lemma {:induction false} ForeignTextIsNaN(s: string, i: nat)
    requires i < |Trim(s)| && Foreign(Trim(s)[i])
    ensures StringToNumber(s) == None
  {
    var t := Trim(s);
    if t[0] == '-' || t[0] == '+' {
      assert i >= 1;
      assert t[1..][i - 1] == t[i];
      UnsignedDecimalRejects(t[1..], i - 1);
    } else {
      UnsignedDecimalRejects(t, i);
    }
  }

  /** A fraction with a whole part. */
  lemma FractionExample()
    ensures StringToNumber("4.5") == Some(4.5)
  {
    HalfFraction();
    assert DigitsValue("4") == 4;
    assert DigitsValue("4") as real + FractionValue("5") == 4.5;
    DecimalText("4", "5");
    assert "4" + "." + "5" == "4.5";
  }

  lemma HalfFraction()
    ensures FractionValue("5") == 0.5
  {
    assert DigitsValue("5") == 5 && Pow10(1) == 10;
  }

  /** A fraction without a whole part. */
  lemma LeadingPointExample()
    ensures StringToNumber(".5") == Some(0.5)
  {
    HalfFraction();
    assert DigitsValue("") == 0;
    DecimalText("", "5");
    assert "" + "." + "5" == ".5";
  }

  /** Exponents of either sign. */
  lemma ExponentExamples()
    ensures StringToNumber("1e2") == Some(100.0)
    ensures StringToNumber("5e-1") == Some(0.5)
  {
    HundredExample();
    HalfExponentExample();
  }

  /** A positive exponent multiplies by a power of ten. */
  lemma HundredExample()
    ensures StringToNumber("1e2") == Some(100.0)
  {
    assert DigitsValue("1") == 1 && DigitsValue("2") == 2;
    assert Scaled(1.0, false, Pow10(2)) == 100.0;
    ExponentText("1", "2", false);
    assert "1" + "e" + "2" == "1e2";
  }

  /** A negative exponent divides by a power of ten. */
  lemma HalfExponentExample()
    ensures StringToNumber("5e-1") == Some(0.5)
  {
    assert DigitsValue("5") == 5 && DigitsValue("1") == 1;
    assert Scaled(5.0, true, Pow10(1)) == 0.5;
    ExponentText("5", "1", true);
    assert "5" + "e-" + "1" == "5e-1";
  }

  /** Text that is not a numeral is `NaN`; empty text and `[]` are 0. */
  lemma NotNumeralExamples()
    ensures StringToNumber("") == Some(0.0)
    ensures StringToNumber("12px") == None
    ensures ToNumber(Arr([Num(1.0), Num(2.0)])) == None
    ensures ToNumber(Arr([])) == Some(0.0)
  {
    assert Trim("12px") == "12px";
    ForeignTextIsNaN("12px", 2);
  }

  // ---------------------------------------------------------------------
  // Number.parseInt
  // ---------------------------------------------------------------------

  /** The number of leading white space characters of `s`. */
  function SpaceCount(s: string): (r: nat)
    ensures r <= |s|
    ensures forall i :: 0 <= i < r ==> IsJsSpace(s[i])
    ensures r < |s| ==> !IsJsSpace(s[r])
    decreases |s|
  {
    if |s| == 0 || !IsJsSpace(s[0]) then 0 else 1 + SpaceCount(s[1..])
  }

  /** The number of leading decimal digits of `s`. */
  function DigitCount(s: string): (r: nat)
    ensures r <= |s|
    ensures forall i :: 0 <= i < r ==> IsDigit(s[i])
    ensures r < |s| ==> !IsDigit(s[r])
    decreases |s|
  {
    if |s| == 0 || !IsDigit(s[0]) then 0 else 1 + DigitCount(s[1..])
  }

  /** The value of the leading digits of `u`, `None` when it has none. */
  function DigitsPrefix(u: string): (r: Option<nat>)
    ensures r.Some? <==> |u| > 0 && IsDigit(u[0])
  {
    var n := DigitCount(u);
    if n == 0 then None else Some(DigitsValue(u[..n]))
  }

  /** An optional sign followed by leading digits. */
  function SignedDigits(t: string): (r: Option<int>)
    ensures r.Some? ==> exists k :: 0 <= k < |t| && IsDigit(t[k])
  {
    if |t| > 0 && t[0] in {'+', '-'} then
      var d := DigitsPrefix(t[1..]);
      if d.None? then None
      else
        assert IsDigit(t[1]) by { assert t[1..][0] == t[1]; }
        Some(if t[0] == '-' then -(d.value as int) else d.value)
    else
      var d := DigitsPrefix(t);
      if d.None? then None else Some(d.value)
  }

  /** `Number.parseInt(s)` for a text, in base 10: leading white space is
      skipped, an optional sign is read, then the longest run of decimal
      digits; `None` (`NaN`) when that run is empty. Whatever follows the
      digits is ignored. */
  function ParseIntText(s: string): (r: Option<int>)
    ensures r.Some? ==> exists k :: 0 <= k < |s| && IsDigit(s[k])
  {
    var t := s[SpaceCount(s)..];
    var r := SignedDigits(t);
    if r.Some? then
      var k :| 0 <= k < |t| && IsDigit(t[k]);
      assert s[SpaceCount(s) + k] == t[k];
      r
    else r
  }

  /** `Number.parseInt(v)`: a number is cut to its integer part, towards
      zero; anything else is read through its text. `None` is `NaN`, also
      for a value whose text the model does not produce. */
  function ParseInt(v: Value): (r: Option<int>)
    ensures v.Num? ==> r.Some? && r.value as real <= if v.n >= 0.0 then v.n else -v.n
    ensures v.Num? && v.n.Floor as real == v.n ==> r == Some(v.n.Floor)
    ensures v.Str? ==> r == ParseIntText(v.s)
  {
    match v
    case Num(n) => Some(if n >= 0.0 then n.Floor else -((-n).Floor))
    case _ =>
      var t := ToText(v);
      if t.None? then None else ParseIntText(t.value)
  }

  /** A numeral followed by anything that is not a digit, after white
      space and an optional sign, reads as its number. */
  lemma ParseIntNumeral(space: string, sign: string, n: nat, rest: string)
    requires forall i :: 0 <= i < |space| ==> IsJsSpace(space[i])
    requires sign in {"", "+", "-"}
    requires |rest| == 0 || !IsDigit(rest[0])
    ensures ParseIntText(space + sign + NatText(n) + rest) == Some(if sign == "-" then -(n as int) else n)
  {
    var digits := NatText(n);
    DigitsPrefixNumeral(digits, rest);
    Regroup(space + sign, digits, rest);
    ParseIntSigned(space, sign, digits + rest, n);
  }

  lemma Regroup(a: string, b: string, c: string)
    ensures a + b + c == a + (b + c)
  {
  }

  /** The same for any text with leading digits after the sign. */
  lemma ParseIntSigned(space: string, sign: string, u: string, n: nat)
    requires forall i :: 0 <= i < |space| ==> IsJsSpace(space[i])
    requires sign in {"", "+", "-"}
    requires DigitsPrefix(u) == Some(n)
    ensures ParseIntText(space + sign + u) == Some(if sign == "-" then -(n as int) else n)
  {
    SignedNotSpace(sign, u);
    assert space + sign + u == space + (sign + u);
    TextAfterSpace(space, sign + u);
    SignedNumeral(sign, u, n);
  }

  /** A text with leading digits, after an optional sign, does not start
      with white space. */
  lemma SignedNotSpace(sign: string, u: string)
    requires sign in {"", "+", "-"}
    requires DigitsPrefix(u).Some?
    ensures |sign + u| > 0 && !IsJsSpace((sign + u)[0])
  {
    if sign == "" {
      assert (sign + u)[0] == u[0];
    } else {
      assert (sign + u)[0] == sign[0];
    }
  }

  /** Leading white space does not change what `parseInt` reads. */
  lemma TextAfterSpace(space: string, t: string)
    requires forall i :: 0 <= i < |space| ==> IsJsSpace(space[i])
    requires |t| > 0 && !IsJsSpace(t[0])
    ensures ParseIntText(space + t) == SignedDigits(t)
  {
    LeadingSpaceRun(space, t);
  }

  /** The signed leading digits after an optional sign. */
  lemma SignedNumeral(sign: string, u: string, n: nat)
    requires sign in {"", "+", "-"}
    requires DigitsPrefix(u) == Some(n)
    ensures SignedDigits(sign + u) == Some(if sign == "-" then -(n as int) else n)
  {
    if sign == "" {
      assert sign + u == u;
      UnsignedDigits(u);
    } else if sign == "+" {
      assert sign + u == ['+'] + u;
      SignThenDigits('+', u);
    } else {
      assert sign + u == ['-'] + u;
      SignThenDigits('-', u);
    }
  }

  lemma DigitNotSign(c: char)
    requires IsDigit(c)
    ensures c !in {'+', '-'}
  {
  }

  /** Without a sign, the leading digits are read as they are. */
  lemma UnsignedDigits(u: string)
    requires DigitsPrefix(u).Some?
    ensures SignedDigits(u) == Some(DigitsPrefix(u).value)
  {
    DigitNotSign(u[0]);
  }

  /** A sign before the leading digits negates them or keeps them. */
  lemma SignThenDigits(c: char, u: string)
    requires c in {'+', '-'}
    requires DigitsPrefix(u).Some?
    ensures SignedDigits([c] + u) ==
      Some(if c == '-' then -(DigitsPrefix(u).value as int) else DigitsPrefix(u).value)
  {
    assert ([c] + u)[1..] == u;
  }

  /** The leading digits of digits followed by a non-digit are those digits. */
  lemma DigitsPrefixNumeral(digits: string, rest: string)
    requires |digits| > 0 && AllDigits(digits)
    requires |rest| == 0 || !IsDigit(rest[0])
    ensures DigitsPrefix(digits + rest) == Some(DigitsValue(digits))
  {
    DigitRun(digits, rest);
    assert (digits + rest)[..|digits|] == digits;
  }

  /** The white space before a text that does not start with white space is
      exactly the run skipped. */
  lemma {:induction false} LeadingSpaceRun(space: string, t: string)
    requires forall i :: 0 <= i < |space| ==> IsJsSpace(space[i])
    requires |t| > 0 && !IsJsSpace(t[0])
    ensures SpaceCount(space + t) == |space|
    ensures (space + t)[|space|..] == t
    decreases |space|
  {
    if |space| > 0 {
      assert (space + t)[1..] == space[1..] + t;
      LeadingSpaceRun(space[1..], t);
    }
  }

  /** Digits followed by a non-digit: the run of digits is exactly them. */
  lemma {:induction false} DigitRun(digits: string, rest: string)
    requires AllDigits(digits)
    requires |rest| == 0 || !IsDigit(rest[0])
    ensures DigitCount(digits + rest) == |digits|
    decreases |digits|
  {
    if |digits| > 0 {
      assert (digits + rest)[1..] == digits[1..] + rest;
      DigitRun(digits[1..], rest);
    }
  }

  /** Text with no digit at all is `NaN`; a number keeps its integer part. */
  lemma ParseIntExamples()
    ensures ParseInt(Str("abc")) == None
    ensures ParseInt(Num(25.5)) == Some(25)
    ensures ParseInt(Num(-2.5)) == Some(-2)
    ensures ParseInt(Bool(true)) == None
  {
    NoDigitText("abc");
    NoDigitText("true");
    assert ParseInt(Bool(true)) == ParseIntText("true");
  }

  /** A text whose first character is a letter has no leading number. */
  lemma NoDigitText(s: string)
    requires |s| > 0 && 'a' <= s[0] <= 'z'
    ensures ParseIntText(s) == None
  {
    assert SpaceCount(s) == 0;
    assert s[0..] == s;
  }
}

=== FILE: locales.dfy ===
/** The locale lookup of `src/routes/i18n.js`: the first cached locale
    entry whose `name` is the requested one, falling back to the entry named
    "default". A missing query parameter is `None`. */
module Locales {
  import opened JsValues

  /** `d.name == locale`. An absent `locale` is `undefined`, which is
      loosely equal to a missing (`undefined` or `null`) name. */
  function NameIs(locale: Option<string>): Value -> Eval<bool> {
    (d: Value) =>
      if Nullish(d) then Throws
      else if locale.None? then Ok(Nullish(Get(d, "name")))
      else Ok(LooseEquals(Get(d, "name"), locale.value))
  }

  /** `find(i18n, d => d.name == locale)`, with `undefined` for no entry. */
  function FindLocale(i18n: seq<Value>, locale: Option<string>): (r: Eval<Value>)
    ensures r.Ok? <==> Find(i18n, NameIs(locale)).Ok?
    ensures r.Ok? && Find(i18n, NameIs(locale)).value.None? ==> r.value == Undefined
    ensures r.Ok? && Find(i18n, NameIs(locale)).value.Some? ==> r.value == i18n[Find(i18n, NameIs(locale)).value.value]
  {
    var found :- Find(i18n, NameIs(locale));
    match found
    case None => Ok(Undefined)
    case Some(i) => Ok(i18n[i])
  }

  const DefaultLocale := "default"

  /** `getLocale`: the requested entry, or else the "default" entry, or
      `undefined` when neither exists. */
  function GetLocale(i18n: seq<Value>, locale: Option<string>): (r: Eval<Value>)
    ensures r.Ok? ==> FindLocale(i18n, locale).Ok?
    ensures r.Ok? && Truthy(FindLocale(i18n, locale).value) ==> r.value == FindLocale(i18n, locale).value
    ensures r.Ok? && !Truthy(FindLocale(i18n, locale).value) ==> r == FindLocale(i18n, Some(DefaultLocale))
    ensures r.Ok? <==> (FindLocale(i18n, locale).Ok? &&
      (Truthy(FindLocale(i18n, locale).value) || FindLocale(i18n, Some(DefaultLocale)).Ok?))
  {
    var requested :- FindLocale(i18n, locale);
    if Truthy(requested) then Ok(requested) else FindLocale(i18n, Some(DefaultLocale))
  }

  /** The `locale` query parameter as a value. */
  function LocaleValue(locale: Option<string>): Value {
    if locale.Some? then Str(locale.value) else Undefined
  }

  /** The reply of `getLocaleMd5`: the locale that was served and its `md5`. */
  datatype Md5Reply = Md5Reply(locale: Value, md5: Value)

  /** `getLocaleMd5`: the requested locale when it is found, else "default";
      reading `md5` of a missing entry throws. */
  function GetLocaleMd5(i18n: seq<Value>, locale: Option<string>): (r: Eval<Md5Reply>)
    ensures r.Ok? ==> FindLocale(i18n, locale).Ok?
    ensures r.Ok? ==> r.value.locale == Str(DefaultLocale) || r.value.locale == LocaleValue(locale)
    ensures r.Ok? && Truthy(FindLocale(i18n, locale).value) ==>
      r.value == Md5Reply(LocaleValue(locale), Get(FindLocale(i18n, locale).value, "md5"))
    ensures r.Ok? && !Truthy(FindLocale(i18n, locale).value) ==>
      && FindLocale(i18n, Some(DefaultLocale)).Ok?
      && r.value == Md5Reply(Str(DefaultLocale), Get(FindLocale(i18n, Some(DefaultLocale)).value, "md5"))
    ensures (FindLocale(i18n, locale).Ok? && !Truthy(FindLocale(i18n, locale).value) &&
      FindLocale(i18n, Some(DefaultLocale)) == Ok(Undefined)) ==> r.Throws?
    ensures r.Ok? <==>
      && FindLocale(i18n, locale).Ok?
      && (|| Truthy(FindLocale(i18n, locale).value)
          || (FindLocale(i18n, Some(DefaultLocale)).Ok? && !Nullish(FindLocale(i18n, Some(DefaultLocale)).value)))
  {
    var requested :- FindLocale(i18n, locale);
    if Truthy(requested) then
      var md5 := Get(requested, "md5");
      Ok(Md5Reply(LocaleValue(locale), md5))
    else
      var fallback :- FindLocale(i18n, Some(DefaultLocale));
      if Nullish(fallback) then Throws
      else Ok(Md5Reply(Str(DefaultLocale), Get(fallback, "md5")))
  }

  /** An entry of the locale cache: an object with a name and an md5. */
  function Entry(name: string, md5: string): Value {
    Obj(map["name" := Str(name), "md5" := Str(md5)])
  }

  function Entries(names: seq<string>, md5s: seq<string>): (r: seq<Value>)
    requires |names| == |md5s|
    ensures |r| == |names|
    ensures forall i :: 0 <= i < |names| ==> r[i] == Entry(names[i], md5s[i])
  {
    seq(|names|, i requires 0 <= i < |names| => Entry(names[i], md5s[i]))
  }

  /** On a cache of named entries: a locale that is present is served from
      its first entry, and its md5 is that entry's. */
  lemma {:induction false} FoundLocale(names: seq<string>, md5s: seq<string>, locale: string, i: nat)
    requires |names| == |md5s| && i < |names|
    requires names[i] == locale && forall j :: 0 <= j < i ==> names[j] != locale
    ensures GetLocale(Entries(names, md5s), Some(locale)) == Ok(Entry(locale, md5s[i]))
    ensures GetLocaleMd5(Entries(names, md5s), Some(locale)) == Ok(Md5Reply(Str(locale), Str(md5s[i])))
  {
    FirstNamed(names, md5s, locale, i);
  }

  /** Lookup by name on a cache of named entries finds the first entry so named. */
  lemma {:induction false} FirstNamed(names: seq<string>, md5s: seq<string>, locale: string, i: nat)
    requires |names| == |md5s| && i < |names|
    requires names[i] == locale && forall j :: 0 <= j < i ==> names[j] != locale
    ensures FindLocale(Entries(names, md5s), Some(locale)) == Ok(Entry(locale, md5s[i]))
  {
    var i18n := Entries(names, md5s);
    var test := NameIs(Some(locale));
    assert test(i18n[i]) == Ok(true);
    forall j | 0 <= j < i
      ensures test(i18n[j]) == Ok(false)
    {
      assert Get(i18n[j], "name") == Str(names[j]);
    }
    FindFirstMatch(i18n, test, i);
  }

  /** On a cache of named entries: a locale that is absent is served from
      the first "default" entry, and reported as "default". */
  lemma {:induction false} FallbackLocale(names: seq<string>, md5s: seq<string>, locale: string, i: nat)
    requires |names| == |md5s| && i < |names|
    requires locale !in names
    requires names[i] == DefaultLocale && forall j :: 0 <= j < i ==> names[j] != DefaultLocale
    ensures GetLocale(Entries(names, md5s), Some(locale)) == Ok(Entry(DefaultLocale, md5s[i]))
    ensures GetLocaleMd5(Entries(names, md5s), Some(locale)) == Ok(Md5Reply(Str(DefaultLocale), Str(md5s[i])))
  {
    var i18n := Entries(names, md5s);
    forall j | 0 <= j < |i18n|
      ensures NameIs(Some(locale))(i18n[j]) == Ok(false)
    {
      assert Get(i18n[j], "name") == Str(names[j]);
    }
    assert FindLocale(i18n, Some(locale)) == Ok(Undefined);
    FoundLocale(names, md5s, DefaultLocale, i);
  }

  /** Without a "default" entry, an unknown locale gets no md5: the handler
      throws and sends its error reply. */
  lemma {:induction false} NoDefault(names: seq<string>, md5s: seq<string>, locale: string)
    requires |names| == |md5s|
    requires locale !in names && DefaultLocale !in names
    ensures GetLocale(Entries(names, md5s), Some(locale)) == Ok(Undefined)
    ensures GetLocaleMd5(Entries(names, md5s), Some(locale)).Throws?
  {
    var i18n := Entries(names, md5s);
    forall j | 0 <= j < |i18n|
      ensures NameIs(Some(locale))(i18n[j]) == Ok(false) && NameIs(Some(DefaultLocale))(i18n[j]) == Ok(false)
    {
      assert Get(i18n[j], "name") == Str(names[j]);
    }
  }
}

=== FILE: review_updates.dfy ===
/** Review-state updates of `src/routes/clinic-data-management.js`: the
    shared aggregation prefix, the `getExams` pipeline with its `limit`,
    and the `$set` commands that move a selection of examinations to a new
    review status, in the long-term store (grouped by schema) and in the
    clinic store. The bulk writes and the time are left to the caller. */
module ReviewUpdates {
  import opened JsValues
  import opened UpsertStore

  // ---------------------------------------------------------------------
  // buildBasicPipeline and the limit default
  // ---------------------------------------------------------------------

  /** The four fixed stages: forms under review, joined with their
      organization, whose alias becomes `org`, and `patientId` lifted out of
      the examination. */
  const BasicStages: seq<Value> := [
    Obj(map["$match" := Obj(map["adeStatus" := Obj(map["$exists" := Bool(true)])])]),
    Obj(map["$lookup" := Obj(map[
      "from" := Str("organizations"),
      "localField" := Str("siteId"),
      "foreignField" := Str("id"),
      "as" := Str("result")])]),
    Obj(map["$addFields" := Obj(map["org" := Obj(map["$arrayElemAt" := Arr([Str("$result"), Num(0.0)])])])]),
    Obj(map["$addFields" := Obj(map["org" := Str("$org.alias"), "patientId" := Str("$examination.patientId")])])
  ]

  /** `stages.concat(extra)`: an array's elements are appended one by one,
      any other value as a single element. */
  function Concat(stages: seq<Value>, extra: Value): seq<Value> {
    if extra.Arr? then stages + extra.items else stages + [extra]
  }

  /** `buildBasicPipeline`: the fixed stages followed by the caller's
      `matchExamination` stages (none when it is absent or falsy). Reading
      the option throws when `options` itself is missing. */
  function BuildBasicPipeline(options: Value): (r: Eval<seq<Value>>)
    ensures r.Ok? <==> !Nullish(options)
    ensures r.Ok? ==> |r.value| >= 4 && r.value[..4] == BasicStages
    ensures r.Ok? ==>
      var extra := Get(options, "matchExamination");
      && (!Truthy(extra) ==> r.value == BasicStages)
      && (extra.Arr? ==> r.value[4..] == extra.items)
      && (Truthy(extra) && !extra.Arr? ==> r.value[4..] == [extra])
  {
    var extra :- Prop(options, "matchExamination");
    Ok(Concat(BasicStages, Or(extra, Arr([]))))
  }

  /** Appending the caller's stages never changes the fixed prefix, and a
      pipeline built from stages S has exactly |S| stages after it. */
  lemma BasicPipelineExtends(stages: seq<Value>)
    ensures BuildBasicPipeline(Obj(map["matchExamination" := Arr(stages)])) == Ok(BasicStages + stages)
    ensures BuildBasicPipeline(Obj(map[])) == Ok(BasicStages)
  {
  }

  /** `options.limit || 100` in `getExams`. */
  function ExamsLimit(options: Value): (r: Eval<Value>)
    ensures r.Ok? <==> !Nullish(options)
    ensures r.Ok? ==> Truthy(r.value)
    ensures r.Ok? ==> (r.value == Num(100.0) <==> !Truthy(Get(options, "limit")) || Get(options, "limit") == Num(100.0))
    ensures r.Ok? && Truthy(Get(options, "limit")) ==> r.value == Get(options, "limit")
  {
    var limit :- Prop(options, "limit");
    Ok(Or(limit, Num(100.0)))
  }

  /** `$sort`: newest submission first, then by patient id, both descending. */
  const SortNewest: Value := Obj(map["$sort" := Obj(map["submitedAt" := Num(-1.0), "patientId" := Num(-1.0)])])

  /** The aggregation `getExams` runs: the basic pipeline and `SortNewest`
      in `stages`, then `$limit` with `Number.parseInt` of the limit
      (`None` for `NaN`), then `$project` dropping `_id`. */
  datatype ExamsQuery = ExamsQuery(stages: seq<Value>, limit: Option<int>)

  /** The pipeline of `getExams`. Both the limit default and the basic
      pipeline read `options`, so a missing `options` throws. */
  function GetExamsQuery(options: Value): (r: Eval<ExamsQuery>)
    ensures r.Ok? <==> !Nullish(options)
    ensures r.Ok? ==> BuildBasicPipeline(options).Ok? && r.value.stages == BuildBasicPipeline(options).value + [SortNewest]
    ensures r.Ok? && !Truthy(Get(options, "limit")) ==> r.value.limit == Some(100)
    ensures r.Ok? && Truthy(Get(options, "limit")) ==> r.value.limit == ParseInt(Get(options, "limit"))
  {
    var limit :- ExamsLimit(options);
    Ok(ExamsQuery(BuildBasicPipeline(options).value + [SortNewest], ParseInt(limit)))
  }

  /** A limit given as a numeral, possibly followed by a unit or other
      text that does not start with a digit, caps the list at that number. */
  lemma ExamsLimitStage(options: Value, n: nat, rest: string)
    requires !Nullish(options)
    requires Get(options, "limit") == Str(NatText(n) + rest)
    requires |rest| == 0 || !IsDigit(rest[0])
    ensures GetExamsQuery(options).Ok? && GetExamsQuery(options).value.limit == Some(n)
  {
    ParseIntNumeral("", "", n, rest);
    Regroup("", NatText(n), rest);
    assert "" + NatText(n) == NatText(n);
  }

  /** The number 0 is falsy and falls back to 100, while the text "0" is
      truthy and caps the list at none. */
  lemma ExamsLimitZero(zero: Value, zeroText: Value)
    requires !Nullish(zero) && Get(zero, "limit") == Num(0.0)
    requires !Nullish(zeroText) && Get(zeroText, "limit") == Str("0")
    ensures GetExamsQuery(zero).Ok? && GetExamsQuery(zero).value.limit == Some(100)
    ensures GetExamsQuery(zeroText).Ok? && GetExamsQuery(zeroText).value.limit == Some(0)
  {
    assert NatText(0) + "" == "0";
    ExamsLimitStage(zeroText, 0, "");
  }

  // ---------------------------------------------------------------------
  // Grouping a selection by schema
  // ---------------------------------------------------------------------

  /** `s.schema` of a selected item that is not missing. */
  function SchemaOf(item: Value): Value {
    Get(item, "schema")
  }

  function Schemas(selection: seq<Value>): (r: seq<Value>)
    ensures |r| == |selection|
    ensures forall i :: 0 <= i < |selection| ==> r[i] == SchemaOf(selection[i])
  {
    seq(|selection|, i requires 0 <= i < |selection| => SchemaOf(selection[i]))
  }

  predicate Distinct(xs: seq<Value>) {
    forall i, j :: 0 <= i < j < |xs| ==> xs[i] != xs[j]
  }

  /** The distinct values of `xs`, in order of first occurrence. */
  function FirstOccurrences(xs: seq<Value>): (r: seq<Value>)
    ensures Distinct(r)
    ensures forall x :: x in r <==> x in xs
    decreases |xs|
  {
    if |xs| == 0 then []
    else
      var init := FirstOccurrences(xs[..|xs| - 1]);
      assert forall x :: x in xs <==> x in xs[..|xs| - 1] || x == xs[|xs| - 1];
      if xs[|xs| - 1] in init then init else init + [xs[|xs| - 1]]
  }

  /** The selected items of one schema, in selection order (`groupBy`'s group). */
  function Group(selection: seq<Value>, schema: Value): (r: seq<Value>)
    ensures |r| <= |selection|
    ensures forall x :: x in r <==> x in selection && SchemaOf(x) == schema
    decreases |selection|
  {
    if |selection| == 0 then []
    else
      var rest := Group(selection[1..], schema);
      assert forall x :: x in selection <==> x == selection[0] || x in selection[1..];
      if SchemaOf(selection[0]) == schema then [selection[0]] + rest else rest
  }

  /** The number of items the groups of `schemas` hold together. */
  function GroupSizes(selection: seq<Value>, schemas: seq<Value>): nat
    decreases |schemas|
  {
    if |schemas| == 0 then 0 else |Group(selection, schemas[0])| + GroupSizes(selection, schemas[1..])
  }

  /** How often `x` occurs in `xs`. */
  function Occurrences(xs: seq<Value>, x: Value): nat
    decreases |xs|
  {
    if |xs| == 0 then 0 else (if xs[0] == x then 1 else 0) + Occurrences(xs[1..], x)
  }

  lemma {:induction false} OccursOnce(xs: seq<Value>, x: Value)
    requires Distinct(xs)
    ensures Occurrences(xs, x) == if x in xs then 1 else 0
    decreases |xs|
  {
    if |xs| > 0 {
      OccursOnce(xs[1..], x);
      if xs[0] == x {
        assert x !in xs[1..];
      }
    }
  }

  lemma {:induction false} GroupSizesCons(item: Value, rest: seq<Value>, schemas: seq<Value>)
    ensures GroupSizes([item] + rest, schemas) == GroupSizes(rest, schemas) + Occurrences(schemas, SchemaOf(item))
    decreases |schemas|
  {
    if |schemas| > 0 {
      GroupSizesCons(item, rest, schemas[1..]);
      assert ([item] + rest)[1..] == rest;
    }
  }

  /** Grouping partitions the selection: over distinct schemas that cover
      every item, the groups hold each item exactly once. */
  lemma {:induction false} GroupsPartition(selection: seq<Value>, schemas: seq<Value>)
    requires Distinct(schemas)
    requires forall i :: 0 <= i < |selection| ==> SchemaOf(selection[i]) in schemas
    ensures GroupSizes(selection, schemas) == |selection|
    decreases |selection|
  {
    if |selection| == 0 {
      EmptyGroups(schemas);
    } else {
      assert selection == [selection[0]] + selection[1..];
      GroupSizesCons(selection[0], selection[1..], schemas);
      OccursOnce(schemas, SchemaOf(selection[0]));
      GroupsPartition(selection[1..], schemas);
    }
  }

  lemma {:induction false} EmptyGroups(schemas: seq<Value>)
    ensures GroupSizes([], schemas) == 0
    decreases |schemas|
  {
    if |schemas| > 0 {
      EmptyGroups(schemas[1..]);
    }
  }

  // ---------------------------------------------------------------------
  // updateExaminations and updateClinicExaminations
  // ---------------------------------------------------------------------

  /** `adeStatus || "inReview"` */
  function StatusOrDefault(adeStatus: Value): (r: Value)
    ensures Truthy(r)
    ensures Truthy(adeStatus) ==> r == adeStatus
    ensures !Truthy(adeStatus) ==> r == Str("inReview")
  {
    Or(adeStatus, Str("inReview"))
  }

  /** `{ user: user.grants.name, role: user.grants.role }`, throwing when the
      user or its grants are missing. */
  function UpdatedBy(user: Value): (r: Eval<Value>)
    ensures r.Ok? <==> !Nullish(user) && !Nullish(Get(user, "grants"))
    ensures r.Ok? ==> r.value == Obj(map["user" := Get(Get(user, "grants"), "name"), "role" := Get(Get(user, "grants"), "role")])
  {
    var grants :- Prop(user, "grants");
    if Nullish(grants) then Throws
    else Ok(Obj(map["user" := Get(grants, "name"), "role" := Get(grants, "role")]))
  }

  /** The `$set` of a review-status change, under the status field's name. */
  function StatusFields(field: string, status: Value, now: Value, updatedBy: Value): map<string, Value> {
    map[field := status, "updatedAt" := now, "updatedBy" := updatedBy]
  }

  /** One `updateOne` per item, filtered by the item's `uuid`. */
  function StatusUpdates(items: seq<Value>, field: string, status: Value, now: Value, updatedBy: Value): (r: seq<SetUpdate>)
    ensures |r| == |items|
    ensures forall i :: 0 <= i < |items| ==>
      r[i] == SetUpdate([Get(items[i], "uuid")], StatusFields(field, status, now, updatedBy))
  {
    seq(|items|, i requires 0 <= i < |items| => SetUpdate([Get(items[i], "uuid")], StatusFields(field, status, now, updatedBy)))
  }

  /** The commands for `<schema>.examinations`. */
  datatype SchemaBatch = SchemaBatch(schema: Value, updates: seq<SetUpdate>)

  function SchemaBatches(selection: seq<Value>, schemas: seq<Value>, status: Value, now: Value, updatedBy: Value): (r: seq<SchemaBatch>)
    ensures |r| == |schemas|
    ensures forall i :: 0 <= i < |schemas| ==>
      r[i] == SchemaBatch(schemas[i], StatusUpdates(Group(selection, schemas[i]), "state", status, now, updatedBy))
  {
    seq(|schemas|, i requires 0 <= i < |schemas| =>
      SchemaBatch(schemas[i], StatusUpdates(Group(selection, schemas[i]), "state", status, now, updatedBy)))
  }

  /** `updateExaminations`: nothing for an empty selection; otherwise one
      batch per distinct schema, in order of first occurrence, with one
      `state` update per item of that schema. Reading `s.schema` throws on a
      missing item, and reading `user.grants` on a missing user or grants. */
  function UpdateExaminations(selection: seq<Value>, user: Value, adeStatus: Value, now: Value): (r: Eval<seq<SchemaBatch>>)
    ensures |selection| == 0 ==> r == Ok([])
    ensures |selection| > 0 ==>
      (r.Ok? <==> (forall i :: 0 <= i < |selection| ==> !Nullish(selection[i])) && UpdatedBy(user).Ok?)
    ensures r.Ok? && |selection| > 0 ==>
      && |r.value| == |FirstOccurrences(Schemas(selection))|
      && forall i :: 0 <= i < |r.value| ==>
           && r.value[i].schema == FirstOccurrences(Schemas(selection))[i]
           && r.value[i].updates ==
                StatusUpdates(Group(selection, r.value[i].schema), "state", StatusOrDefault(adeStatus), now, UpdatedBy(user).value)
  {
    if |selection| == 0 then Ok([])
    else if exists i :: 0 <= i < |selection| && Nullish(selection[i]) then Throws
    else
      var updatedBy :- UpdatedBy(user);
      Ok(SchemaBatches(selection, FirstOccurrences(Schemas(selection)), StatusOrDefault(adeStatus), now, updatedBy))
  }

  /** The number of updates across a list of batches. */
  function UpdateCount(batches: seq<SchemaBatch>): nat
    decreases |batches|
  {
    if |batches| == 0 then 0 else |batches[0].updates| + UpdateCount(batches[1..])
  }

  lemma {:induction false} UpdateCountIsGroupSizes(selection: seq<Value>, schemas: seq<Value>, status: Value, now: Value, updatedBy: Value)
    ensures UpdateCount(SchemaBatches(selection, schemas, status, now, updatedBy)) == GroupSizes(selection, schemas)
    decreases |schemas|
  {
    if |schemas| > 0 {
      UpdateCountIsGroupSizes(selection, schemas[1..], status, now, updatedBy);
      assert SchemaBatches(selection, schemas, status, now, updatedBy)[1..] ==
        SchemaBatches(selection, schemas[1..], status, now, updatedBy);
    }
  }

  /** Each batch is for a different schema, every selected item is updated
      in the batch of its own schema, and there are exactly as many updates
      as selected items. */
  lemma UpdateExaminationsPartition(selection: seq<Value>, user: Value, adeStatus: Value, now: Value)
    requires UpdateExaminations(selection, user, adeStatus, now).Ok?
    ensures var batches := UpdateExaminations(selection, user, adeStatus, now).value;
      && (forall i, j :: 0 <= i < j < |batches| ==> batches[i].schema != batches[j].schema)
      && (forall k :: 0 <= k < |selection| ==> exists i :: 0 <= i < |batches| && batches[i].schema == SchemaOf(selection[k]))
      && UpdateCount(batches) == |selection|
  {
    if |selection| > 0 {
      var schemas := FirstOccurrences(Schemas(selection));
      var batches := UpdateExaminations(selection, user, adeStatus, now).value;
      forall k | 0 <= k < |selection|
        ensures SchemaOf(selection[k]) in schemas
      {
        assert Schemas(selection)[k] == SchemaOf(selection[k]);
      }
      forall k | 0 <= k < |selection|
        ensures exists i :: 0 <= i < |batches| && batches[i].schema == SchemaOf(selection[k])
      {
        var i :| 0 <= i < |schemas| && schemas[i] == SchemaOf(selection[k]);
        assert batches[i].schema == SchemaOf(selection[k]);
      }
      GroupsPartition(selection, schemas);
      assert batches == SchemaBatches(selection, schemas, StatusOrDefault(adeStatus), now, UpdatedBy(user).value);
      UpdateCountIsGroupSizes(selection, schemas, StatusOrDefault(adeStatus), now, UpdatedBy(user).value);
    }
  }

  /** `updateClinicExaminations`: nothing for an empty selection; otherwise
      one `adeStatus` update per item, in order, filtered by its `uuid`. */
  function UpdateClinicExaminations(selection: seq<Value>, user: Value, adeStatus: Value, now: Value): (r: Eval<seq<SetUpdate>>)
    ensures |selection| == 0 ==> r == Ok([])
    ensures |selection| > 0 ==>
      (r.Ok? <==> (forall i :: 0 <= i < |selection| ==> !Nullish(selection[i])) && UpdatedBy(user).Ok?)
    ensures r.Ok? ==> |r.value| == |selection|
    ensures r.Ok? ==> forall i :: 0 <= i < |selection| ==>
      && r.value[i].key == [Get(selection[i], "uuid")]
      && "adeStatus" in r.value[i].fields
      && r.value[i].fields["adeStatus"] == StatusOrDefault(adeStatus)
  {
    if |selection| == 0 then Ok([])
    else if exists i :: 0 <= i < |selection| && Nullish(selection[i]) then Throws
    else
      var updatedBy :- UpdatedBy(user);
      Ok(StatusUpdates(selection, "adeStatus", StatusOrDefault(adeStatus), now, updatedBy))
  }

  /** After a bulk write of status updates, every matched object document
      holds the new status, and documents no update names are unchanged. */
  lemma {:induction false} StatusApplied(s: Store, us: seq<SetUpdate>, field: string, status: Value)
    requires forall i :: 0 <= i < |us| ==> field in us[i].fields && us[i].fields[field] == status
    ensures ApplySets(s, us).Keys == s.Keys
    ensures forall i :: 0 <= i < |us| && us[i].key in s && s[us[i].key].Obj? ==>
      ApplySets(s, us)[us[i].key].Obj? && field in ApplySets(s, us)[us[i].key].fields && ApplySets(s, us)[us[i].key].fields[field] == status
    ensures forall k :: k in s && (forall i :: 0 <= i < |us| ==> us[i].key != k) ==> ApplySets(s, us)[k] == s[k]
    decreases |us|
  {
    if |us| > 0 {
      var s1 := ApplySet(s, us[0]);
      StatusApplied(s1, us[1..], field, status);
      forall i | 0 <= i < |us| && us[i].key in s && s[us[i].key].Obj?
        ensures ApplySets(s, us)[us[i].key].Obj? && field in ApplySets(s, us)[us[i].key].fields && ApplySets(s, us)[us[i].key].fields[field] == status
      {
        if i > 0 {
          assert us[i] == us[1..][i - 1];
          assert s1[us[i].key].Obj?;
        } else {
          StaysSet(s1, us[1..], us[0].key, field, status);
        }
      }
    }
  }

  /** A field set to `status` keeps it through later updates that set the same. */
  lemma {:induction false} StaysSet(s: Store, us: seq<SetUpdate>, k: Key, field: string, status: Value)
    requires forall i :: 0 <= i < |us| ==> field in us[i].fields && us[i].fields[field] == status
    requires k in s && s[k].Obj? && field in s[k].fields && s[k].fields[field] == status
    ensures ApplySets(s, us)[k].Obj? && field in ApplySets(s, us)[k].fields && ApplySets(s, us)[k].fields[field] == status
    decreases |us|
  {
    if |us| > 0 {
      StaysSet(ApplySet(s, us[0]), us[1..], k, field, status);
    }
  }
}

=== FILE: sync_examination.dfy ===
/** Migration of one submitted examination from the clinic intake store into
    the long-term store: the command builders of
    `src/utils/sync-one-examination.js` and the sequence of bulk writes its
    exported function performs.

    The store queries, the Firestore look-ups, `uuid()` and `new Date()` are
    parameters: the submitted form (or none), the users whose
    `patientIdPrefix` matches, the organization look-up, a stream of fresh
    ids and the current time. */
module SyncExamination {
  import opened JsValues
  import opened UpsertStore

  // ---------------------------------------------------------------------
  // The submitted form
  // ---------------------------------------------------------------------

  /** A clinic intake form: its `examination` object (the store query
      matches on `examination.patientId`, so it is always an object) and its
      other top-level fields (`patient`, `ekg`, `echo`, `attachements`,
      `recordings`, and whatever the migration adds with `extend`). */
  datatype Submission = Submission(examination: map<string, Value>, rest: map<string, Value>)

  /** A top-level field other than `examination`. */
  function Section(d: Submission, name: string): Value {
    Lookup(d.rest, name)
  }

  function PatientIdOf(d: Submission): Value {
    Lookup(d.examination, "patientId")
  }

  /** The request settings the migration reads (`state` is destructured but unused). */
  datatype Settings = Settings(protocol: Value, organization: Value, patientId: Value, user: Value)

  /** `patientId.substring(0,3)`, the prefix the actor is looked up by: the
      first three characters (or the whole id when it is shorter); only a
      string has `substring`, so anything else throws. */
  function ActorQueryPrefix(patientId: Value): (r: Eval<string>)
    ensures r.Ok? <==> patientId.Str?
    ensures r.Ok? ==> |r.value| == (if |patientId.s| < 3 then |patientId.s| else 3)
    ensures r.Ok? ==> StartsWith(patientId.s, r.value)
  {
    match patientId
    case Str(id) => Ok(if |id| < 3 then id else id[..3])
    case _ => Throws
  }

  /** `extend(examination, { protocol, organization, user, fbActor, fbOrganization })` */
  function Extend(d: Submission, settings: Settings, fbActor: Value, fbOrganization: Value): (r: Submission)
    ensures r.examination == d.examination
    ensures Section(r, "protocol") == settings.protocol && Section(r, "organization") == settings.organization
    ensures Section(r, "user") == settings.user
    ensures Section(r, "fbActor") == fbActor && Section(r, "fbOrganization") == fbOrganization
    ensures r.rest.Keys == d.rest.Keys + ExtendedFields
    ensures Section(r, "recordings") == Section(d, "recordings")
  {
    Submission(d.examination, d.rest + map[
      "protocol" := settings.protocol,
      "organization" := settings.organization,
      "user" := settings.user,
      "fbActor" := fbActor,
      "fbOrganization" := fbOrganization])
  }

  const ExtendedFields: set<string> := {"protocol", "organization", "user", "fbActor", "fbOrganization"}

  /** `extend` leaves every other field as it was. */
  lemma ExtendKeeps(d: Submission, settings: Settings, fbActor: Value, fbOrganization: Value, f: string)
    requires f !in ExtendedFields
    ensures Section(Extend(d, settings, fbActor, fbOrganization), f) == Section(d, f)
  {
  }

  // ---------------------------------------------------------------------
  // Forms
  // ---------------------------------------------------------------------

  /** The four form types, in the order the commands are built. */
  const FormTypes: seq<string> := ["patient", "ekg", "echo", "attachements"]

  /** The empty bilingual form `{ en: {}, uk: {} }`. */
  const EmptyBilingual: Value := Obj(map["en" := Obj(map[]), "uk" := Obj(map[])])

  /** The `data` of a form record: a present (truthy) section is stored under
      both `en` and `uk`; attachments are stored as they are, `[]` if absent. */
  function FormData(d: Submission, formType: string): Value {
    var section := Section(d, formType);
    if formType == "attachements" then
      (if Truthy(section) then section else Arr([]))
    else if Truthy(section) then Obj(map["en" := section, "uk" := section])
    else EmptyBilingual
  }

  /** The filter a form record is stored under: `(patientId, type)`. */
  function FormKey(record: Value): Key {
    [Get(record, "patientId"), Get(record, "type")]
  }

  function FormCommand(d: Submission, formType: string, id: string): (r: Upsert)
    ensures r.key == [PatientIdOf(d), Str(formType)] == FormKey(r.replacement)
    ensures Get(r.replacement, "id") == Str(id)
    ensures Get(r.replacement, "examinationId") == Lookup(d.examination, "id")
    ensures formType != "attachements" ==>
      var data := Get(r.replacement, "data");
      var section := Section(d, formType);
      data.Obj? && data.fields.Keys == {"en", "uk"} &&
      Get(data, "en") == Get(data, "uk") == (if Truthy(section) then section else Obj(map[]))
    ensures formType == "attachements" ==>
      Get(r.replacement, "data") == (if Truthy(Section(d, formType)) then Section(d, formType) else Arr([]))
  {
    var record := Obj(map[
      "id" := Str(id),
      "data" := FormData(d, formType),
      "type" := Str(formType),
      "examinationId" := Lookup(d.examination, "id"),
      "patientId" := PatientIdOf(d)]);
    Upsert([PatientIdOf(d), Str(formType)], record)
  }

  /** `buildFormCommands`: exactly one upsert per form type, in type order,
      each filtered on `(patientId, type)`; form i takes fresh id i. */
  function BuildFormCommands(d: Submission, ids: nat -> string): (r: seq<Upsert>)
    ensures |r| == 4
    ensures forall i :: 0 <= i < 4 ==> r[i].key == [PatientIdOf(d), Str(FormTypes[i])]
    ensures forall i :: 0 <= i < 4 ==> r[i].key == FormKey(r[i].replacement)
    ensures forall i :: 0 <= i < 4 ==> Get(r[i].replacement, "id") == Str(ids(i))
    ensures forall i :: 0 <= i < 3 ==>
      var data := Get(r[i].replacement, "data");
      var section := Section(d, FormTypes[i]);
      data.Obj? && data.fields.Keys == {"en", "uk"} &&
      Get(data, "en") == Get(data, "uk") == (if Truthy(section) then section else Obj(map[]))
    ensures Get(r[3].replacement, "data") ==
      (if Truthy(Section(d, "attachements")) then Section(d, "attachements") else Arr([]))
  {
    assert forall i :: 0 <= i < 3 ==> FormTypes[i] != "attachements";
    var r := seq(4, i requires 0 <= i < 4 => FormCommand(d, FormTypes[i], ids(i)));
    assert forall i :: 0 <= i < 4 ==> r[i] == FormCommand(d, FormTypes[i], ids(i));
    r
  }

  // ---------------------------------------------------------------------
  // Examination, actor, organization
  // ---------------------------------------------------------------------

  /** The fields the examination command overwrites. */
  const ExaminationFields: set<string> := {"state", "protocol", "org", "synchronizedAt", "actorId", "organization"}

  /** `buildExaminationCommand`: the examination marked "inReview" and tagged
      with the protocol, organization, time, actor and Firestore organization,
      upserted on `patientId`. Reading `fbActor.userId` and
      `fbOrganization.id` throws when either is missing. */
  function BuildExaminationCommand(d: Submission, now: Value): (r: Eval<seq<Upsert>>)
    ensures r.Ok? <==> !Nullish(Section(d, "fbActor")) && !Nullish(Section(d, "fbOrganization"))
    ensures r.Ok? ==> |r.value| == 1 && r.value[0].key == [PatientIdOf(d)]
    ensures r.Ok? ==> r.value[0].replacement.Obj?
    ensures r.Ok? && r.value[0].replacement.Obj? ==>
      var e := r.value[0].replacement.fields;
      && Lookup(e, "state") == Str("inReview")
      && Lookup(e, "protocol") == Section(d, "protocol")
      && Lookup(e, "org") == Section(d, "organization")
      && Lookup(e, "synchronizedAt") == now
      && Lookup(e, "actorId") == Get(Section(d, "fbActor"), "userId")
      && Lookup(e, "organization") == Get(Section(d, "fbOrganization"), "id")
      && e.Keys == d.examination.Keys + ExaminationFields
      && (forall f :: f in d.examination && f !in ExaminationFields ==> e[f] == d.examination[f])
  {
    var actorId :- Prop(Section(d, "fbActor"), "userId");
    var organizationId :- Prop(Section(d, "fbOrganization"), "id");
    var examination := d.examination + map[
      "state" := Str("inReview"),
      "protocol" := Section(d, "protocol"),
      "org" := Section(d, "organization"),
      "synchronizedAt" := now,
      "actorId" := actorId,
      "organization" := organizationId];
    Ok([Upsert([PatientIdOf(d)], Obj(examination))])
  }

  /** `buildActorCommand` behind its guard: one upsert of the actor on its
      `userId` when the actor exists, none otherwise. */
  function ActorCommands(fbActor: Value): (r: seq<Upsert>)
    ensures |r| > 0 <==> Truthy(fbActor)
    ensures |r| > 0 ==> r == [Upsert([Get(fbActor, "userId")], fbActor)]
  {
    if Truthy(fbActor) then [Upsert([Get(fbActor, "userId")], fbActor)] else []
  }

  /** `buildOrgCommand` behind its guard, as written: the organization is
      upserted on its `userId`, a field the examination does not use to
      refer to it. */
  function OrgCommandsAsWritten(fbOrganization: Value): (r: seq<Upsert>)
    ensures |r| > 0 <==> Truthy(fbOrganization)
    ensures |r| > 0 ==> r == [Upsert([Get(fbOrganization, "userId")], fbOrganization)]
  {
    if Truthy(fbOrganization) then [Upsert([Get(fbOrganization, "userId")], fbOrganization)] else []
  }

  /** `buildOrgCommand` as evidently intended: the organization upserted on
      its `id`, the value the examination stores as its `organization`. */
  function OrgCommands(fbOrganization: Value): (r: seq<Upsert>)
    ensures |r| > 0 <==> Truthy(fbOrganization)
    ensures |r| > 0 ==> r == [Upsert([Get(fbOrganization, "id")], fbOrganization)]
  {
    if Truthy(fbOrganization) then [Upsert([Get(fbOrganization, "id")], fbOrganization)] else []
  }

  /** As written, an organization document `{ id: "o1" }` is filed under an
      undefined key, not under the id the examination refers to it by. */
  lemma OrgKeyAsWrittenMisses()
    ensures var org := Obj(map["id" := Str("o1")]);
      OrgCommandsAsWritten(org)[0].key == [Undefined] &&
      OrgCommandsAsWritten(org)[0].key != [Get(org, "id")]
  {
  }

  // ---------------------------------------------------------------------
  // Filters carried by the stored documents
  // ---------------------------------------------------------------------

  /** The replacement holds the values its command filters on, field by
      field. The key-to-document store (`UpsertStore`) assumes this: only
      then does a later upsert with the same filter find the stored document
      again instead of inserting another. */
  predicate CarriesFilter(c: Upsert, fields: seq<string>) {
    |fields| == |c.key| && forall i :: 0 <= i < |fields| ==> Get(c.replacement, fields[i]) == c.key[i]
  }

  /** A single-field filter is carried when the replacement holds its value. */
  lemma CarriesSingleFilter(c: Upsert, field: string)
    requires |c.key| == 1
    ensures CarriesFilter(c, [field]) <==> Get(c.replacement, field) == c.key[0]
  {
    if CarriesFilter(c, [field]) {
      assert [field][0] == field;
    }
  }

  /** A form, filtered on `patientId` and `type`, stores a document that
      carries both values. */
  lemma FormCarriesFilter(d: Submission, formType: string, id: string)
    ensures CarriesFilter(FormCommand(d, formType, id), ["patientId", "type"])
  {
    var form := FormCommand(d, formType, id);
    assert form.key == FormKey(form.replacement);
  }

  /** The examination, filtered on `patientId`, stores a document that
      carries it. */
  lemma ExaminationCarriesFilter(d: Submission, now: Value)
    requires BuildExaminationCommand(d, now).Ok?
    ensures CarriesFilter(BuildExaminationCommand(d, now).value[0], ["patientId"])
  {
    var c := BuildExaminationCommand(d, now).value[0];
    assert "patientId" !in ExaminationFields;
    assert Lookup(c.replacement.fields, "patientId") == PatientIdOf(d);
    CarriesSingleFilter(c, "patientId");
  }

  /** The actor, filtered on `id` by its `userId`, carries its filter value
      exactly when the two fields agree; the intended organization, filtered
      on `id` by its `id`, always does. */
  lemma LookupsCarryFilters(actor: Value, org: Value)
    ensures Truthy(actor) ==> (CarriesFilter(ActorCommands(actor)[0], ["id"]) <==> Get(actor, "id") == Get(actor, "userId"))
    ensures Truthy(org) ==> CarriesFilter(OrgCommands(org)[0], ["id"])
  {
    if Truthy(actor) {
      CarriesSingleFilter(ActorCommands(actor)[0], "id");
    }
    if Truthy(org) {
      CarriesSingleFilter(OrgCommands(org)[0], "id");
    }
  }

  /** The organization as written carries its filter value exactly when its
      `id` and `userId` agree, which an organization with an `id` and no
      `userId` never does. */
  lemma OrgAsWrittenLosesFilter(org: Value)
    requires Truthy(org)
    ensures CarriesFilter(OrgCommandsAsWritten(org)[0], ["id"]) <==> Get(org, "id") == Get(org, "userId")
    ensures !CarriesFilter(OrgCommandsAsWritten(Obj(map["id" := Str("o1")]))[0], ["id"])
  {
    CarriesSingleFilter(OrgCommandsAsWritten(org)[0], "id");
    var o1 := Obj(map["id" := Str("o1")]);
    assert Get(o1, "userId") == Undefined && Get(o1, "id") == Str("o1");
    CarriesSingleFilter(OrgCommandsAsWritten(o1)[0], "id");
  }

  /** Every label command's document carries its four filter values. */
  lemma LabelCommandsCarryFilters(records: seq<LabelRecord>)
    ensures forall i :: 0 <= i < |records| ==>
      CarriesFilter(UpsertEach(records)[i], ["Examination ID", "Body Position", "Body Spot", "model"])
  {
    forall i | 0 <= i < |records|
      ensures CarriesFilter(UpsertEach(records)[i], ["Examination ID", "Body Position", "Body Spot", "model"])
    {
      DocumentCarriesKey(records[i]);
    }
  }

  /** As written, two different organizations without a `userId` are filed
      under the same key. In the key-to-document store the second replaces
      the first; in the document store neither replacement carries the
      undefined filter value (`OrgAsWrittenLosesFilter`), so each upsert finds
      no match and inserts another copy. Either way the organization cannot
      be found again by its key. */
  lemma OrgCommandsAsWrittenCollide(s: Store)
    ensures var o1 := Obj(map["id" := Str("o1")]);
      var o2 := Obj(map["id" := Str("o2")]);
      var after := Apply(Apply(s, OrgCommandsAsWritten(o1)), OrgCommandsAsWritten(o2));
      after[[Undefined]] == o2 && after.Keys == s.Keys + {[Undefined]}
  {
    var o1 := Obj(map["id" := Str("o1")]);
    var o2 := Obj(map["id" := Str("o2")]);
    assert OrgCommandsAsWritten(o1) == [Upsert([Undefined], o1)];
    assert OrgCommandsAsWritten(o2) == [Upsert([Undefined], o2)];
    ApplyKeys(s, OrgCommandsAsWritten(o1));
    ApplyKeys(Apply(s, OrgCommandsAsWritten(o1)), OrgCommandsAsWritten(o2));
  }

  /** As intended, the organization is stored under exactly the key the
      examination command records as the examination's `organization`, so
      organizations with different ids are kept apart. */
  lemma OrgCommandMatchesExamination(d: Submission, now: Value)
    requires Truthy(Section(d, "fbOrganization"))
    requires BuildExaminationCommand(d, now).Ok?
    ensures OrgCommands(Section(d, "fbOrganization"))[0].key ==
      [Lookup(BuildExaminationCommand(d, now).value[0].replacement.fields, "organization")]
  {
  }

  // ---------------------------------------------------------------------
  // Recordings
  // ---------------------------------------------------------------------

  /** `spotMap`: the recording spot names and their labels in the long-term store. */
  const SpotMap: map<string, string> := map[
    "mitral" := "Apex",
    "tricuspid" := "Tricuspid",
    "pulmonic" := "Pulmonic",
    "aortic" := "Aortic",
    "rightCarotid" := "Right Carotid",
    "leftCarotid" := "Left Carotid",
    "erbs" := "Erb's",
    "erbsRight" := "Erb's Right",
    "lowerBackLeft" := "Left Lower Lung",
    "lowerBackRight" := "Right Lower Lung",
    "middleBackLeft" := "Middle back left",
    "middleBackRight" := "Middle back right",
    "rightAbdomen" := "Right abdomen",
    "leftAbdomen" := "Left abdomen"
  ]

  /** `spotMap[spot]`: the label of a known spot name, `undefined` otherwise. */
  function SpotLabel(spot: Value): (r: Value)
    ensures r != Undefined <==> spot.Str? && spot.s in SpotMap
    ensures r != Undefined ==> r == Str(SpotMap[spot.s])
  {
    if spot.Str? && spot.s in SpotMap then Str(SpotMap[spot.s]) else Undefined
  }

  /** The map names 14 spots. */
  lemma SpotMapSize()
    ensures |SpotMap.Keys| == 14
  {
    // Rebuilt entry by entry, so that each name is compared only with the
    // names before it.
    var m: map<string, string> := map[];
    assert "mitral" !in m; m := m["mitral" := SpotMap["mitral"]];
    assert "tricuspid" !in m; m := m["tricuspid" := SpotMap["tricuspid"]];
    assert "pulmonic" !in m; m := m["pulmonic" := SpotMap["pulmonic"]];
    assert "aortic" !in m; m := m["aortic" := SpotMap["aortic"]];
    assert "rightCarotid" !in m; m := m["rightCarotid" := SpotMap["rightCarotid"]];
    assert "leftCarotid" !in m; m := m["leftCarotid" := SpotMap["leftCarotid"]];
    assert "erbs" !in m; m := m["erbs" := SpotMap["erbs"]];
    assert "erbsRight" !in m; m := m["erbsRight" := SpotMap["erbsRight"]];
    assert "lowerBackLeft" !in m; m := m["lowerBackLeft" := SpotMap["lowerBackLeft"]];
    assert "lowerBackRight" !in m; m := m["lowerBackRight" := SpotMap["lowerBackRight"]];
    assert "middleBackLeft" !in m; m := m["middleBackLeft" := SpotMap["middleBackLeft"]];
    assert "middleBackRight" !in m; m := m["middleBackRight" := SpotMap["middleBackRight"]];
    assert "rightAbdomen" !in m; m := m["rightAbdomen" := SpotMap["rightAbdomen"]];
    assert "leftAbdomen" !in m; m := m["leftAbdomen" := SpotMap["leftAbdomen"]];
    assert m == SpotMap;
  }

  /** `mitral` is the apex, and no two spots share a label. */
  lemma SpotMapLabels()
    ensures SpotMap["mitral"] == "Apex" && SpotMap["erbsRight"] == "Erb's Right"
    ensures forall a, b :: a in SpotMap && b in SpotMap && a != b ==> SpotMap[a] != SpotMap[b]
  {
  }

  /** What a recording needs for its label record to be built: the recording
      and its `Source`, the submitting user's `submit` settings and the
      patient form must all be present. */
  predicate RecordReadable(d: Submission, recording: Value) {
    && !Nullish(recording)
    && !Nullish(Get(recording, "Source"))
    && !Nullish(Section(d, "user"))
    && !Nullish(Get(Section(d, "user"), "submit"))
    && !Nullish(Section(d, "patient"))
  }

  /** A label record (`buildRecordCommands`, the first map): the fields read
      from the submission and the recording, and the fixed review fields its
      document adds. */
  datatype LabelRecord = LabelRecord(
    id: string, examinationId: Value, source: Value, clinic: Value,
    age: Value, sexAtBirth: Value, ethnicity: Value, model: Value,
    deviceDescription: Value, bodyPosition: Value, bodySpot: Value,
    path: Value, updatedAt: Value)
  {
    /** The stored document, with its 25 fields. The filter fields come last
        in the display, so a look-up finds them without comparing field names
        with the rest. */
    function Document(): Value {
      Obj(map[
        "id" := Str(id),
        "Source" := source,
        "Clinic" := clinic,
        "Age (Years)" := age,
        "Sex at Birth" := sexAtBirth,
        "Ethnicity" := ethnicity,
        "deviceDescription" := deviceDescription,
        "Type of artifacts , Artifact" := Arr([]),
        "Systolic murmurs" := Arr([]),
        "Diastolic murmurs" := Arr([]),
        "Other murmurs" := Arr([]),
        "Pathological findings" := Arr([]),
        "path" := path,
        "state" := Str("Assign 2nd expert"),
        "CMO" := Str("Yaroslav Shpak"),
        "TODO" := Str("Assign 2nd expert"),
        "updated at" := updatedAt,
        "updated by" := Str("import utils"),
        "Stage Comment" := Str("Added by import utils"),
        "assigned to" := Str("Oleh Shpak"),
        "Lung Sound Informativeness" := Str("Non assessed"),
        "Examination ID" := examinationId,
        "Body Position" := bodyPosition,
        "Body Spot" := bodySpot,
        "model" := model])
    }

    /** The filter the record is stored under:
        `(Examination ID, Body Position, Body Spot, model)`. */
    function Key(): Key {
      [examinationId, bodyPosition, bodySpot, model]
    }
  }

  /** The filter of a label document, read from its fields. */
  function RecordKey(document: Value): Key {
    [Get(document, "Examination ID"), Get(document, "Body Position"), Get(document, "Body Spot"), Get(document, "model")]
  }

  /** A label document carries its own filter values, so the upsert finds it again. */
  lemma DocumentCarriesKey(rec: LabelRecord)
    ensures RecordKey(rec.Document()) == rec.Key()
  {
  }

  /** The label record of one recording; reading `d.Source`,
      `data.user.submit.clinic`, `data.patient.age` and `d.Source.path`
      throws when the object read from is missing. */
  function BuildRecord(d: Submission, recording: Value, id: string, now: Value): (r: Eval<LabelRecord>)
    ensures r.Ok? <==> RecordReadable(d, recording)
    ensures r.Ok? ==>
      && r.value.Key() ==
           [PatientIdOf(d), Get(recording, "bodyPosition"), SpotLabel(Get(recording, "spot")), Get(recording, "device")]
      && r.value.id == id
      && r.value.source == Get(recording, "Source")
      && r.value.path == Get(Get(recording, "Source"), "path")
      && r.value.clinic == Get(Get(Section(d, "user"), "submit"), "clinic")
      && r.value.age == Get(Section(d, "patient"), "age")
      && r.value.updatedAt == now
  {
    var source :- Prop(recording, "Source");
    var submit :- Prop(Section(d, "user"), "submit");
    var clinic :- Prop(submit, "clinic");
    var age :- Prop(Section(d, "patient"), "age");
    var path :- Prop(source, "path");
    Ok(LabelRecord(
      id, PatientIdOf(d), source, clinic,
      age, Get(Section(d, "patient"), "sex_at_birth"), Get(Section(d, "patient"), "ethnicity"), Get(recording, "device"),
      Get(recording, "deviceDescription"), Get(recording, "bodyPosition"), SpotLabel(Get(recording, "spot")),
      path, now))
  }

  /** The label records of a list of recordings, in order; throws as soon as one does. */
  function BuildRecords(d: Submission, recordings: seq<Value>, ids: nat -> string, now: Value): (r: Eval<seq<LabelRecord>>)
    ensures r.Ok? <==> forall i :: 0 <= i < |recordings| ==> RecordReadable(d, recordings[i])
    ensures r.Ok? ==> |r.value| == |recordings|
    ensures r.Ok? ==> forall i :: 0 <= i < |recordings| ==> Ok(r.value[i]) == BuildRecord(d, recordings[i], ids(i), now)
  {
    BuildRecordsFrom(d, recordings, ids, now, 0)
  }

  /** The label records of `recordings[k..]`, the i-th with fresh id `ids(i)`. */
  function BuildRecordsFrom(d: Submission, recordings: seq<Value>, ids: nat -> string, now: Value, k: nat): (r: Eval<seq<LabelRecord>>)
    requires k <= |recordings|
    ensures r.Ok? <==> forall i :: k <= i < |recordings| ==> RecordReadable(d, recordings[i])
    ensures r.Ok? ==> |r.value| == |recordings| - k
    ensures r.Ok? ==> forall i :: k <= i < |recordings| ==> Ok(r.value[i - k]) == BuildRecord(d, recordings[i], ids(i), now)
    decreases |recordings| - k
  {
    if k == |recordings| then Ok([])
    else
      var first := BuildRecord(d, recordings[k], ids(k), now);
      var rest := BuildRecordsFrom(d, recordings, ids, now, k + 1);
      if first.Throws? || rest.Throws? then Throws
      else Ok([first.value] + rest.value)
  }

  /** Commands upserting each record's document on its filter. */
  function UpsertEach(records: seq<LabelRecord>): (r: seq<Upsert>)
    ensures |r| == |records|
    ensures forall i :: 0 <= i < |records| ==> r[i] == Upsert(records[i].Key(), records[i].Document())
  {
    seq(|records|, i requires 0 <= i < |records| => Upsert(records[i].Key(), records[i].Document()))
  }

  /** `buildRecordCommands`: one upsert per recording, in input order, keyed
      by `(Examination ID, Body Position, Body Spot, model)`. `.map` throws
      unless `recordings` is an array. */
  function BuildRecordCommands(d: Submission, ids: nat -> string, now: Value): (r: Eval<seq<Upsert>>)
    ensures r.Ok? <==> (Section(d, "recordings").Arr? &&
      forall i :: 0 <= i < |Section(d, "recordings").items| ==> RecordReadable(d, Section(d, "recordings").items[i]))
    ensures r.Ok? ==>
      var recordings := Section(d, "recordings").items;
      && |r.value| == |recordings|
      && (forall i :: 0 <= i < |recordings| ==>
            && r.value[i].key ==
                 [PatientIdOf(d), Get(recordings[i], "bodyPosition"), SpotLabel(Get(recordings[i], "spot")), Get(recordings[i], "device")]
            && (exists rec: LabelRecord ::
                 && Ok(rec) == BuildRecord(d, recordings[i], ids(i), now)
                 && r.value[i] == Upsert(rec.Key(), rec.Document())))
  {
    var recordings := Section(d, "recordings");
    if !recordings.Arr? then Throws
    else
      var records :- BuildRecords(d, recordings.items, ids, now);
      Ok(UpsertEach(records))
  }

  /** Record keys do not depend on the fresh ids or the time, so a re-run
      addresses the same documents. */
  lemma RecordKeysIgnoreIdsAndTime(d: Submission, ids1: nat -> string, now1: Value, ids2: nat -> string, now2: Value)
    ensures BuildRecordCommands(d, ids1, now1).Ok? <==> BuildRecordCommands(d, ids2, now2).Ok?
    ensures BuildRecordCommands(d, ids1, now1).Ok? ==>
      KeySeq(BuildRecordCommands(d, ids1, now1).value) == KeySeq(BuildRecordCommands(d, ids2, now2).value)
  {
  }

  /** Applying the record commands of two runs leaves the labels store as
      the second run alone would, with the key set of the first. */
  lemma RecordCommandsRerun(s: Store, d: Submission, ids1: nat -> string, now1: Value, ids2: nat -> string, now2: Value)
    requires BuildRecordCommands(d, ids1, now1).Ok?
    ensures BuildRecordCommands(d, ids2, now2).Ok?
    ensures var first := BuildRecordCommands(d, ids1, now1).value;
      var second := BuildRecordCommands(d, ids2, now2).value;
      Apply(Apply(s, first), second) == Apply(s, second) &&
      Apply(Apply(s, first), second).Keys == Apply(s, first).Keys
  {
    RecordKeysIgnoreIdsAndTime(d, ids1, now1, ids2, now2);
    RerunWithSameKeys(s, BuildRecordCommands(d, ids1, now1).value, BuildRecordCommands(d, ids2, now2).value);
  }

  // ---------------------------------------------------------------------
  // The exported function
  // ---------------------------------------------------------------------

  /** The long-term collections the migration writes to. */
  datatype Target = Users | Organizations | Examinations | Forms | Labels

  datatype BulkWrite = BulkWrite(target: Target, commands: seq<Upsert>)

  /** Nothing submitted (the function returns `undefined`), the returned
      label records, or a thrown exception. */
  datatype SyncOutcome = NoSubmission | Synced(records: seq<Value>) | Aborted

  /** The bulk writes performed, in order, and how the function ended. */
  datatype SyncRun = SyncRun(writes: seq<BulkWrite>, outcome: SyncOutcome)

  function Targets(writes: seq<BulkWrite>): (r: seq<Target>)
    ensures |r| == |writes|
    ensures forall i :: 0 <= i < |writes| ==> r[i] == writes[i].target
  {
    seq(|writes|, i requires 0 <= i < |writes| => writes[i].target)
  }

  lemma TargetsAppend(a: seq<BulkWrite>, b: seq<BulkWrite>)
    ensures Targets(a + b) == Targets(a) + Targets(b)
  {
  }

  /** A bulk write only when there is something to write (`if (commands.length > 0)`). */
  function WriteIfAny(target: Target, commands: seq<Upsert>): (r: seq<BulkWrite>)
    ensures |r| <= 1
    ensures |r| == 1 <==> |commands| > 0
    ensures |r| == 1 ==> r[0] == BulkWrite(target, commands)
    ensures Targets(r) == if |commands| > 0 then [target] else []
  {
    if |commands| > 0 then [BulkWrite(target, commands)] else []
  }

  /** `fbActor[0]` of the users query. */
  function FirstActor(actorHits: seq<Value>): Value {
    if |actorHits| > 0 then actorHits[0] else Undefined
  }

  /** The organization looked up only when the actor exists. */
  function OrganizationFor(fbActor: Value, organizationOf: Value -> Value): Value {
    if Truthy(fbActor) then organizationOf(Get(fbActor, "organization")) else Undefined
  }

  /** The actor and organization writes, each only when its document exists,
      as written: the organization is filed under its `userId`. */
  function LookupWrites(fbActor: Value, fbOrganization: Value): (r: seq<BulkWrite>)
    ensures Users in Targets(r) <==> Truthy(fbActor)
    ensures Organizations in Targets(r) <==> Truthy(fbOrganization)
    ensures Examinations !in Targets(r) && Forms !in Targets(r) && Labels !in Targets(r)
    ensures forall i :: 0 <= i < |r| && r[i].target == Users ==>
      KeySeq(r[i].commands) == [[Get(fbActor, "userId")]]
    ensures forall i :: 0 <= i < |r| && r[i].target == Organizations ==>
      KeySeq(r[i].commands) == [[Get(fbOrganization, "userId")]]
  {
    TargetsAppend(WriteIfAny(Users, ActorCommands(fbActor)), WriteIfAny(Organizations, OrgCommandsAsWritten(fbOrganization)));
    WriteIfAny(Users, ActorCommands(fbActor)) + WriteIfAny(Organizations, OrgCommandsAsWritten(fbOrganization))
  }

  /** The actor and organization writes as evidently intended: the
      organization is filed under its `id`. */
  function LookupWritesIntended(fbActor: Value, fbOrganization: Value): (r: seq<BulkWrite>)
    ensures Users in Targets(r) <==> Truthy(fbActor)
    ensures Organizations in Targets(r) <==> Truthy(fbOrganization)
    ensures Examinations !in Targets(r) && Forms !in Targets(r) && Labels !in Targets(r)
    ensures forall i :: 0 <= i < |r| && r[i].target == Users ==>
      KeySeq(r[i].commands) == [[Get(fbActor, "userId")]]
    ensures forall i :: 0 <= i < |r| && r[i].target == Organizations ==>
      KeySeq(r[i].commands) == [[Get(fbOrganization, "id")]]
  {
    TargetsAppend(WriteIfAny(Users, ActorCommands(fbActor)), WriteIfAny(Organizations, OrgCommands(fbOrganization)));
    WriteIfAny(Users, ActorCommands(fbActor)) + WriteIfAny(Organizations, OrgCommands(fbOrganization))
  }

  /** The intended look-up writes go to the same collections in the same
      order as those written, and the actor write is the same. */
  lemma LookupWritesAgree(fbActor: Value, fbOrganization: Value)
    ensures Targets(LookupWritesIntended(fbActor, fbOrganization)) == Targets(LookupWrites(fbActor, fbOrganization))
    ensures var intended := LookupWritesIntended(fbActor, fbOrganization);
      forall i :: 0 <= i < |intended| && intended[i].target != Organizations ==>
        intended[i] == LookupWrites(fbActor, fbOrganization)[i]
  {
    var actor := WriteIfAny(Users, ActorCommands(fbActor));
    var org := WriteIfAny(Organizations, OrgCommands(fbOrganization));
    var orgAsWritten := WriteIfAny(Organizations, OrgCommandsAsWritten(fbOrganization));
    assert LookupWritesIntended(fbActor, fbOrganization) == actor + org;
    assert LookupWrites(fbActor, fbOrganization) == actor + orgAsWritten;
    if Truthy(fbOrganization) {
      assert org == [BulkWrite(Organizations, OrgCommands(fbOrganization))];
      assert orgAsWritten == [BulkWrite(Organizations, OrgCommandsAsWritten(fbOrganization))];
    } else {
      assert org == [] && orgAsWritten == [];
    }
    TargetsAppend(actor, org);
    TargetsAppend(actor, orgAsWritten);
    assert Targets(org) == Targets(orgAsWritten);
  }

  /** The record commands of a run: recordings take the fresh ids from 4 on,
      after the four forms. */
  function RunRecordCommands(d: Submission, uuids: nat -> string, now: Value): Eval<seq<Upsert>> {
    BuildRecordCommands(d, (i: nat) => uuids(i + 4), now)
  }

  /** The examination, form and label writes, given the three command
      lists: the examination command throwing stops the run before anything
      is written, the record commands throwing stops it after the forms. */
  function StoreWrites(examinationCommands: Eval<seq<Upsert>>, formCommands: seq<Upsert>,
                       recordCommands: Eval<seq<Upsert>>): (r: SyncRun)
    ensures Users !in Targets(r.writes) && Organizations !in Targets(r.writes)
    ensures r.outcome.Aborted? || r.outcome.Synced?
    ensures Examinations in Targets(r.writes) <==> examinationCommands.Ok?
    ensures r.outcome.Synced? <==> examinationCommands.Ok? && recordCommands.Ok?
    ensures r.outcome.Synced? ==>
      && r.outcome.records == Replacements(recordCommands.value)
      && Forms in Targets(r.writes)
      && (Labels in Targets(r.writes) <==> |r.outcome.records| > 0)
  {
    match examinationCommands
    case Throws => SyncRun([], Aborted)
    case Ok(examination) =>
      var stored := [BulkWrite(Examinations, examination), BulkWrite(Forms, formCommands)];
      assert Targets(stored) == [Examinations, Forms];
      match recordCommands
      case Throws => SyncRun(stored, Aborted)
      case Ok(records) =>
        TargetsAppend(stored, WriteIfAny(Labels, records));
        SyncRun(stored + WriteIfAny(Labels, records), Synced(Replacements(records)))
  }

  /** The examination, form and label writes of an extended submission. */
  function StoreExamination(d: Submission, uuids: nat -> string, now: Value): SyncRun {
    StoreWrites(BuildExaminationCommand(d, now), BuildFormCommands(d, uuids), RunRecordCommands(d, uuids, now))
  }

  /** The exported function: from the submitted form (if any), the actor and
      organization found, fresh ids and the time, the bulk writes in order
      (actor, organization, examination, forms, labels) and the outcome.
      Nothing is written when nothing was submitted; the actor and the
      organization are written only when found; a patient id that is not a
      string throws at the actor query, before any write; a missing actor or
      organization makes the examination command throw, after their writes. */
  function SyncOneExamination(settings: Settings, submitted: Option<Submission>,
                              actorHits: seq<Value>, organizationOf: Value -> Value,
                              uuids: nat -> string, now: Value): (r: SyncRun)
    ensures submitted.None? <==> r.outcome.NoSubmission?
    ensures submitted.None? ==> r.writes == []
    ensures submitted.Some? && !settings.patientId.Str? ==> r == SyncRun([], Aborted)
    ensures Users in Targets(r.writes) <==>
      submitted.Some? && settings.patientId.Str? && Truthy(FirstActor(actorHits))
    ensures Organizations in Targets(r.writes) <==>
      submitted.Some? && settings.patientId.Str? && Truthy(OrganizationFor(FirstActor(actorHits), organizationOf))
    ensures submitted.Some? && (Nullish(FirstActor(actorHits)) || Nullish(OrganizationFor(FirstActor(actorHits), organizationOf))) ==>
      r.outcome.Aborted? && Examinations !in Targets(r.writes)
    ensures forall i :: 0 <= i < |r.writes| && r.writes[i].target == Organizations ==>
      KeySeq(r.writes[i].commands) == [[Get(OrganizationFor(FirstActor(actorHits), organizationOf), "userId")]]
  {
    match submitted
    case None => SyncRun([], NoSubmission)
    case Some(form) =>
      match ActorQueryPrefix(settings.patientId)
      case Throws => SyncRun([], Aborted)
      case Ok(_) =>
        var fbActor := FirstActor(actorHits);
        var fbOrganization := OrganizationFor(fbActor, organizationOf);
        var early := LookupWrites(fbActor, fbOrganization);
        var stored := StoreSubmitted(settings, form, actorHits, organizationOf, uuids, now);
        LookupThenStore(early, stored.writes, [Get(fbOrganization, "userId")]);
        SyncRun(early + stored.writes, stored.outcome)
  }

  /** The examination, form and label writes of a submitted form, extended
      with the actor and organization found. They never touch the users or
      organizations, and a missing actor or organization aborts them before
      the examination write. */
  function StoreSubmitted(settings: Settings, form: Submission, actorHits: seq<Value>,
                          organizationOf: Value -> Value, uuids: nat -> string, now: Value): (r: SyncRun)
    ensures Users !in Targets(r.writes) && Organizations !in Targets(r.writes)
    ensures r.outcome.Aborted? || r.outcome.Synced?
    ensures Nullish(FirstActor(actorHits)) || Nullish(OrganizationFor(FirstActor(actorHits), organizationOf)) ==>
      r.outcome.Aborted? && Examinations !in Targets(r.writes)
  {
    var fbActor := FirstActor(actorHits);
    StoreExamination(Extend(form, settings, fbActor, OrganizationFor(fbActor, organizationOf)), uuids, now)
  }

  /** The exported function with the organization filed as evidently
      intended, under its `id`. It writes to the same targets in the same
      cases as the function as written (`IntendedAgreesWithAsWritten`). */
  function SyncOneExaminationIntended(settings: Settings, submitted: Option<Submission>,
                                      actorHits: seq<Value>, organizationOf: Value -> Value,
                                      uuids: nat -> string, now: Value): (r: SyncRun)
    ensures submitted.None? <==> r.outcome.NoSubmission?
    ensures submitted.None? ==> r.writes == []
    ensures submitted.Some? && !settings.patientId.Str? ==> r == SyncRun([], Aborted)
    ensures Users in Targets(r.writes) <==>
      submitted.Some? && settings.patientId.Str? && Truthy(FirstActor(actorHits))
    ensures Organizations in Targets(r.writes) <==>
      submitted.Some? && settings.patientId.Str? && Truthy(OrganizationFor(FirstActor(actorHits), organizationOf))
    ensures submitted.Some? && (Nullish(FirstActor(actorHits)) || Nullish(OrganizationFor(FirstActor(actorHits), organizationOf))) ==>
      r.outcome.Aborted? && Examinations !in Targets(r.writes)
    ensures forall i :: 0 <= i < |r.writes| && r.writes[i].target == Organizations ==>
      KeySeq(r.writes[i].commands) == [[Get(OrganizationFor(FirstActor(actorHits), organizationOf), "id")]]
  {
    match submitted
    case None => SyncRun([], NoSubmission)
    case Some(form) =>
      match ActorQueryPrefix(settings.patientId)
      case Throws => SyncRun([], Aborted)
      case Ok(_) =>
        var fbActor := FirstActor(actorHits);
        var fbOrganization := OrganizationFor(fbActor, organizationOf);
        var early := LookupWritesIntended(fbActor, fbOrganization);
        var stored := StoreSubmitted(settings, form, actorHits, organizationOf, uuids, now);
        LookupThenStore(early, stored.writes, [Get(fbOrganization, "id")]);
        SyncRun(early + stored.writes, stored.outcome)
  }

  /** The intended run differs from the run as written only in its
      organization write: same outcome, same targets in the same order, and
      every other write identical. */
  lemma IntendedAgreesWithAsWritten(settings: Settings, submitted: Option<Submission>,
                                    actorHits: seq<Value>, organizationOf: Value -> Value,
                                    uuids: nat -> string, now: Value)
    ensures var intended := SyncOneExaminationIntended(settings, submitted, actorHits, organizationOf, uuids, now);
      var asWritten := SyncOneExamination(settings, submitted, actorHits, organizationOf, uuids, now);
      && intended.outcome == asWritten.outcome
      && Targets(intended.writes) == Targets(asWritten.writes)
      && forall i :: 0 <= i < |intended.writes| && intended.writes[i].target != Organizations ==>
           intended.writes[i] == asWritten.writes[i]
  {
    if submitted.Some? && settings.patientId.Str? {
      var fbActor := FirstActor(actorHits);
      var fbOrganization := OrganizationFor(fbActor, organizationOf);
      var stored := StoreSubmitted(settings, submitted.value, actorHits, organizationOf, uuids, now);
      var early := LookupWritesIntended(fbActor, fbOrganization);
      var earlyAsWritten := LookupWrites(fbActor, fbOrganization);
      AsWrittenSplits(settings, submitted.value, actorHits, organizationOf, uuids, now);
      IntendedSplits(settings, submitted.value, actorHits, organizationOf, uuids, now);
      LookupWritesAgree(fbActor, fbOrganization);
      AppendAgrees(early, earlyAsWritten, stored.writes);
    }
  }

  /** A submitted run as written with a string patient id is its lookup
      writes followed by what the examination stage stores. */
  lemma AsWrittenSplits(settings: Settings, form: Submission,
                        actorHits: seq<Value>, organizationOf: Value -> Value,
                        uuids: nat -> string, now: Value)
    ensures var stored := StoreSubmitted(settings, form, actorHits, organizationOf, uuids, now);
      settings.patientId.Str? ==>
      SyncOneExamination(settings, Some(form), actorHits, organizationOf, uuids, now) ==
        SyncRun(LookupWrites(FirstActor(actorHits), OrganizationFor(FirstActor(actorHits), organizationOf)) + stored.writes,
                stored.outcome)
  {
  }

  /** The same decomposition for the intended run. */
  lemma IntendedSplits(settings: Settings, form: Submission,
                       actorHits: seq<Value>, organizationOf: Value -> Value,
                       uuids: nat -> string, now: Value)
    ensures var stored := StoreSubmitted(settings, form, actorHits, organizationOf, uuids, now);
      settings.patientId.Str? ==>
      SyncOneExaminationIntended(settings, Some(form), actorHits, organizationOf, uuids, now) ==
        SyncRun(LookupWritesIntended(FirstActor(actorHits), OrganizationFor(FirstActor(actorHits), organizationOf)) + stored.writes,
                stored.outcome)
  {
  }

  /** Appending writes to other targets leaves the organization writes
      where they were, in the first part. */
  lemma OrganizationWritesFirst(a: seq<BulkWrite>, b: seq<BulkWrite>)
    requires Organizations !in Targets(b)
    ensures forall i :: 0 <= i < |a + b| && (a + b)[i].target == Organizations ==> i < |a| && (a + b)[i] == a[i]
  {
    forall i | |a| <= i < |a + b|
      ensures (a + b)[i] == b[i - |a|] && (a + b)[i].target != Organizations
    {
      assert Targets(b)[i - |a|] == b[i - |a|].target;
    }
  }

  /** The look-up writes followed by the examination stage: the users and
      organizations come from the first part, the examination from the
      second, and the organization key is the look-up's. */
  lemma LookupThenStore(early: seq<BulkWrite>, later: seq<BulkWrite>, orgKey: Key)
    requires Examinations !in Targets(early)
    requires Users !in Targets(later) && Organizations !in Targets(later)
    requires forall i :: 0 <= i < |early| && early[i].target == Organizations ==> KeySeq(early[i].commands) == [orgKey]
    ensures Users in Targets(early + later) <==> Users in Targets(early)
    ensures Organizations in Targets(early + later) <==> Organizations in Targets(early)
    ensures Examinations in Targets(early + later) <==> Examinations in Targets(later)
    ensures forall i :: 0 <= i < |early + later| && (early + later)[i].target == Organizations ==>
      KeySeq((early + later)[i].commands) == [orgKey]
  {
    TargetsAppend(early, later);
    OrganizationWritesFirst(early, later);
  }

  /** Two write lists that agree except on their organization writes still
      agree so after the same writes to other targets are appended, and the
      organization writes all come from the first part. */
  lemma AppendAgrees(a1: seq<BulkWrite>, a2: seq<BulkWrite>, b: seq<BulkWrite>)
    requires Targets(a1) == Targets(a2)
    requires forall i :: 0 <= i < |a1| && a1[i].target != Organizations ==> a1[i] == a2[i]
    requires Organizations !in Targets(b)
    ensures Targets(a1 + b) == Targets(a2 + b)
    ensures forall i :: 0 <= i < |a1 + b| && (a1 + b)[i].target != Organizations ==> (a1 + b)[i] == (a2 + b)[i]
    ensures forall i :: 0 <= i < |a1 + b| && (a1 + b)[i].target == Organizations ==> i < |a1| && (a1 + b)[i] == a1[i]
  {
    TargetsAppend(a1, b);
    TargetsAppend(a2, b);
    OrganizationWritesFirst(a1, b);
    assert |a1| == |a2|;
    forall i | 0 <= i < |a1 + b| && (a1 + b)[i].target != Organizations
      ensures (a1 + b)[i] == (a2 + b)[i]
    {
      if i < |a1| {
        assert (a1 + b)[i] == a1[i] && (a2 + b)[i] == a2[i];
      } else {
        assert (a1 + b)[i] == b[i - |a1|] == (a2 + b)[i];
      }
    }
  }

  /** A completed run writes the examination and the four forms, and returns
      exactly the replacements of the label commands it wrote, one per
      recording. */
  lemma SyncedReturnsRecords(settings: Settings, form: Submission, actorHits: seq<Value>,
                             organizationOf: Value -> Value, uuids: nat -> string, now: Value)
    requires SyncOneExamination(settings, Some(form), actorHits, organizationOf, uuids, now).outcome.Synced?
    ensures var r := SyncOneExamination(settings, Some(form), actorHits, organizationOf, uuids, now);
      var d := Extend(form, settings, FirstActor(actorHits), OrganizationFor(FirstActor(actorHits), organizationOf));
      && RunRecordCommands(d, uuids, now).Ok?
      && r.outcome.records == Replacements(RunRecordCommands(d, uuids, now).value)
      && settings.patientId.Str?
      && Section(form, "recordings").Arr?
      && |r.outcome.records| == |Section(form, "recordings").items|
      && Examinations in Targets(r.writes) && Forms in Targets(r.writes)
      && (Labels in Targets(r.writes) <==> |r.outcome.records| > 0)
  {
    var fbActor := FirstActor(actorHits);
    var fbOrganization := OrganizationFor(fbActor, organizationOf);
    var d := Extend(form, settings, fbActor, fbOrganization);
    var stored := StoreExamination(d, uuids, now);
    assert stored == StoreSubmitted(settings, form, actorHits, organizationOf, uuids, now);
    AsWrittenSplits(settings, form, actorHits, organizationOf, uuids, now);
    TargetsAppend(LookupWrites(fbActor, fbOrganization), stored.writes);
    StoredRecords(d, uuids, now);
  }

  /** A completed store step returns one record per recording. */
  lemma StoredRecords(d: Submission, uuids: nat -> string, now: Value)
    requires StoreExamination(d, uuids, now).outcome.Synced?
    ensures RunRecordCommands(d, uuids, now).Ok?
    ensures Section(d, "recordings").Arr?
    ensures |StoreExamination(d, uuids, now).outcome.records| == |Section(d, "recordings").items|
  {
  }

  /** Two runs on the same form and look-ups, with different fresh ids and
      times, write to the same targets on the same keys in the same order.
      In the key-to-document store the second run therefore overwrites the
      first and adds nothing; in the document store that holds for the
      commands whose documents carry their filter values
      (`FormCarriesFilter`, `ExaminationCarriesFilter`, `LookupsCarryFilters`,
      `LabelCommandsCarryFilters`), which the organization as written does
      not (`OrgAsWrittenLosesFilter`). */
  lemma SyncRerunSameKeys(settings: Settings, submitted: Option<Submission>, actorHits: seq<Value>,
                          organizationOf: Value -> Value, uuids1: nat -> string, now1: Value,
                          uuids2: nat -> string, now2: Value)
    ensures SameKeyWrites(SyncOneExamination(settings, submitted, actorHits, organizationOf, uuids1, now1).writes,
                          SyncOneExamination(settings, submitted, actorHits, organizationOf, uuids2, now2).writes)
    ensures SyncOneExamination(settings, submitted, actorHits, organizationOf, uuids1, now1).outcome.Synced? ==
            SyncOneExamination(settings, submitted, actorHits, organizationOf, uuids2, now2).outcome.Synced?
  {
    if submitted.Some? && settings.patientId.Str? {
      var form := submitted.value;
      var fbActor := FirstActor(actorHits);
      var fbOrganization := OrganizationFor(fbActor, organizationOf);
      var d := Extend(form, settings, fbActor, fbOrganization);
      var early := LookupWrites(fbActor, fbOrganization);
      var stored1 := StoreExamination(d, uuids1, now1);
      var stored2 := StoreExamination(d, uuids2, now2);
      assert StoreSubmitted(settings, form, actorHits, organizationOf, uuids1, now1) == stored1;
      assert StoreSubmitted(settings, form, actorHits, organizationOf, uuids2, now2) == stored2;
      StoreRerunSameKeys(d, uuids1, now1, uuids2, now2);
      SameKeyWritesAppend(early, early, stored1.writes, stored2.writes);
    }
  }

  /** Two write lists to the same targets, in the same order, on the same keys. */
  predicate SameKeyWrites(w1: seq<BulkWrite>, w2: seq<BulkWrite>) {
    && |w1| == |w2|
    && forall i :: 0 <= i < |w1| ==> w1[i].target == w2[i].target && KeySeq(w1[i].commands) == KeySeq(w2[i].commands)
  }

  /** Same-key write lists stay so when joined. */
  lemma SameKeyWritesAppend(a1: seq<BulkWrite>, a2: seq<BulkWrite>, b1: seq<BulkWrite>, b2: seq<BulkWrite>)
    requires SameKeyWrites(a1, a2) && SameKeyWrites(b1, b2)
    ensures SameKeyWrites(a1 + b1, a2 + b2)
  {
    forall i | 0 <= i < |a1 + b1|
      ensures (a1 + b1)[i].target == (a2 + b2)[i].target
      ensures KeySeq((a1 + b1)[i].commands) == KeySeq((a2 + b2)[i].commands)
    {
      if i >= |a1| {
        assert (a1 + b1)[i] == b1[i - |a1|] && (a2 + b2)[i] == b2[i - |a1|];
      }
    }
  }

  /** The examination, form and label writes of two runs on the same form
      use the same keys, whatever the fresh ids and the time. */
  lemma StoreRerunSameKeys(d: Submission, uuids1: nat -> string, now1: Value, uuids2: nat -> string, now2: Value)
    ensures SameKeyWrites(StoreExamination(d, uuids1, now1).writes, StoreExamination(d, uuids2, now2).writes)
    ensures StoreExamination(d, uuids1, now1).outcome.Synced? == StoreExamination(d, uuids2, now2).outcome.Synced?
  {
    ExaminationKeys(d, now1, now2);
    FormKeys(d, uuids1, uuids2);
    RunRecordKeys(d, uuids1, now1, uuids2, now2);
    StoreWritesSameKeys(BuildExaminationCommand(d, now1), BuildFormCommands(d, uuids1), RunRecordCommands(d, uuids1, now1),
                        BuildExaminationCommand(d, now2), BuildFormCommands(d, uuids2), RunRecordCommands(d, uuids2, now2));
  }

  /** The examination command of two runs succeeds together and uses the same key. */
  lemma ExaminationKeys(d: Submission, now1: Value, now2: Value)
    ensures BuildExaminationCommand(d, now1).Ok? <==> BuildExaminationCommand(d, now2).Ok?
    ensures BuildExaminationCommand(d, now1).Ok? ==>
      KeySeq(BuildExaminationCommand(d, now1).value) == KeySeq(BuildExaminationCommand(d, now2).value)
  {
    var examination1 := BuildExaminationCommand(d, now1);
    var examination2 := BuildExaminationCommand(d, now2);
    assert examination1.Ok? ==> KeySeq(examination1.value) == [examination1.value[0].key];
    assert examination2.Ok? ==> KeySeq(examination2.value) == [examination2.value[0].key];
  }

  /** The form commands of two runs use the same keys. */
  lemma FormKeys(d: Submission, uuids1: nat -> string, uuids2: nat -> string)
    ensures KeySeq(BuildFormCommands(d, uuids1)) == KeySeq(BuildFormCommands(d, uuids2))
  {
    var forms1 := BuildFormCommands(d, uuids1);
    var forms2 := BuildFormCommands(d, uuids2);
    assert forall i :: 0 <= i < 4 ==> KeySeq(forms1)[i] == KeySeq(forms2)[i];
  }

  /** The label commands of two runs succeed together and use the same keys. */
  lemma RunRecordKeys(d: Submission, uuids1: nat -> string, now1: Value, uuids2: nat -> string, now2: Value)
    ensures RunRecordCommands(d, uuids1, now1).Ok? <==> RunRecordCommands(d, uuids2, now2).Ok?
    ensures RunRecordCommands(d, uuids1, now1).Ok? ==>
      KeySeq(RunRecordCommands(d, uuids1, now1).value) == KeySeq(RunRecordCommands(d, uuids2, now2).value)
  {
    RecordKeysIgnoreIdsAndTime(d, (i: nat) => uuids1(i + 4), now1, (i: nat) => uuids2(i + 4), now2);
  }

  /** Command lists on the same keys give bulk writes on the same keys. */
  lemma StoreWritesSameKeys(examination1: Eval<seq<Upsert>>, forms1: seq<Upsert>, records1: Eval<seq<Upsert>>,
                            examination2: Eval<seq<Upsert>>, forms2: seq<Upsert>, records2: Eval<seq<Upsert>>)
    requires examination1.Ok? <==> examination2.Ok?
    requires examination1.Ok? ==> KeySeq(examination1.value) == KeySeq(examination2.value)
    requires KeySeq(forms1) == KeySeq(forms2)
    requires records1.Ok? <==> records2.Ok?
    requires records1.Ok? ==> KeySeq(records1.value) == KeySeq(records2.value)
    ensures SameKeyWrites(StoreWrites(examination1, forms1, records1).writes, StoreWrites(examination2, forms2, records2).writes)
    ensures StoreWrites(examination1, forms1, records1).outcome.Synced? == StoreWrites(examination2, forms2, records2).outcome.Synced?
  {
    var r1 := StoreWrites(examination1, forms1, records1);
    var r2 := StoreWrites(examination2, forms2, records2);
    if examination1.Ok? {
      var stored1 := [BulkWrite(Examinations, examination1.value), BulkWrite(Forms, forms1)];
      var stored2 := [BulkWrite(Examinations, examination2.value), BulkWrite(Forms, forms2)];
      assert SameKeyWrites(stored1, stored2);
      if records1.Ok? {
        var labels1 := WriteIfAny(Labels, records1.value);
        var labels2 := WriteIfAny(Labels, records2.value);
        LabelsSameKeys(records1.value, records2.value);
        SameKeyWritesAppend(stored1, stored2, labels1, labels2);
        StoreWritesSynced(examination1.value, forms1, records1.value);
        StoreWritesSynced(examination2.value, forms2, records2.value);
      } else {
        assert r1.writes == stored1 && r2.writes == stored2;
      }
    } else {
      assert r1.writes == [] && r2.writes == [];
    }
  }

  /** Label commands on the same keys give label writes on the same keys. */
  lemma LabelsSameKeys(records1: seq<Upsert>, records2: seq<Upsert>)
    requires KeySeq(records1) == KeySeq(records2)
    ensures SameKeyWrites(WriteIfAny(Labels, records1), WriteIfAny(Labels, records2))
  {
  }

  /** A stored submission whose commands are all built writes the
      examination, the form and then any labels. */
  lemma StoreWritesSynced(examination: seq<Upsert>, forms: seq<Upsert>, records: seq<Upsert>)
    ensures StoreWrites(Ok(examination), forms, Ok(records)).writes
         == [BulkWrite(Examinations, examination), BulkWrite(Forms, forms)] + WriteIfAny(Labels, records)
  {
  }
}

=== FILE: upsert_store.dfy ===
/** The document stores as the migration and review code use them: a
    collection is a map from the tuple of values a command filters on to the
    document stored under it. `replaceOne` with `upsert: true` replaces or
    inserts; `updateOne` with `$set` merges fields into a matched document.
    A bulk write applies its commands in order. */
module UpsertStore {
  import opened JsValues

  /** The values of a command's filter fields, in the filter's field order. */
  type Key = seq<Value>

  type Store = map<Key, Value>

  /** `{ replaceOne: { filter, replacement, upsert: true } }` */
  datatype Upsert = Upsert(key: Key, replacement: Value)

  /** The keys of a command list, in command order. */
  function KeySeq(cs: seq<Upsert>): (r: seq<Key>)
    ensures |r| == |cs|
    ensures forall i :: 0 <= i < |cs| ==> r[i] == cs[i].key
  {
    if |cs| == 0 then [] else KeySeq(cs[..|cs| - 1]) + [cs[|cs| - 1].key]
  }

  /** The replacements of a command list, in command order. */
  function Replacements(cs: seq<Upsert>): (r: seq<Value>)
    ensures |r| == |cs|
    ensures forall i :: 0 <= i < |cs| ==> r[i] == cs[i].replacement
  {
    if |cs| == 0 then [] else Replacements(cs[..|cs| - 1]) + [cs[|cs| - 1].replacement]
  }

  /** A bulk write of upserts, one after the other. */
  function Apply(s: Store, cs: seq<Upsert>): Store
    decreases |cs|
  {
    if |cs| == 0 then s
    else
      var last := cs[|cs| - 1];
      Apply(s, cs[..|cs| - 1])[last.key := last.replacement]
  }

  /** Reference definition: the replacement of the last command on `k`, if any. */
  function LastWrite(cs: seq<Upsert>, k: Key): (r: Option<Value>)
    ensures r.Some? <==> k in KeySeq(cs)
    decreases |cs|
  {
    if |cs| == 0 then None
    else if cs[|cs| - 1].key == k then Some(cs[|cs| - 1].replacement)
    else
      var rest := LastWrite(cs[..|cs| - 1], k);
      assert KeySeq(cs) == KeySeq(cs[..|cs| - 1]) + [cs[|cs| - 1].key];
      rest
  }

  /** Last write wins: after a bulk write, a key holds the replacement of the
      last command on it, or its old document if no command names it. */
  lemma {:induction false} ApplyIsLastWrite(s: Store, cs: seq<Upsert>, k: Key)
    ensures k in Apply(s, cs) <==> k in s || k in KeySeq(cs)
    ensures k in Apply(s, cs) ==>
      Apply(s, cs)[k] == if LastWrite(cs, k).Some? then LastWrite(cs, k).value else s[k]
    decreases |cs|
  {
    if |cs| > 0 {
      ApplyIsLastWrite(s, cs[..|cs| - 1], k);
      assert KeySeq(cs) == KeySeq(cs[..|cs| - 1]) + [cs[|cs| - 1].key];
    }
  }

  /** The documents a bulk write leaves are the old ones plus one per named key. */
  lemma ApplyKeys(s: Store, cs: seq<Upsert>)
    ensures Apply(s, cs).Keys == s.Keys + set i | 0 <= i < |cs| :: cs[i].key
  {
    forall k
      ensures k in Apply(s, cs) <==> k in s || k in KeySeq(cs)
    {
      ApplyIsLastWrite(s, cs, k);
    }
    forall k | k in KeySeq(cs)
      ensures exists i :: 0 <= i < |cs| && cs[i].key == k
    {
      var i :| 0 <= i < |KeySeq(cs)| && KeySeq(cs)[i] == k;
    }
  }

  /** Documents under keys the commands do not name are left alone. */
  lemma ApplyLeavesOthers(s: Store, cs: seq<Upsert>, k: Key)
    requires k !in KeySeq(cs)
    ensures k in Apply(s, cs) <==> k in s
    ensures k in s ==> Apply(s, cs)[k] == s[k]
  {
    ApplyIsLastWrite(s, cs, k);
  }

  /** Running a bulk write a second time leaves the store as it was. */
  lemma ApplyIdempotent(s: Store, cs: seq<Upsert>)
    ensures Apply(Apply(s, cs), cs) == Apply(s, cs)
  {
    RerunWithSameKeys(s, cs, cs);
  }

  /** Re-running with commands on the same keys (fresh ids and timestamps in
      the replacements) leaves the store as if only the second run happened:
      nothing is duplicated and nothing of the first run survives. */
  lemma RerunWithSameKeys(s: Store, first: seq<Upsert>, second: seq<Upsert>)
    requires KeySeq(first) == KeySeq(second)
    ensures Apply(Apply(s, first), second) == Apply(s, second)
    ensures Apply(Apply(s, first), second).Keys == Apply(s, first).Keys
  {
    var once := Apply(s, first);
    forall k
      ensures k in Apply(once, second) <==> k in Apply(s, second)
      ensures k in Apply(s, second) ==> Apply(once, second)[k] == Apply(s, second)[k]
      ensures k in Apply(once, second) <==> k in once
    {
      ApplyIsLastWrite(s, first, k);
      ApplyIsLastWrite(once, second, k);
      ApplyIsLastWrite(s, second, k);
    }
  }

  /** `{ updateOne: { filter, update: { $set: fields } } }` without upsert. */
  datatype SetUpdate = SetUpdate(key: Key, fields: map<string, Value>)

  /** A matched object document gets the fields merged in; an unmatched key
      is not inserted. */
  function ApplySet(s: Store, u: SetUpdate): (r: Store)
    ensures r.Keys == s.Keys
    ensures forall k :: k in s && k != u.key ==> r[k] == s[k]
    ensures u.key in s && s[u.key].Obj? ==>
      r[u.key].Obj? &&
      (forall f :: f in u.fields ==> f in r[u.key].fields && r[u.key].fields[f] == u.fields[f]) &&
      (forall f :: f in s[u.key].fields && f !in u.fields ==> f in r[u.key].fields && r[u.key].fields[f] == s[u.key].fields[f]) &&
      r[u.key].fields.Keys == s[u.key].fields.Keys + u.fields.Keys
  {
    if u.key in s && s[u.key].Obj? then s[u.key := Obj(s[u.key].fields + u.fields)] else s
  }

  /** A bulk write of `$set` updates, in order. */
  function ApplySets(s: Store, us: seq<SetUpdate>): (r: Store)
    ensures r.Keys == s.Keys
    decreases |us|
  {
    if |us| == 0 then s else ApplySets(ApplySet(s, us[0]), us[1..])
  }
}
